=== FILE: README.md ===
# AK47 card game: a Dafny model of the game core

AK47 is a two-seat card game played in the browser: a human against the computer. Each seat holds
four cards. On a turn the player to move selects a card of their hand. They then either draw from
the deck (remote, or a local pile rebuilt from the discards) or take the top card of the discard
pile. The selected card goes onto the discard pile and the new card fills its slot.

The hand is then judged under one of three rule modes:

- `ak47`: the hand holds an ACE, a KING, a 4 and a 7.
- `pairs`: exactly two values occur exactly twice.
- `sequence`: the ranks, sorted, go up by one at every step.

A winning hand wins on the spot. A hand that is one card short of winning (a "near-win") sets a
must-declare flag. Ending a turn with that flag set and undeclared charges a penalty. The computer
chooses its moves by scoring every way of filling a slot.

This project models that core as pure functions over an immutable `GameState`, one module per
source file:

| module | models |
|---|---|
| `Opt` | `Option`, standing for JavaScript's `null`/`undefined` |
| `JsArray` | the `splice`, `slice` and `reverse` calls the game makes, with JavaScript's index clamping |
| `Sorting` | the numeric `sort((a, b) => a - b)` |
| `Cards` | the card record (its `value` string) and value counting |
| `Helpers` | `src/utils/helpers.js`: `shuffle`, `normalizeCardValue`, `getRandomCardBack` |
| `Win` | `src/game/win.js`: the rank table and the win and near-win predicates of every mode |
| `WinCases` | sequence-mode edge cases of `win.js`, stated for any four cards with the given ranks |
| `State` | `src/game/state.js`: the state record and its initial value |
| `Setup` | `src/game/setup.js`: `startNewGame` |
| `Turn` | `src/game/turn.js`: selection, discard, draw, reshuffle, take, refill, resolution, penalties, end of turn |
| `Ai` | `src/game/ai.js`: hand scoring, the discard choice, the take-or-draw decision and the whole computer turn |
| `Flows` | the turn sequences of `src/ui/events.js`: draw-pile click, discard-pile click, declare and start buttons |

Operations that mutate the shared `gameState` object become functions from a state to a
`Step(state, value)`. The statement order of each handler is kept.

Things outside the program become inputs:

- **The remote deck service.** Its answers are datatypes (`Turn.RemoteDraw`, `Setup.DeckReply`,
  `Setup.DealReply`); a failed request is an explicit variant.
- **`Math.random`.** It becomes a parameter `rolls: nat -> nat`. The Fisher–Yates step at index
  `i` swaps with `rolls(i) % (i + 1)`, which ranges over exactly the values
  `Math.floor(Math.random() * (i + 1))` can take.

JavaScript details are written out where the code relies on them:

- `valueOrder[v]` for an unknown value is `undefined`, which sorts after every number. Card
  values are taken to be the deck service's names, never the name of an `Object.prototype`
  property such as `constructor` or `toString`, for which the object lookups of the code would
  find an inherited value (see "## Left out").
- `undefined + 1` equals nothing, so `Win.Succ` is false whenever either side is unknown.
- `parseInt(v, 10)` skips leading white space, reads an optional sign and then a digit prefix;
  `NaN` is `None`. Its result is an exact integer here, so the lemmas that read a numeral back
  are stated up to 2^53, below which a double is exact too.
- `!gameState.deckId` treats both `null` and the empty string as missing.

Behaviour of the code a reader may not expect is modelled as written; it is listed at the end
of "## Left out".

## Model

| member | source | states |
|---|---|---|
| JsArray.RemoveAt | src/game/turn.js:28 | `splice(i, 1)` removes the i-th element: one shorter, later elements shift down one place, and the multiset loses exactly that element |
| JsArray.InsertAt | src/game/turn.js:118 | `splice(i, 0, x)` puts x at position i (clamped to the end): one longer, earlier elements stay, later ones shift up one place, and the multiset gains x |
| JsArray.ReplaceAt | src/game/ai.js:52 | `splice(i, 1, x)` overwrites position i when it exists and appends x otherwise |
| JsArray.Slice | src/game/setup.js:18 | `slice(lo, hi)` exactly, in every case: `s[lo..hi]` inside the array, `s[lo..]` when only the end runs past it, and empty when the end is at or before the start or the start is past the end |
| JsArray.Reverse | src/game/turn.js:82 | `reverse()` maps position k to position n - 1 - k and keeps the multiset |
| JsArray.RemoveThenInsert | src/game/turn.js:111-127 | removing slot i and re-inserting at slot i is the same as overwriting slot i; re-inserting the removed card gives back the hand |
| Sorting.SortAsc | src/game/win.js:60 | the numeric sort returns a sorted permutation of its input |
| Sorting.SortAscOfSortedPermutation | src/game/win.js:60 | the sort result depends only on the multiset: any sorted permutation of the input is the sort result |
| Cards.Values | src/game/win.js:45 | `hand.map(c => c.value)`: same length, i-th entry is the i-th card's value |
| Cards.Count | src/game/win.js:52 | a value has a positive count exactly when some card of the hand carries it |
| Cards.DuplicateCounts | src/game/win.js:50-56 | two distinct positions with the same value make that value's count at least two |
| Helpers.ShuffleDown | src/utils/helpers.js:4-7 | the Fisher–Yates loop from index i down yields a permutation and leaves every position above i as it was |
| Helpers.Shuffle | src/utils/helpers.js:2-9 | `shuffle` returns a permutation of its input, whatever the random choices |
| Helpers.ShuffleDownIdentity | src/utils/helpers.js:4-7 | the choice j = i at every step leaves the array unchanged, so the identity order is one possible outcome |
| Helpers.TrimStart | src/utils/helpers.js:14 | `parseInt` skips leading white space: the rest starts with a non-space, and input without leading space is unchanged |
| Helpers.TrimStartDropsOnlySpace | src/utils/helpers.js:14 | what `parseInt` skips is a prefix made only of white space; the rest is the input's suffix |
| Helpers.DigitPrefix | src/utils/helpers.js:14 | the digits `parseInt` reads are the longest all-digit prefix |
| Helpers.ParseInt10 | src/utils/helpers.js:14 | `parseInt(v, 10)` is `NaN` exactly when, after the leading white space and an optional sign, no digit follows; a negative result needs a leading minus |
| Helpers.ParseIntOfDecimal | src/utils/helpers.js:14 | `parseInt` of the decimal numeral of n is n, for every n up to 2^53, where a double is exact |
| Helpers.ParseIntOfNegatedDecimal | src/utils/helpers.js:14 | `parseInt` of "-" followed by the numeral of n is -n, for n up to 2^53 |
| Helpers.DigitsValueOfDecimal | src/utils/helpers.js:14 | reading back the decimal numeral of n gives n |
| Helpers.FaceValue | src/utils/helpers.js:13 | the face map gives a non-zero value exactly for JACK, QUEEN, KING and ACE |
| Helpers.NormalizeCardValue | src/utils/helpers.js:11-17 | a number `parseInt` reads is returned as it is; when `parseInt` fails, a face name maps into 11..14 and anything else falls back to 0 |
| Helpers.NormalizeDecimal | src/utils/helpers.js:14-15 | a decimal numeral up to 2^53 normalizes to its own number |
| Helpers.NormalizeFaces | src/utils/helpers.js:13 | JACK, QUEEN, KING and ACE normalize to 11, 12, 13 and 14 |
| Helpers.NormalizeNumberNames | src/utils/helpers.js:14-15 | the number cards "2" to "10" normalize to 2 to 10 |
| Helpers.LetterStartIsNaN | src/utils/helpers.js:14-15 | a string starting with a capital letter makes `parseInt` give NaN, so the face lookup decides |
| Helpers.NormalizeAgreesWithValueOrder | src/utils/helpers.js:11-17 | for each of the 13 card values, `normalizeCardValue` agrees with win.js's rank table |
| Helpers.GetRandomCardBack | src/utils/helpers.js:19-22 | an empty list yields `undefined`; otherwise the result is one of the listed backs |
| Helpers.EveryCardBackReachable | src/utils/helpers.js:19-22 | every listed back is chosen by some random draw |
| Win.ValueOrder | src/game/win.js:7-21 | the rank table is defined exactly on its 13 keys, with ranks in 2..14 |
| Win.ValueOrderTable | src/game/win.js:7-21 | the 13 keys are distinct, and the i-th (from ACE down) has rank 14 - i |
| Win.ValueOrderBijective | src/game/win.js:7-21 | no two keys share a rank, and every rank 2..14 has a key |
| Win.CountPresentIsSetSize | src/game/win.js:92-95 | counting the wanted values the hand includes is the size of the set of present wanted values |
| Win.MatchCount | src/game/win.js:92-95 | the AK47 counter is the number of distinct wanted values present, at most 4 |
| Win.IsAK47 | src/game/win.js:43-47 | the AK47 win holds iff the set of wanted values present is all of ACE, KING, 4, 7 |
| Win.IsPotentialAK47 | src/game/win.js:88-98 | the AK47 near-win holds iff exactly three of the four are present, and it excludes the win |
| Win.Tally | src/game/win.js:51-52 | the counts object has a key exactly for each value in the hand, holding that value's multiplicity |
| Win.TallyMultiplicity | src/game/win.js:54 | filtering the counts for k counts the distinct values of multiplicity exactly k |
| Win.HasTwoPairs | src/game/win.js:50-56 | the pairs win holds iff exactly two distinct values occur exactly twice |
| Win.IsPotentialTwoPairs | src/game/win.js:101-113 | the pairs near-win holds iff one value occurs twice and two occur once, and it excludes the win |
| Win.TwoPairsOfFour | src/game/win.js:50-56 | for four cards the pairs win is exactly the shape {v, v, w, w} with v != w |
| Win.NearTwoPairsOfFour | src/game/win.js:101-113 | for four cards the pairs near-win is exactly the shape {p, p, a, b} with p, a, b distinct |
| Win.TripleIsNoPairs | src/game/win.js:101-113 | three or four of a kind in four cards is neither a pairs win nor a pairs near-win |
| Win.KnownRanks | src/game/win.js:60 | the ranks of the known values lie in 2..14; the hand is fully ranked iff every value is in the table |
| Win.RankCountIsValueCount | src/game/win.js:60 | the number of cards with a key's rank is the number of cards with that key |
| Win.SortedRanks | src/game/win.js:60 | the known ranks, sorted ascending, as a permutation |
| Win.SortedNums | src/game/win.js:60 | the sorted array holds the sorted known ranks first, then one `undefined` per unknown value |
| Win.Succ | src/game/win.js:63 | `b === a + 1` with JavaScript's `undefined + 1 = NaN` and `NaN` equal to nothing holds exactly when both ranks are known and b is one more than a |
| Win.IsSequence | src/game/win.js:59-66 | fewer than two cards always pass, and a passing hand of two or more has every value in the rank table |
| Win.IsPotentialSequence | src/game/win.js:116-129 | a near-win needs at least three cards whose values are in the rank table |
| Win.SequenceWinIff | src/game/win.js:59-66 | `isSequence` holds iff the hand has at most one card, or every value is known and the ranks are a run m, m+1, ... |
| Win.RunIsSequence | src/game/win.js:59-66 | cards whose ranks form a run pass `isSequence`, in any order |
| Win.DuplicateBreaksSequence | src/game/win.js:59-66 | two cards of the same value never form a sequence |
| Win.SequenceNearIff | src/game/win.js:116-129 | `isPotentialSequence` holds iff some m has m and m+2 in the hand and m+1 exactly once |
| Win.HasWinningHand | src/game/win.js:26-40 | a rule mode other than ak47, pairs and sequence never wins (`Win.WinningHandMeans` gives the meaning of each mode's win) |
| Win.HasPotentialWinningHand | src/game/win.js:71-85 | a rule mode other than ak47, pairs and sequence is never a near-win (`Win.NearWinningHandMeans` gives each mode's near-win) |
| Win.WinningHandMeans | src/game/win.js:26-40 | the win test picks the mode's predicate (the value-set, two-pairs and run characterisations above) and is false for an unknown mode |
| Win.NearWinningHandMeans | src/game/win.js:71-85 | the near-win test picks the mode's predicate (three of four, one pair plus two singles, an adjacent three-step) and is false for an unknown mode |
| Win.WinExcludesNearWin | src/game/win.js:71-85 | outside sequence mode a hand is never both a win and a near-win |
| Win.SequenceWinIsNearWin | src/game/win.js:116-129 | in sequence mode a winning run of three or more cards is also a near-win |
| WinCases.AceIsHighOnly | src/game/win.js:59-66 | any cards whose known ranks are ACE, 2, 3, 4 are no sequence win: the ace ranks 14 only |
| WinCases.GapAfterThreeIsNearWin | src/game/win.js:116-129 | any cards whose known ranks are 5, 6, 7, 9 are a sequence near-win |
| WinCases.NoThreeRunInRepeat | src/game/win.js:116-129 | with known ranks 5, 6, 6, 7, no rank m has m and m + 2 held with m + 1 held exactly once |
| WinCases.RepeatInsideIsNoNearWin | src/game/win.js:116-129 | any cards whose known ranks are 5, 6, 6, 7 are no sequence near-win, although 5, 6, 7 is among them |
| State.FreshPlayer | src/game/state.js:9-10 | a seat starts with an empty hand, undeclared, no must-declare, allowed to win, no penalty |
| State.InitialState | src/game/state.js:1-31 | the load-time record: two fresh seats, no deck, empty piles, turn 0, seat 0 to move, no selection, AK47 mode |
| State.InitialPenaltyBook | src/game/state.js:1-31 | the load-time record is well formed and owes no penalty |
| State.PenaltyBookFrame | src/game/turn.js:161-178 | whether every recorded expiry turn has come depends only on the counter and those turns: a step that keeps the turns and does not turn the counter back keeps it |
| State.WithPlayer | src/game/state.js:8-11 | replacing one seat leaves the other seat as it was |
| Setup.DealCount | src/game/setup.js:11-12 | the deal request asks for four cards per seat, eight in all |
| Setup.HandFor | src/game/setup.js:18 | seat i gets exactly the i-th block of four of the batch; a short batch gives it whatever of that block there is, possibly nothing |
| Setup.StartNewGame | src/game/setup.js:5-28 | a failed deck request changes nothing; a failed deal keeps the new deck id; otherwise hands are dealt, the remaining count is taken, the discard pile is emptied and seat 0 moves |
| Setup.DealSplitsTheBatch | src/game/setup.js:16-19 | a full batch deals two four-card hands that, end to end, are the batch's first eight cards |
| Setup.ShortBatchDealsInOrder | src/game/setup.js:16-19 | a short batch is still dealt in order, first seat first |
| Setup.StartFromInitialState | src/game/setup.js:5-28 | starting from the load-time record gives four cards per seat and no penalty |
| Setup.RestartKeepsPenaltyBook | src/game/setup.js:5-28 | a restart, failed or not, keeps every recorded expiry turn come, although it gives the move to seat 0 |
| Setup.RestartKeepsStaleMarks | src/game/setup.js:21-25 | starting again keeps the turn counter, the local pile, the mode, the selection, the last-discarder mark and every seat flag |
| Turn.SelectCardForDiscard | src/game/turn.js:12-16 | selection succeeds iff the selecting seat is to move; only the selection changes |
| Turn.SelectOverwrites | src/game/turn.js:12-16 | a second selection by the mover replaces the first |
| Turn.DiscardSelectedCard | src/game/turn.js:21-36 | no selection: nothing happens; otherwise the selected card leaves the hand for the top of the discard pile, its seat becomes the last discarder and the selection stays |
| Turn.DiscardConservesCards | src/game/turn.js:21-36 | a discard only moves a card: the cards on the table are the same |
| Turn.OwnDiscardNotTakeable | src/game/turn.js:96-106 | right after discarding, the mover cannot take the card back |
| Turn.DrawFromDeck | src/game/turn.js:41-61 | the local pile's last card is drawn first; else a missing deck id, a non-positive count or a failed request is an error that changes nothing; else the served card is drawn, the service's count is taken and the empty local pile is left alone |
| Turn.LocalDrawConservesCards | src/game/turn.js:43-48 | a draw from the local pile only moves a card off the pile |
| Turn.ReshuffleDiscardToDraw | src/game/turn.js:65-90 | with two or more discards, all but the top are shuffled into the local pile and the top stays; otherwise nothing changes |
| Turn.ReshuffleConservesCards | src/game/turn.js:65-90 | a reshuffle into an empty local pile keeps the cards on the table |
| Turn.FirstDrawAfterReshuffle | src/game/turn.js:82 | because of the reversal, the first draw after a reshuffle is the first card of the shuffled array |
| Turn.TakeTopDiscard | src/game/turn.js:96-106 | the top discard is taken iff the pile is not empty and the mover did not make the last discard; a refusal changes nothing |
| Turn.TakeTopConservesCards | src/game/turn.js:96-106 | a take only moves the top card off the pile |
| Turn.TakeThenPushBack | src/game/turn.js:96-106 | pushing the taken card back restores the pile |
| Turn.ReplaceDiscardedSlotWith | src/game/turn.js:111-127 | with a selection, the new card is inserted at the selected slot and both marks are cleared; without one nothing changes |
| Turn.ReplaceAddsCard | src/game/turn.js:111-127 | a refill adds exactly the new card to the table |
| Turn.DiscardThenReplace | src/game/turn.js:21-127 | discard then refill overwrites the selected slot: same hand size, old card on top of the pile, table plus the new card |
| Turn.DiscardThenRestore | src/game/turn.js:21-127 | refilling with the discarded card gives back the hand |
| Turn.EvaluateDeclarationAfterDraw | src/game/turn.js:132-158 | win-now iff winning and allowed to win; penalty-active iff winning and blocked; must-declare iff a near-win that is no win; normal otherwise; only the must-declare flag changes |
| Turn.CompleteTurnAfterReplacement | src/game/turn.js:183-199 | win-now iff the mover's hand wins; must-declare iff a near-win that is no win; normal otherwise; never penalty-active |
| Turn.ResolutionsAgree | src/game/turn.js:132-199 | the two resolutions differ only in that the refill one ignores a penalty |
| Turn.ResolutionIgnoresPenalty | src/game/turn.js:183-199 | the refill resolution's answer does not depend on the penalty fields |
| Turn.ResolutionWinFirst | src/game/turn.js:187-194 | a sequence-mode run of three or more is also a near-win, and the win is reported first |
| Turn.ApplyPenaltyIfUndeclared | src/game/turn.js:161-168 | an undeclared must-declare blocks winning until the next turn number; nothing else changes |
| Turn.UpdatePenaltyStatus | src/game/turn.js:170-178 | a penalty due at the current turn is lifted; nothing else changes |
| Turn.EndTurn | src/game/turn.js:204-227 | the move passes to the other seat, the turn counter goes up by one, the selection is dropped and the incoming seat's declaration cleared; no hand, no must-declare flag and nothing outside the players changes |
| Turn.PassTurn | src/game/turn.js:210-226 | the hand-over after the penalty: the other seat moves one turn later with no selection and no declaration, the outgoing seat is untouched, and the incoming seat's penalty is lifted exactly when it is due at the new turn number |
| Turn.EndTurnPenalties | src/game/turn.js:204-227 | the outgoing seat is blocked until the next turn exactly when it left a near-win undeclared, and otherwise keeps its penalty state; the incoming seat's penalty is lifted exactly when it is due at the new turn number |
| Turn.EndTurnConservesCards | src/game/turn.js:204-227 | ending a turn moves no card |
| Turn.EndTurnTwiceRestoresIndex | src/game/turn.js:211-214 | two turn ends give the move back to the same seat, two turns later |
| Turn.EndTurnKeepsPenaltyBook | src/game/turn.js:204-227 | if every recorded expiry turn has come, it still has after the turn ends: the only new expiry turn is the counter's new value |
| Turn.EndTurnNeverLiftsPenalty | src/game/turn.js:216-218 | when every recorded expiry turn has come, the incoming seat's expiry turn is never the new counter value, so no blocked seat is unblocked |
| Turn.EndTurns | src/game/turn.js:204-227 | n turn ends advance the counter by n and move no card between hands |
| Turn.PenaltyNeverExpires | src/game/turn.js:170-218 | from any state whose recorded expiry turns have all come (the load-time state, and every state after a turn end or a restart from such a state), a blocked seat stays blocked through any number of turn ends |
| Turn.UndeclaredNearWinBlocksForever | src/game/turn.js:161-218 | from such a state, ending a turn with an undeclared must-declare blocks that seat's wins for good |
| Ai.BestPair | src/game/ai.js:29-34 | `bestPair` is the largest multiplicity of any value in the hand |
| Ai.ScoreHand | src/game/ai.js:21-37 | 1000 for a winning hand; otherwise 30 per AK47 value present plus 50 times the largest multiplicity |
| Ai.NonWinningScoreBound | src/game/ai.js:21-37 | a non-winning hand of at most four cards scores at most 320 |
| Ai.WinOutscores | src/game/ai.js:21-37 | a winning hand outscores every non-winning hand of at most four cards |
| Ai.ScoreIsModeIndependent | src/game/ai.js:24-36 | apart from the win bonus the score ignores the rule mode: it always counts AK47 values |
| Ai.AkValuesScoreInPairsMode | src/game/ai.js:24-36 | ACE, KING, 4, 7 is no pairs win but still scores 170 in pairs mode |
| Ai.Simulate | src/game/ai.js:49-56 | a simulated replacement overwrites slot i; a simulated removal drops exactly that card |
| Ai.SlotScores | src/game/ai.js:48-57 | one score per slot, each the score of that slot's simulation |
| Ai.BestOfFirst | src/game/ai.js:48-62 | among the first n slots the scan keeps a highest score, the first one on ties |
| Ai.ChooseDiscardIndex | src/game/ai.js:43-64 | the chosen slot has the highest simulated score and no earlier slot reaches it; 0 for an empty hand |
| Ai.ChosenSlotWinsIfAnyDoes | src/game/ai.js:43-64 | if putting the new card into some slot wins, putting it into the chosen slot wins too |
| Ai.ChooseReplacesTheNine | src/game/ai.js:43-64 | holding ACE, KING, 4, 9 and offered a 7 in AK47 mode, the 9 is replaced |
| Ai.ThreeCardRunScoresAsWin | src/game/ai.js:55-57 | the removal simulation judges a three-card hand, and a three-card run already wins in sequence mode |
| Ai.AiDecide | src/game/ai.js:86-113 | take the discard iff there is one, the AI did not discard it, and taking it improves the score, wins or near-wins; the slot is the best slot for that choice |
| Ai.TakesAWinningDiscard | src/game/ai.js:86-113 | if the top discard can complete a win in some slot, the AI takes it |
| Ai.PlannedTakeSucceeds | src/game/ai.js:115-121 | a planned take never fails, so the draw fallback is never used |
| Ai.Declare | src/game/ai.js:79-84 | declaring sets only the AI seat's declared flag |
| Ai.AutoDeclare | src/game/ai.js:79-84 | after the opening step the AI owes no declaration |
| Ai.DeclarePending | src/game/ai.js:78-84 | the opening auto-declaration changes only the AI's declared flag: the hands, the penalty state and the table are kept |
| Ai.Finish | src/game/ai.js:129-153 | a win stops with the state as it is; otherwise the AI declares if needed and ends the turn, never penalised, with the piles, the count, the marks and the flags outside the seats unchanged and the selection cleared |
| Ai.TakeAndFinish | src/game/ai.js:114-155 | the discard branch goes ahead exactly when the take succeeds; then the taken card sits in the chosen slot and the given-up card replaces it on top of the discard pile, the local pile and count are untouched, the marks are cleared, the opponent's hand is unchanged, and the turn stops on a win exactly when that hand wins and otherwise passes to the opponent, with the AI's penalty state kept |
| Ai.EndAiTurn | src/game/ai.js:137-151 | the AI's endTurn once nothing is left to declare: the turn passes to the opponent with the turn number one higher, the AI's win flag and penalty carry over, no hand changes, the selection is cleared and nothing outside the seats changes (`State.SameTable`) |
| Ai.DrawAndFinish | src/game/ai.js:157-203 | the draw branch, once any near-win is declared: the AI gives up the slot `chooseDiscardIndex(hand, null)` picks, and that card tops the discard pile; a drawn card (the local pile's last, which leaves the pile and lowers the count, else the service's, whose count is taken) fills that slot and the turn stops on a win exactly when the refilled hand wins; a failed draw (both sources dry) leaves the slot removed, the local pile, the count and the AI's last-discard mark as they were, and always ends the turn; the opponent's hand and the AI's penalty state are kept |
| Ai.PlayPlan | src/game/ai.js:113-203 | with no declaration owed, carrying out the decided plan ends as `Ai.PlayedAsPlanned` says for the hand and the result and as `Ai.TableAsPlanned` says for the piles, the count and the marks |
| Ai.TakePath | src/game/ai.js:115-155 | the take path succeeds iff the take does: the top discard overwrites the chosen slot and the discarded card tops the pile |
| Ai.DrawPath | src/game/ai.js:159-175 | the AI discards the given slot and draws: the slot's card tops the discard pile; the draw fails exactly when the local pile is empty and the deck id is missing, the count is used up or the request fails; a local card leaves the local pile and lowers the count, a served card sets the count to the service's; the drawn card refills the slot, and a failed draw leaves the hand one card short with the selection and the AI's last-discard mark still set |
| Ai.DiscardThenDraw | src/game/ai.js:161-175 | the same steps stated through `Turn.DrawFromDeck` on the record after the discard: the card reported, the local pile and the count are what that draw returns |
| Ai.DrawAfterDiscard | src/game/ai.js:161-168 | selecting and discarding leave the draw-side fields alone, so the AI's draw yields the local pile's last card (leaving the rest and a count one lower), else the service's card and count, and fails, changing neither, exactly when the local pile is empty and the deck id is missing, the count is used up or the request fails |
| Ai.AiTakeTurn | src/game/ai.js:69-203 | nothing happens off-turn; on its turn the AI carries out the plan `AiDecide` makes. For the hand (`Ai.PlayedAsPlanned`): a take puts the top in the planned slot, a draw puts the drawn card there or leaves the slot removed, and a refilled hand is reported as a win exactly when it wins. For the table (`Ai.TableAsPlanned`): the given-up card tops the discard pile (in place of the taken top); a draw fails exactly when both sources are dry, takes the local pile's last card and lowers the count or takes the service's card and count, and a failed draw changes neither and leaves the AI's last-discard mark. Otherwise the turn passes and the AI's penalty state is unchanged |
| Flows.SelectMakesSelectionByMover | src/ui/events.js:125-143 | a hand click on the mover's card leaves a selection by the mover of a card in hand |
| Flows.Resolve | src/ui/events.js:161-175 | a win stops; a must-declare stops without ending the turn; otherwise the turn ends; the mover is never penalised, and the piles and the count are untouched |
| Flows.Discard | src/ui/events.js:156 | the selected card leaves the mover's hand (`RemoveAt`) and tops the pile, marked as the mover's; the selection and draw-side fields stay |
| Flows.DrawStep | src/ui/events.js:158 | the local pile's last card first, which leaves the local pile and lowers the count; with an empty local pile, a card exactly when there is a deck id, a positive count and an answer, and that card and count are the answer's; a failure changes nothing |
| Flows.Complete | src/ui/events.js:159-175 | the new card fills the removed slot, and the resolution is win exactly when that hand wins and must-declare exactly when it is only a near-win; the piles and the count are untouched |
| Flows.DrawSwap | src/ui/events.js:155-191 | the discard happens first and tops the pile; the draw fails exactly when both sources are dry; a drawn card (the local pile's last, which leaves that pile and lowers the count, else the service's, whose count is taken) fills the slot and the win is judged on that hand; a failed draw leaves the hand one card short with the selection still set and the local pile and count unchanged |
| Flows.HumanDrawTurn | src/ui/events.js:149-192 | no selection stops the click; otherwise the selected card tops the discard pile, the draw fails exactly when both sources are dry, a drawn card leaves its source as `Flows.DrawSwap` says and refills the slot, and the player wins iff the refilled hand wins; a failed draw leaves the hand one card short |
| Flows.TakeSwap | src/ui/events.js:205-227 | the take is refused iff the pile is empty or the top is the mover's own; otherwise the top discard overwrites the selected slot and the discarded card tops the pile |
| Flows.TakeStep | src/ui/events.js:205-209 | the take gives the top card exactly when the pile is non-empty and the top is not the mover's own, popping it; a refusal changes nothing, and the hands, turn, selection and marks stay |
| Flows.HumanTakeTurn | src/ui/events.js:199-239 | no selection or a refused take changes nothing; otherwise the selected card replaces the taken top on the discard pile, and the player wins iff the hand with the taken card wins |
| Flows.TakeSwapConservesCards | src/ui/events.js:205-212 | a take-and-swap only moves cards |
| Flows.DrawSwapCards | src/ui/events.js:156-159 | a swap with a card from the local pile keeps the table's cards; a served card adds one |
| Flows.RetryAfterFailedDrawDiscardsAgain | src/ui/events.js:150-159 | after a failed draw the stale selection lets a second click discard another card |
| Flows.HumanDeclare | src/ui/events.js:247-259 | declaring succeeds iff seat 0 must declare, and then sets only its declared flag |
| Flows.DeclaredTurnEndsWithoutPenalty | src/ui/events.js:247-259 | a declared must-declare draws no penalty when the turn ends |
| Flows.ResetFlags | src/ui/events.js:96-100 | the start button clears declared and must-declare and allows winning, leaving the penalty turn as it was |
| Flows.StartButton | src/ui/events.js:80-109 | a failed start leaves what setup left; a started game additionally has every seat's flags reset |
| Flows.StartButtonResets | src/ui/events.js:80-109 | after a successful start each seat holds its dealt block, owes no declaration and may win, while its old penalty turn is still recorded |
| Flows.StartButtonKeepsPenaltyBook | src/ui/events.js:80-109 | the start button keeps every recorded expiry turn come, so the turn-end penalty lemmas apply to the game it deals |
| Flows.StartButtonLiftsPenalties | src/ui/events.js:96-100 | after a started game a winning hand of the mover resolves to win-now even under the penalty-aware resolution: no block survives |

## Left out

- Rendering, the DOM, toasts and `renderAll` are display only. Locking the board and the
  restart button's visibility are display state.
- Each click handler and the computer's turn are one atomic step. In the code every `await`
  (the sleeps and the deck requests) lets other clicks run in between, and the board is locked
  only on a win. For example, a draw-pile click during the computer's `await drawFromDeck()`
  would discard a second card from the computer's hand. Such interleavings are not modelled.
- `src/game/deck.js` (the HTTP calls to the deck service) is not part of this model; its answers
  are inputs.
- Card backs, the background picker and a card's suit, image and code are display only.
  `Helpers.GetRandomCardBack` is modelled; the UI that uses it is not.
- The two seats are fixed: `state.js` always creates two players, and every seat index is 0 or 1.
- `state.js` declares `drawPile`, but `turn.js` reads and writes `drawPileLocal`. The model has a
  single field `drawPileLocal`, initially empty, which matches the `undefined` the code first sees.
- The restart button (`events.js` 266-275) calls `startNewGame` without resetting flags:
  `Setup.StartNewGame` with `Setup.RestartKeepsStaleMarks` is that handler.
- The computer's reply after a passed human turn is `Ai.AiTakeTurn`, applied by the caller.
  The return-value strings are abstracted into `Ai.AiResult`.
- `Ai.AiTakeTurn`: the draw-path win returns `undefined` in the code, while the take-path win
  returns `'win-now'`. Both are `ComputerWins` here. `showToast` and `lockBoard` are not
  imported in `ai.js`, so the code would stop with an error at that point. The model ends there
  with the state after resolution.
- `Ai.AiTakeTurn` requires a non-empty AI hand when it is the AI's turn, although an empty one can arise:
  a failed draw ends the AI's turn one card short (ai.js:166-172, 199-202), and nothing
  reshuffles by itself, so once the deck is used up or the service is down, four failed draws in
  a row empty the hand. The next turn would then discard index 0 of an empty hand and push
  `undefined` onto the discard pile (turn.js:27-28), which a `Card` cannot hold.
- `Turn.DiscardSelectedCard` requires the selection to point into the selected seat's hand. An
  out-of-range index would push `undefined` onto the discard pile, and no selection made by the
  page has such an index.
- `Flows.HumanDrawTurn`: requires a selection made by the mover (`Flows.SelectionByMover`), as
  the hand-click handler guarantees. A stale selection into a shorter hand is excluded.
- `Flows.HumanTakeTurn`: requires the same selection shape as the draw flow.
- `Turn.DrawFromDeck`: a served answer carries exactly one card, the `count=1` request's answer.
  An empty card list from the service is not modelled.
- `Turn.EvaluateDeclarationAfterDraw` is modelled and compared with the refill resolution, but
  no modelled flow calls it, as none in the code does.
- `Win.ValueOrder`: assumes a card value is not the name of an `Object.prototype` property
  (`constructor`, `toString`, `__proto__`, `valueOf`, ...). For those `valueOrder[v]` finds an
  inherited value instead of `undefined`. The deck service never sends such names.
- `Win.Tally`: the same assumption. For such a name `counts[c.value] || 0` starts from the
  inherited value, so the count is not the multiplicity.
- `Helpers.FaceValue`: the same assumption. For such a name `map[v] ?? 0` is the inherited value,
  not 0.
- `Helpers.NormalizeCardValue`: the same assumption, through the face lookup; for `"toString"` the
  code returns a function where the model returns 0.
- `Helpers.ParseInt10`: JavaScript numbers are doubles. Above 2^53 `parseInt` rounds
  (`"9007199254740993"` gives 9007199254740992), and beyond about 1.8e308 it gives `Infinity`,
  which `normalizeCardValue` returns since `isNaN(Infinity)` is false. The model's integer is exact.
- `Helpers.ParseIntOfDecimal`: stated only for n up to 2^53, for that reason.
- `Helpers.ParseIntOfNegatedDecimal`: stated only for n up to 2^53, for the same reason.
- `Helpers.NormalizeDecimal`: stated only for n up to 2^53, for the same reason. The card values
  the deck service sends are "2" to "10".
- There is no definition of a reachable game state. The penalty book (every recorded expiry
  turn has come) is proved for the load-time state, across a turn end and across both start
  handlers; `State.PenaltyBookFrame` carries it across any step that keeps the counter and the
  expiry turns, but no lemma chains the steps of a whole game.
- Floating-point `Math.random` is replaced by integer choices; only the range of the choice matters.

Behaviour of the code a reader may not expect:

- **The penalty never expires with two seats.** A penalty is recorded for turn `t + 1` when the
  turn counter becomes `t + 1`. It is checked only for the incoming seat, which is the other seat
  (`Turn.PenaltyNeverExpires`).
- **The refill resolution never reports penalty-active.** `completeTurnAfterReplacement` ignores
  `canWinNextTurn`, so a blocked player still wins (`Turn.ResolutionIgnoresPenalty`).
- **No modelled flow charges a penalty.** The human handlers stop on must-declare without
  ending the turn. They end it only after the flag was just cleared. The computer always
  declares (`Flows.Resolve`, `Ai.Finish`).
- **In sequence mode a winning run of three or more is also a near-win.** A 4-card hand with a
  repeat inside (5, 6, 6, 7) is not a near-win, although three of its cards are a run
  (`Win.SequenceWinIsNearWin`, `WinCases.RepeatInsideIsNoNearWin`).
- **A failed AI draw never wins.** When the computer's draw fails, its turn ends without
  resolving the three cards left, even when they are a winning run in sequence mode
  (`Ai.DrawAndFinish`).
- **The start button does not clear `penaltyUntilTurn`.** It sets `canWinNextTurn` back to true
  (`Flows.StartButtonLiftsPenalties`).

=== FILE: ai.dfy ===
/**
 * The computer opponent: how it scores a hand, which slot it gives up, whether it takes
 * the discard top or draws, and the state its turn leaves behind.
 *
 * The pauses between steps and the re-rendering calls only affect the page and are not
 * part of the model. The rule mode is an explicit parameter, standing for the
 * `gameState.rules.winMode` that the win predicates read.
 */
module Ai {
  import opened Opt
  import opened JsArray
  import opened Cards
  import opened State
  import Win
  import Turn

  /* ---------------------------------------------------------------------
     scoreHand
     --------------------------------------------------------------------- */

  /** m is the largest number of times any one value occurs in the hand (0 for no cards). */
  ghost predicate LargestCount(hand: seq<Card>, m: nat) {
    && (forall i :: 0 <= i < |hand| ==> Count(hand, hand[i].value) <= m)
    && (|hand| == 0 ==> m == 0)
    && (|hand| > 0 ==> exists i :: 0 <= i < |hand| && Count(hand, hand[i].value) == m)
  }

  /** Splitting off the last card: its value gains one, every other value keeps its count. */
  lemma CountOfSnoc(hand: seq<Card>, v: string)
    requires |hand| > 0
    ensures var n := |hand|;
      Count(hand, v) == Count(hand[..n - 1], v) + (if v == hand[n - 1].value then 1 else 0)
  {
    var n := |hand|;
    assert Values(hand) == Values(hand[..n - 1]) + [hand[n - 1].value];
  }

  /** A value occurs at most as often as there are cards. */
  lemma CountAtMostSize(hand: seq<Card>, v: string)
    ensures Count(hand, v) <= |hand|
  {
    assert |multiset(Values(hand))| == |hand|;
    assert multiset{v}[v := Count(hand, v)] <= multiset(Values(hand));
  }

  /** Adding a card to the end: the largest count is the old one or the count of the added value, whichever is higher. */
  lemma LargestCountSnoc(hand: seq<Card>, before: nat)
    requires |hand| > 0 && LargestCount(hand[..|hand| - 1], before)
    ensures var here := Count(hand, hand[|hand| - 1].value);
      LargestCount(hand, if here > before then here else before)
  {
    var n := |hand|;
    var prefix := hand[..n - 1];
    var here := Count(hand, hand[n - 1].value);
    var best := if here > before then here else before;
    forall i | 0 <= i < n
      ensures Count(hand, hand[i].value) <= best
    {
      CountOfSnoc(hand, hand[i].value);
      if i < n - 1 && hand[i].value != hand[n - 1].value {
        assert prefix[i] == hand[i];
      }
    }
    if here <= before && n > 1 {
      var j :| 0 <= j < n - 1 && Count(prefix, prefix[j].value) == before;
      CountOfSnoc(hand, prefix[j].value);
      assert hand[j] == prefix[j];
      if hand[j].value != hand[n - 1].value {
        assert Count(hand, hand[j].value) == before;
      }
    }
  }

  /**
   * `bestPair`: the running maximum of the counts as the loop adds one card at a time.
   * Each value's count peaks at its last occurrence, so the result is the largest count.
   */
  function BestPair(hand: seq<Card>): (b: nat)
    ensures LargestCount(hand, b)
    ensures b <= |hand|
    decreases |hand|
  {
    if |hand| == 0 then 0
    else
      var n := |hand|;
      var before := BestPair(hand[..n - 1]);
      var here := Count(hand, hand[n - 1].value);
      LargestCountSnoc(hand, before);
      CountAtMostSize(hand, hand[n - 1].value);
      if here > before then here else before
  }

  /** scoreHand: 1000 for a win; else 30 per AK47 value present plus 50 times the largest count. */
  function ScoreHand(hand: seq<Card>, mode: string): (sc: nat)
    ensures Win.HasWinningHand(hand, mode) ==> sc == 1000
    ensures !Win.HasWinningHand(hand, mode) ==>
      exists m: nat :: LargestCount(hand, m) && sc == 30 * |Win.NeededPresent(hand)| + 50 * m
  {
    if Win.HasWinningHand(hand, mode) then 1000
    else 30 * Win.MatchCount(hand) + 50 * BestPair(hand)
  }

  /** For the hands of play (at most four cards), no hand short of a win reaches 320. */
  lemma NonWinningScoreBound(hand: seq<Card>, mode: string)
    requires |hand| <= 4 && !Win.HasWinningHand(hand, mode)
    ensures ScoreHand(hand, mode) <= 320
  {
  }

  /** Hence any winning hand outscores any hand of at most four cards that does not win. */
  lemma WinOutscores(winning: seq<Card>, other: seq<Card>, mode: string)
    requires Win.HasWinningHand(winning, mode)
    requires |other| <= 4 && !Win.HasWinningHand(other, mode)
    ensures ScoreHand(winning, mode) > ScoreHand(other, mode)
  {
    NonWinningScoreBound(other, mode);
  }

  /** Below a win the score ignores the rule mode: it always rewards the AK47 values and repeated values. */
  lemma ScoreIsModeIndependent(hand: seq<Card>, mode1: string, mode2: string)
    requires !Win.HasWinningHand(hand, mode1) && !Win.HasWinningHand(hand, mode2)
    ensures ScoreHand(hand, mode1) == ScoreHand(hand, mode2)
  {
  }

  /** The four AK47 values, one card each. */
  function AkHand(): seq<Card> {
    [Card("ACE"), Card("KING"), Card("4"), Card("7")]
  }

  lemma AkHandCounts()
    ensures multiset(Values(AkHand())) == multiset{"ACE", "KING", "4", "7"}
    ensures Win.MatchCount(AkHand()) == 4
  {
    assert Values(AkHand()) == ["ACE", "KING", "4", "7"];
    assert Win.NeededPresent(AkHand()) == {"ACE", "KING", "4", "7"};
  }

  lemma AkHandHasNoPair()
    ensures BestPair(AkHand()) == 1
    ensures !Win.HasWinningHand(AkHand(), Win.PairsMode)
  {
    AkHandCounts();
    var ms := multiset(Values(AkHand()));
    assert forall v :: v in ms ==> ms[v] == 1;
    assert Win.WithMultiplicity(AkHand(), 2) == {};
  }

  /** In pairs mode a hand holding A, K, 4, 7 is no win, yet it still earns the AK47 points. */
  lemma AkValuesScoreInPairsMode()
    ensures !Win.HasWinningHand(AkHand(), Win.PairsMode) && ScoreHand(AkHand(), Win.PairsMode) == 170
  {
    AkHandCounts();
    AkHandHasNoPair();
  }

  /* ---------------------------------------------------------------------
     chooseDiscardIndex
     --------------------------------------------------------------------- */

  /** The hand the loop scores for slot i: slot i replaced by the new card, or slot i removed when there is none. */
  function Simulate(hand: seq<Card>, newCard: Option<Card>, i: nat): (r: seq<Card>)
    requires i < |hand|
    ensures newCard.Some? ==> r == hand[i := newCard.value]
    ensures newCard.None? ==> |r| == |hand| - 1 && multiset(r) + multiset{hand[i]} == multiset(hand)
  {
    match newCard
    case Some(c) => ReplaceAt(hand, i, c)
    case None => RemoveAt(hand, i)
  }

  function SlotScore(hand: seq<Card>, newCard: Option<Card>, mode: string, i: nat): nat
    requires i < |hand|
  {
    ScoreHand(Simulate(hand, newCard, i), mode)
  }

  /** The score of every slot's simulated hand, in slot order. */
  function SlotScores(hand: seq<Card>, newCard: Option<Card>, mode: string): (scores: seq<nat>)
    ensures |scores| == |hand|
    ensures forall i :: 0 <= i < |hand| ==> scores[i] == SlotScore(hand, newCard, mode, i)
  {
    seq(|hand|, i requires 0 <= i < |hand| => SlotScore(hand, newCard, mode, i))
  }

  /**
   * The loop's state after the first n slots: the best slot so far and its score. The first
   * slot always beats the initial minus infinity; later slots win only with a strictly higher score.
   */
  function BestOfFirst(scores: seq<nat>, n: nat): (r: (nat, nat))
    requires 1 <= n <= |scores|
    ensures r.0 < n
    ensures r.1 == scores[r.0]
    ensures forall i :: 0 <= i < n ==> scores[i] <= r.1
    ensures forall i :: 0 <= i < r.0 ==> scores[i] < r.1
    decreases n
  {
    if n == 1 then (0, scores[0])
    else
      var prev := BestOfFirst(scores, n - 1);
      if scores[n - 1] > prev.1 then (n - 1, scores[n - 1]) else prev
  }

  /**
   * chooseDiscardIndex: the slot whose simulated hand scores highest, the lowest such slot
   * on a tie, and 0 for an empty hand.
   */
  function ChooseDiscardIndex(hand: seq<Card>, newCard: Option<Card>, mode: string): (idx: nat)
    ensures |hand| == 0 ==> idx == 0
    ensures |hand| > 0 ==> idx < |hand|
    ensures |hand| > 0 ==> forall i :: 0 <= i < |hand| ==>
      SlotScore(hand, newCard, mode, i) <= SlotScore(hand, newCard, mode, idx)
    ensures |hand| > 0 ==> forall i :: 0 <= i < idx ==>
      SlotScore(hand, newCard, mode, i) < SlotScore(hand, newCard, mode, idx)
  {
    if |hand| == 0 then 0
    else
      var scores := SlotScores(hand, newCard, mode);
      BestOfFirst(scores, |scores|).0
  }

  /** If putting the new card in some slot wins, the chosen slot wins too. */
  lemma ChosenSlotWinsIfAnyDoes(hand: seq<Card>, c: Card, mode: string, k: nat)
    requires |hand| <= 4 && k < |hand|
    requires Win.HasWinningHand(hand[k := c], mode)
    ensures var idx := ChooseDiscardIndex(hand, Some(c), mode);
      idx < |hand| && Win.HasWinningHand(hand[idx := c], mode)
  {
    var idx := ChooseDiscardIndex(hand, Some(c), mode);
    assert SlotScore(hand, Some(c), mode, k) == 1000;
  }

  /** Of the four slots of A, K, 4, 9, only the 9's makes an AK47 win when the 7 goes in. */
  lemma OnlyTheNinesSlotWins(idx: nat)
    requires idx < 4
    requires Win.HasWinningHand([Card("ACE"), Card("KING"), Card("4"), Card("9")][idx := Card("7")], Win.Ak47Mode)
    ensures idx == 3
  {
  }

  /** Holding A, K, 4, 9 with a 7 on offer, the AI gives up the 9. */
  lemma ChooseReplacesTheNine()
    ensures ChooseDiscardIndex([Card("ACE"), Card("KING"), Card("4"), Card("9")], Some(Card("7")), Win.Ak47Mode) == 3
  {
    var hand := [Card("ACE"), Card("KING"), Card("4"), Card("9")];
    var seven := Card("7");
    assert Win.HasWinningHand(hand[3 := seven], Win.Ak47Mode) by {
      assert Values(hand[3 := seven]) == ["ACE", "KING", "4", "7"];
      assert Win.NeededPresent(hand[3 := seven]) == {"ACE", "KING", "4", "7"};
    }
    ChosenSlotWinsIfAnyDoes(hand, seven, Win.Ak47Mode, 3);
    OnlyTheNinesSlotWins(ChooseDiscardIndex(hand, Some(seven), Win.Ak47Mode));
  }

  /** The ranks of 5, 6, 7 are the run of three starting at 5. */
  lemma FiveSixSevenRanks()
    ensures var run := [Card("5"), Card("6"), Card("7")];
      |Win.KnownRanks(run)| == |run| && Win.IsRunFrom(Win.KnownRanks(run), 5)
  {
    var run := [Card("5"), Card("6"), Card("7")];
    assert Win.KnownRanks(run) == [5, 6, 7] by {
      assert run[1..] == [Card("6"), Card("7")];
      assert run[1..][1..] == [Card("7")];
    }
    assert Win.RunSeq(5, 3) == [5, 6, 7];
  }

  /** 5, 6, 7 is a winning run in sequence mode. */
  lemma FiveSixSevenWins()
    ensures Win.HasWinningHand([Card("5"), Card("6"), Card("7")], Win.SequenceMode)
  {
    FiveSixSevenRanks();
    Win.RunIsSequence([Card("5"), Card("6"), Card("7")], 5);
  }

  /** In sequence mode a three-card run is already a win, so discarding without replacement can score 1000. */
  lemma ThreeCardRunScoresAsWin()
    ensures ScoreHand([Card("5"), Card("6"), Card("7")], Win.SequenceMode) == 1000
    ensures SlotScore([Card("5"), Card("6"), Card("7"), Card("KING")], None, Win.SequenceMode, 3) == 1000
  {
    FiveSixSevenWins();
    assert RemoveAt([Card("5"), Card("6"), Card("7"), Card("KING")], 3) == [Card("5"), Card("6"), Card("7")];
  }

  /* ---------------------------------------------------------------------
     the take-or-draw decision
     --------------------------------------------------------------------- */

  /** The two ways the AI can play: take the discard top into a slot, or give up a slot and draw. */
  datatype AiPlan = TakeDiscard(slot: nat) | DrawFromPile(slot: nat)

  /**
   * The hand the AI would hold after putting the discard top into its chosen slot
   * (`handIfTaken`, ai.js:98-99); a step of `AiDecide`, whose contract states it.
   */
  function HandIfTaken(hand: seq<Card>, top: Card, mode: string): seq<Card> {
    ReplaceAt(hand, ChooseDiscardIndex(hand, Some(top), mode), top)
  }

  /**
   * The decision: the top of a non-empty pile that the AI did not discard itself is taken when
   * it raises the score, wins, or is a near-win; everything else leads to a draw, giving up the
   * slot whose removal leaves the best three cards.
   */
  function AiDecide(hand: seq<Card>, discardPile: seq<Card>, lastDiscardBy: Option<nat>,
                    aiId: nat, mode: string): (p: AiPlan)
    ensures p.TakeDiscard? <==>
      && |discardPile| > 0
      && lastDiscardBy != Some(aiId)
      && var taken := HandIfTaken(hand, discardPile[|discardPile| - 1], mode);
         (ScoreHand(taken, mode) > ScoreHand(hand, mode)
          || Win.HasWinningHand(taken, mode) || Win.HasPotentialWinningHand(taken, mode))
    ensures p.TakeDiscard? ==> p.slot == ChooseDiscardIndex(hand, Some(discardPile[|discardPile| - 1]), mode)
    ensures p.DrawFromPile? ==> p.slot == ChooseDiscardIndex(hand, None, mode)
    ensures |hand| > 0 ==> p.slot < |hand|
  {
    var drawPlan := DrawFromPile(ChooseDiscardIndex(hand, None, mode));
    if |discardPile| == 0 || lastDiscardBy == Some(aiId) then drawPlan
    else
      var top := discardPile[|discardPile| - 1];
      var idx := ChooseDiscardIndex(hand, Some(top), mode);
      var taken := ReplaceAt(hand, idx, top);
      if ScoreHand(taken, mode) > ScoreHand(hand, mode)
         || Win.HasWinningHand(taken, mode) || Win.HasPotentialWinningHand(taken, mode)
      then TakeDiscard(idx)
      else drawPlan
  }

  /** A discard top that completes a winning hand in some slot is always taken, into a winning slot. */
  lemma TakesAWinningDiscard(hand: seq<Card>, discardPile: seq<Card>, lastDiscardBy: Option<nat>,
                             aiId: nat, mode: string, k: nat)
    requires |hand| <= 4 && k < |hand| && |discardPile| > 0 && lastDiscardBy != Some(aiId)
    requires Win.HasWinningHand(hand[k := discardPile[|discardPile| - 1]], mode)
    ensures var p := AiDecide(hand, discardPile, lastDiscardBy, aiId, mode);
      && p.TakeDiscard?
      && Win.HasWinningHand(hand[p.slot := discardPile[|discardPile| - 1]], mode)
  {
    ChosenSlotWinsIfAnyDoes(hand, discardPile[|discardPile| - 1], mode, k);
  }

  /* ---------------------------------------------------------------------
     aiTakeTurn
     --------------------------------------------------------------------- */

  /**
   * What aiTakeTurn ends with: not the AI's turn (nothing happens), a finished turn, or a
   * winning hand, after which the source stops before ending the turn.
   */
  datatype AiResult = NotItsTurn | TurnEnded | ComputerWins

  /** Set the AI's declared flag. */
  function Declare(g: GameState, aiId: nat): (r: GameState)
    requires WellFormed(g) && aiId < |g.players|
    ensures WellFormed(r)
    ensures |r.players| == |g.players| && r.players[aiId].declared
    ensures r.players[aiId].(declared := g.players[aiId].declared) == g.players[aiId]
    ensures forall k :: 0 <= k < |g.players| && k != aiId ==> r.players[k] == g.players[k]
    ensures r.(players := g.players) == g
  {
    WithPlayer(g, aiId, g.players[aiId].(declared := true))
  }

  /**
   * The end of either path once the new card is in the hand: resolve the turn; a win stops
   * there, a must-declare is declared at once, and then the turn ends.
   */
  method Finish(g: GameState, aiId: nat) returns (s: GameState, result: AiResult)
    requires WellFormed(g) && g.currentPlayerIndex == aiId
    ensures WellFormed(s)
    ensures result != NotItsTurn
    ensures result == ComputerWins <==> Win.HasWinningHand(g.players[aiId].hand, g.winMode)
    ensures result == ComputerWins ==> s == g
    ensures result == TurnEnded ==> s.currentPlayerIndex != aiId && s.currentTurn == g.currentTurn + 1
    ensures result == TurnEnded ==> SameTable(g, s) && s.selectedCard.None?
    ensures s.players[aiId].canWinNextTurn == g.players[aiId].canWinNextTurn
    ensures s.players[aiId].penaltyUntilTurn == g.players[aiId].penaltyUntilTurn
    ensures forall k :: 0 <= k < |g.players| ==> s.players[k].hand == g.players[k].hand
  {
    var c := Turn.CompleteTurnAfterReplacement(g);
    if c.value == Turn.WinNow {
      return c.state, ComputerWins;
    }
    var before := if c.value == Turn.MustDeclare then Declare(c.state, aiId) else c.state;
    assert before.currentPlayerIndex == aiId && before.currentTurn == g.currentTurn;
    assert !(before.players[aiId].mustDeclare && !before.players[aiId].declared);
    assert before.players[aiId].canWinNextTurn == g.players[aiId].canWinNextTurn
      && before.players[aiId].penaltyUntilTurn == g.players[aiId].penaltyUntilTurn;
    assert before.players[aiId].hand == g.players[aiId].hand
      && before.players[1 - aiId].hand == g.players[1 - aiId].hand;
    assert SameTable(g, before);
    s := EndAiTurn(before, aiId);
    result := TurnEnded;
  }

  /**
   * The end of the AI's turn once nothing is left to declare: the turn passes, the AI's win
   * flag and penalty carry over, and no hand changes.
   */
  method EndAiTurn(g: GameState, aiId: nat) returns (s: GameState)
    requires WellFormed(g) && g.currentPlayerIndex == aiId
    requires !(g.players[aiId].mustDeclare && !g.players[aiId].declared)
    ensures WellFormed(s)
    ensures s.currentPlayerIndex != aiId && s.currentTurn == g.currentTurn + 1
    ensures s.players[aiId].canWinNextTurn == g.players[aiId].canWinNextTurn
    ensures s.players[aiId].penaltyUntilTurn == g.players[aiId].penaltyUntilTurn
    ensures forall k :: 0 <= k < |g.players| ==> s.players[k].hand == g.players[k].hand
    ensures SameTable(g, s) && s.selectedCard.None?
  {
    Turn.EndTurnPenalties(g);
    s := Turn.EndTurn(g);
  }

  /**
   * The discard-pile path: take the top, give up the slot, and put the taken card there.
   * None when the take is refused.
   */
  method TakePath(g: GameState, aiId: nat, slot: nat) returns (r: Option<GameState>)
    requires WellFormed(g) && g.currentPlayerIndex == aiId && slot < |g.players[aiId].hand|
    ensures r.Some? <==> Turn.TakeTopDiscard(g).value.Some?
    ensures r.None? ==> g.discardPile == [] || g.lastDiscardBy == Some(aiId)
    ensures r.Some? ==>
      var top := g.discardPile[|g.discardPile| - 1];
      var n := r.value;
      && WellFormed(n) && n.currentPlayerIndex == aiId
      && n.currentTurn == g.currentTurn && n.winMode == g.winMode
      && n.players[aiId].hand == g.players[aiId].hand[slot := top]
      && n.discardPile == g.discardPile[..|g.discardPile| - 1] + [g.players[aiId].hand[slot]]
      && n.selectedCard.None? && n.lastDiscardBy.None?
      && n.drawPileLocal == g.drawPileLocal && n.drawRemaining == g.drawRemaining && n.deckId == g.deckId
      && n.gameOver == g.gameOver && n.winner == g.winner
      && n.players[aiId].(hand := g.players[aiId].hand) == g.players[aiId]
      && n.players[1 - aiId] == g.players[1 - aiId]
      && CardsInPlay(n) == CardsInPlay(g)
  {
    var t := Turn.TakeTopDiscard(g);
    if t.value.None? {
      return None;
    }
    var taken := t.value.value;
    Turn.TakeTopConservesCards(g);
    var g1 := Turn.SelectCardForDiscard(t.state, aiId, slot).state;
    assert CardsInPlay(g1) == CardsInPlay(t.state) by {
      assert g1.players == t.state.players && g1.discardPile == t.state.discardPile
        && g1.drawPileLocal == t.state.drawPileLocal;
    }
    Turn.DiscardThenReplace(g1, taken);
    var d := Turn.DiscardSelectedCard(g1);
    r := Some(Turn.ReplaceDiscardedSlotWith(d.state, taken).state);
  }

  /**
   * The steps of the draw path: give up the slot, then draw; a drawn card fills the slot, and a
   * failed draw leaves the hand one card short. The draw is stated as `Turn.DrawFromDeck` gives
   * it on the record after the discard; `DrawPath` restates it on the record before.
   */
  method DiscardThenDraw(g: GameState, aiId: nat, slot: nat, remote: Turn.RemoteDraw) returns (s: GameState, drawn: Option<Card>)
    requires WellFormed(g) && g.currentPlayerIndex == aiId && slot < |g.players[aiId].hand|
    ensures WellFormed(s) && s.currentPlayerIndex == aiId
    ensures s.currentTurn == g.currentTurn && s.winMode == g.winMode
    ensures var after := Turn.DiscardSelectedCard(Turn.SelectCardForDiscard(g, aiId, slot).state).state;
      && (drawn.Some? <==> Turn.DrawFromDeck(after, remote).value.Drawn?)
      && (drawn.Some? ==> drawn.value == Turn.DrawFromDeck(after, remote).value.card)
    ensures drawn.Some? ==> s.players[aiId].hand == g.players[aiId].hand[slot := drawn.value]
    ensures drawn.None? ==> s.players[aiId].hand == RemoveAt(g.players[aiId].hand, slot)
    ensures s.players[aiId].(hand := g.players[aiId].hand) == g.players[aiId]
    ensures s.players[1 - aiId] == g.players[1 - aiId]
    ensures s.discardPile == g.discardPile + [g.players[aiId].hand[slot]]
    ensures var after := Turn.DiscardSelectedCard(Turn.SelectCardForDiscard(g, aiId, slot).state).state;
      var drew := Turn.DrawFromDeck(after, remote).state;
      s.drawPileLocal == drew.drawPileLocal && s.drawRemaining == drew.drawRemaining
    ensures s.deckId == g.deckId && s.gameOver == g.gameOver && s.winner == g.winner
    ensures drawn.Some? ==> s.selectedCard.None? && s.lastDiscardBy.None?
    ensures drawn.None? ==> s.selectedCard == Some(Selection(aiId, slot)) && s.lastDiscardBy == Some(aiId)
  {
    var g1 := Turn.SelectCardForDiscard(g, aiId, slot).state;
    var d := Turn.DiscardSelectedCard(g1);
    assert d.state.drawPileLocal == g.drawPileLocal && d.state.deckId == g.deckId
      && d.state.drawRemaining == g.drawRemaining;
    var dr := Turn.DrawFromDeck(d.state, remote);
    if dr.value.Failed? {
      s, drawn := dr.state, None;
    } else {
      var card := dr.value.card;
      Turn.DiscardThenReplace(g1, card);
      s, drawn := Turn.ReplaceDiscardedSlotWith(dr.state, card).state, Some(card);
    }
  }

  /**
   * The draw path stated on the record the turn started from: the slot's card tops the discard
   * pile; a local card leaves the local pile and lowers the count, a served card sets the count
   * to the service's; a failed draw changes neither and leaves the AI's last-discard mark.
   */
  method DrawPath(g: GameState, aiId: nat, slot: nat, remote: Turn.RemoteDraw) returns (s: GameState, drawn: Option<Card>)
    requires WellFormed(g) && g.currentPlayerIndex == aiId && slot < |g.players[aiId].hand|
    ensures WellFormed(s) && s.currentPlayerIndex == aiId
    ensures s.currentTurn == g.currentTurn && s.winMode == g.winMode
    ensures drawn.Some? ==> s.players[aiId].hand == g.players[aiId].hand[slot := drawn.value]
    ensures drawn.None? ==> s.players[aiId].hand == RemoveAt(g.players[aiId].hand, slot)
    ensures s.players[aiId].(hand := g.players[aiId].hand) == g.players[aiId]
    ensures s.players[1 - aiId] == g.players[1 - aiId]
    ensures s.discardPile == g.discardPile + [g.players[aiId].hand[slot]]
    ensures s.deckId == g.deckId && s.gameOver == g.gameOver && s.winner == g.winner
    ensures drawn.Some? ==> s.selectedCard.None? && s.lastDiscardBy.None?
    ensures drawn.None? ==> s.selectedCard == Some(Selection(aiId, slot)) && s.lastDiscardBy == Some(aiId)
    ensures drawn.None? <==>
      |g.drawPileLocal| == 0 && (Turn.MissingDeckId(g.deckId) || g.drawRemaining <= 0 || remote.Unavailable?)
    ensures drawn.Some? && |g.drawPileLocal| > 0 ==>
      && drawn.value == g.drawPileLocal[|g.drawPileLocal| - 1]
      && s.drawPileLocal + [drawn.value] == g.drawPileLocal && s.drawRemaining == g.drawRemaining - 1
    ensures drawn.Some? && |g.drawPileLocal| == 0 ==>
      && remote.Served? && drawn.value == remote.card
      && s.drawPileLocal == [] && s.drawRemaining == remote.remaining
    ensures drawn.None? ==> s.drawPileLocal == g.drawPileLocal && s.drawRemaining == g.drawRemaining
  {
    DrawAfterDiscard(g, aiId, slot, remote);
    s, drawn := DiscardThenDraw(g, aiId, slot, remote);
  }

  /**
   * The AI's draw, stated on the state before its discard: selecting and discarding leave the
   * local pile, the deck id and the remaining count alone, so the drawn card is the local pile's
   * last card, else the deck service's card, and the draw fails only with both sources dry.
   * A local card leaves the local pile and lowers the count; a served card sets the count to the
   * service's; a failed draw changes neither.
   */
  lemma DrawAfterDiscard(g: GameState, aiId: nat, slot: nat, remote: Turn.RemoteDraw)
    requires WellFormed(g) && g.currentPlayerIndex == aiId && slot < |g.players[aiId].hand|
    ensures var after := Turn.DiscardSelectedCard(Turn.SelectCardForDiscard(g, aiId, slot).state).state;
      var r := Turn.DrawFromDeck(after, remote).value;
      && (|g.drawPileLocal| > 0 ==> r == Turn.Drawn(g.drawPileLocal[|g.drawPileLocal| - 1]))
      && (|g.drawPileLocal| == 0 ==>
            (r.Drawn? <==> !Turn.MissingDeckId(g.deckId) && g.drawRemaining > 0 && remote.Served?))
      && (|g.drawPileLocal| == 0 && r.Drawn? ==> r.card == remote.card)
    ensures var after := Turn.DiscardSelectedCard(Turn.SelectCardForDiscard(g, aiId, slot).state).state;
      var d := Turn.DrawFromDeck(after, remote);
      && (|g.drawPileLocal| > 0 ==>
            d.state.drawPileLocal + [d.value.card] == g.drawPileLocal && d.state.drawRemaining == g.drawRemaining - 1)
      && (|g.drawPileLocal| == 0 && d.value.Drawn? ==>
            remote.Served? && d.state.drawPileLocal == [] && d.state.drawRemaining == remote.remaining)
      && (d.value.Failed? ==> d.state.drawPileLocal == g.drawPileLocal && d.state.drawRemaining == g.drawRemaining)
  {
    var after := Turn.DiscardSelectedCard(Turn.SelectCardForDiscard(g, aiId, slot).state).state;
    assert after.drawPileLocal == g.drawPileLocal && after.deckId == g.deckId
      && after.drawRemaining == g.drawRemaining;
  }

  /** The AI's flags after the opening auto-declaration: no near-win is left undeclared. */
  function AutoDeclare(g: GameState, aiId: nat): (r: GameState)
    requires WellFormed(g) && aiId < |g.players|
    ensures WellFormed(r)
    ensures !(r.players[aiId].mustDeclare && !r.players[aiId].declared)
    ensures r.players[aiId].(declared := g.players[aiId].declared) == g.players[aiId]
    ensures g.players[aiId].declared || !g.players[aiId].mustDeclare ==> r == g
    ensures r.players[1 - aiId] == g.players[1 - aiId]
    ensures r.(players := g.players) == g
  {
    var p := g.players[aiId];
    if p.mustDeclare && !p.declared then Declare(g, aiId) else g
  }

  /** The opening auto-declaration as a step of the turn: only the AI's declared flag may change. */
  method DeclarePending(g: GameState, aiId: nat) returns (r: GameState)
    requires WellFormed(g) && aiId < |g.players|
    ensures WellFormed(r) && r == AutoDeclare(g, aiId)
    ensures !(r.players[aiId].mustDeclare && !r.players[aiId].declared)
    ensures r.players[aiId].hand == g.players[aiId].hand && r.players[1 - aiId] == g.players[1 - aiId]
    ensures r.players[aiId].canWinNextTurn == g.players[aiId].canWinNextTurn
    ensures r.players[aiId].penaltyUntilTurn == g.players[aiId].penaltyUntilTurn
    ensures r.discardPile == g.discardPile && r.lastDiscardBy == g.lastDiscardBy && r.winMode == g.winMode
    ensures r.drawPileLocal == g.drawPileLocal && r.currentTurn == g.currentTurn
    ensures r.currentPlayerIndex == g.currentPlayerIndex
    ensures SameTable(g, r)
  {
    r := AutoDeclare(g, aiId);
  }

  /**
   * The take branch of the AI's turn: take the discard top into the slot and finish. Nothing
   * happens, and the caller falls back to drawing, when the take is refused.
   */
  method TakeAndFinish(g: GameState, aiId: nat, slot: nat) returns (took: bool, s: GameState, result: AiResult)
    requires WellFormed(g) && g.currentPlayerIndex == aiId && slot < |g.players[aiId].hand|
    ensures took <==> Turn.TakeTopDiscard(g).value.Some?
    ensures took ==>
      && WellFormed(s) && result != NotItsTurn
      && (result == ComputerWins ==>
            s.currentPlayerIndex == aiId && Win.HasWinningHand(s.players[aiId].hand, g.winMode))
      && (result == TurnEnded ==> s.currentPlayerIndex != aiId && s.currentTurn == g.currentTurn + 1)
      && s.players[aiId].canWinNextTurn == g.players[aiId].canWinNextTurn
      && s.players[aiId].penaltyUntilTurn == g.players[aiId].penaltyUntilTurn
      && s.players[aiId].hand == g.players[aiId].hand[slot := g.discardPile[|g.discardPile| - 1]]
      && (result == ComputerWins <==>
            Win.HasWinningHand(g.players[aiId].hand[slot := g.discardPile[|g.discardPile| - 1]], g.winMode))
      && s.players[1 - aiId].hand == g.players[1 - aiId].hand
    ensures took ==>
      && s.discardPile == g.discardPile[..|g.discardPile| - 1] + [g.players[aiId].hand[slot]]
      && s.lastDiscardBy.None? && s.selectedCard.None?
      && s.drawPileLocal == g.drawPileLocal && s.drawRemaining == g.drawRemaining && s.deckId == g.deckId
      && s.gameOver == g.gameOver && s.winner == g.winner && s.winMode == g.winMode
  {
    var taken := TakePath(g, aiId, slot);
    if taken.None? {
      return false, g, NotItsTurn;
    }
    took := true;
    s, result := Finish(taken.value, aiId);
  }

  /**
   * The draw branch of the AI's turn, after the auto-declaration: give up the slot chosen for a
   * draw, draw, and finish. A failed draw still ends the turn, with the hand one card short.
   */
  method DrawAndFinish(g: GameState, aiId: nat, remote: Turn.RemoteDraw) returns (s: GameState, result: AiResult, drawn: Option<Card>)
    requires WellFormed(g) && g.currentPlayerIndex == aiId && |g.players[aiId].hand| > 0
    requires !(g.players[aiId].mustDeclare && !g.players[aiId].declared)
    ensures WellFormed(s) && result != NotItsTurn
    ensures result == ComputerWins ==>
      s.currentPlayerIndex == aiId && Win.HasWinningHand(s.players[aiId].hand, g.winMode)
    ensures result == TurnEnded ==> s.currentPlayerIndex != aiId && s.currentTurn == g.currentTurn + 1
    ensures s.players[aiId].canWinNextTurn == g.players[aiId].canWinNextTurn
    ensures s.players[aiId].penaltyUntilTurn == g.players[aiId].penaltyUntilTurn
    ensures |g.players[aiId].hand| - 1 <= |s.players[aiId].hand| <= |g.players[aiId].hand|
    ensures s.players[1 - aiId].hand == g.players[1 - aiId].hand
    ensures drawn.Some? ==>
      var refilled := g.players[aiId].hand[ChooseDiscardIndex(g.players[aiId].hand, None, g.winMode) := drawn.value];
      && s.players[aiId].hand == refilled
      && (result == ComputerWins <==> Win.HasWinningHand(refilled, g.winMode))
    ensures drawn.None? ==>
      && s.players[aiId].hand == RemoveAt(g.players[aiId].hand, ChooseDiscardIndex(g.players[aiId].hand, None, g.winMode))
      && result == TurnEnded
    ensures drawn.Some? && |g.drawPileLocal| > 0 ==> drawn.value == g.drawPileLocal[|g.drawPileLocal| - 1]
    ensures drawn.Some? && |g.drawPileLocal| == 0 ==> remote.Served? && drawn.value == remote.card
    ensures drawn.None? <==>
      |g.drawPileLocal| == 0 && (Turn.MissingDeckId(g.deckId) || g.drawRemaining <= 0 || remote.Unavailable?)
    ensures s.discardPile == g.discardPile + [g.players[aiId].hand[ChooseDiscardIndex(g.players[aiId].hand, None, g.winMode)]]
    ensures s.selectedCard.None? && s.deckId == g.deckId && s.gameOver == g.gameOver && s.winner == g.winner
    ensures s.winMode == g.winMode
    ensures drawn.Some? && |g.drawPileLocal| > 0 ==>
      s.drawPileLocal + [drawn.value] == g.drawPileLocal && s.drawRemaining == g.drawRemaining - 1
    ensures drawn.Some? && |g.drawPileLocal| == 0 ==> s.drawPileLocal == [] && s.drawRemaining == remote.remaining
    ensures drawn.Some? ==> s.lastDiscardBy.None?
    ensures drawn.None? ==>
      s.lastDiscardBy == Some(aiId) && s.drawPileLocal == g.drawPileLocal && s.drawRemaining == g.drawRemaining
  {
    var hand := g.players[aiId].hand;
    var slot := ChooseDiscardIndex(hand, None, g.winMode);
    var next;
    next, drawn := DrawPath(g, aiId, slot, remote);
    assert |hand| - 1 <= |next.players[aiId].hand| <= |hand|;
    assert next.players[1 - aiId].hand == g.players[1 - aiId].hand;
    assert next.players[aiId].mustDeclare == g.players[aiId].mustDeclare;
    assert next.players[aiId].declared == g.players[aiId].declared;
    if drawn.Some? {
      s, result := Finish(next, aiId);
    } else {
      s := EndAiTurn(next, aiId);
      result := TurnEnded;
    }
    assert s.discardPile == next.discardPile && s.lastDiscardBy == next.lastDiscardBy;
    assert s.drawPileLocal == next.drawPileLocal && s.drawRemaining == next.drawRemaining;
    assert s.players[aiId].hand == next.players[aiId].hand && s.players[1 - aiId].hand == next.players[1 - aiId].hand;
  }

  /**
   * The AI's hand and result once `plan` is carried out from `hand`: a take puts the discard
   * top in the planned slot; a draw puts the drawn card there, or leaves the slot removed when
   * the draw failed. A refilled hand is reported as a win exactly when it wins, and a failed
   * draw always ends the turn, whatever the shorter hand holds.
   */
  predicate PlayedAsPlanned(hand: seq<Card>, discardPile: seq<Card>, mode: string, plan: AiPlan,
                            after: seq<Card>, result: AiResult, drawn: Option<Card>)
  {
    && plan.slot < |hand|
    && match plan
       case TakeDiscard(slot) =>
         && |discardPile| > 0 && drawn.None?
         && after == hand[slot := discardPile[|discardPile| - 1]]
         && (result == ComputerWins <==> Win.HasWinningHand(after, mode))
       case DrawFromPile(slot) =>
         match drawn
         case Some(card) =>
           && after == hand[slot := card]
           && (result == ComputerWins <==> Win.HasWinningHand(after, mode))
         case None =>
           after == RemoveAt(hand, slot) && result == TurnEnded
  }

  /**
   * The table once seat aiId has carried out `plan` from g. The given-up card tops the discard
   * pile, in place of the taken top for a take. A draw fails exactly when the local pile is
   * empty and the deck service cannot serve; a local card leaves the local pile and lowers the
   * count, a served card sets the count to the service's, and a failed draw changes neither and
   * leaves the AI's last-discard mark. The selection is always cleared, and the deck id, the
   * game-over flags and the mode never change.
   */
  predicate TableAsPlanned(g: GameState, aiId: nat, plan: AiPlan, remote: Turn.RemoteDraw,
                           drawn: Option<Card>, s: GameState)
  {
    && aiId < |g.players| && plan.slot < |g.players[aiId].hand|
    && s.selectedCard.None?
    && s.deckId == g.deckId && s.gameOver == g.gameOver && s.winner == g.winner && s.winMode == g.winMode
    && match plan
       case TakeDiscard(slot) =>
         && |g.discardPile| > 0
         && s.discardPile == g.discardPile[..|g.discardPile| - 1] + [g.players[aiId].hand[slot]]
         && s.lastDiscardBy.None?
         && s.drawPileLocal == g.drawPileLocal && s.drawRemaining == g.drawRemaining
       case DrawFromPile(slot) =>
         && s.discardPile == g.discardPile + [g.players[aiId].hand[slot]]
         && (drawn.None? <==>
               |g.drawPileLocal| == 0 && (Turn.MissingDeckId(g.deckId) || g.drawRemaining <= 0 || remote.Unavailable?))
         && match drawn
            case Some(card) =>
              && s.lastDiscardBy.None?
              && (|g.drawPileLocal| > 0 ==>
                    s.drawPileLocal + [card] == g.drawPileLocal && s.drawRemaining == g.drawRemaining - 1)
              && (|g.drawPileLocal| == 0 ==>
                    remote == Turn.Served(card, s.drawRemaining) && s.drawPileLocal == [])
            case None =>
              && s.lastDiscardBy == Some(aiId)
              && s.drawPileLocal == g.drawPileLocal && s.drawRemaining == g.drawRemaining
  }

  /**
   * The plan carried out once no near-win is left undeclared: a take goes to the take branch,
   * and a draw (or a refused take) to the draw branch.
   */
  method PlayPlan(g: GameState, aiId: nat, plan: AiPlan, remote: Turn.RemoteDraw) returns (s: GameState, result: AiResult, drawn: Option<Card>)
    requires WellFormed(g) && g.currentPlayerIndex == aiId && |g.players[aiId].hand| > 0
    requires !(g.players[aiId].mustDeclare && !g.players[aiId].declared)
    requires plan == AiDecide(g.players[aiId].hand, g.discardPile, g.lastDiscardBy, aiId, g.winMode)
    ensures WellFormed(s) && result != NotItsTurn
    ensures result == ComputerWins ==>
      s.currentPlayerIndex == aiId && Win.HasWinningHand(s.players[aiId].hand, g.winMode)
    ensures result == TurnEnded ==> s.currentPlayerIndex != aiId && s.currentTurn == g.currentTurn + 1
    ensures s.players[aiId].canWinNextTurn == g.players[aiId].canWinNextTurn
    ensures s.players[aiId].penaltyUntilTurn == g.players[aiId].penaltyUntilTurn
    ensures |g.players[aiId].hand| - 1 <= |s.players[aiId].hand| <= |g.players[aiId].hand|
    ensures s.players[1 - aiId].hand == g.players[1 - aiId].hand
    ensures PlayedAsPlanned(g.players[aiId].hand, g.discardPile, g.winMode, plan, s.players[aiId].hand, result, drawn)
    ensures TableAsPlanned(g, aiId, plan, remote, drawn, s)
    ensures drawn.Some? && |g.drawPileLocal| > 0 ==> drawn.value == g.drawPileLocal[|g.drawPileLocal| - 1]
    ensures drawn.Some? && |g.drawPileLocal| == 0 ==> remote.Served? && drawn.value == remote.card
  {
    PlannedTakeSucceeds(g, aiId, plan);
    var took := false;
    drawn := None;
    if plan.TakeDiscard? {
      took, s, result := TakeAndFinish(g, aiId, plan.slot);
    }
    if !took {
      s, result, drawn := DrawAndFinish(g, aiId, remote);
    }
  }

  /**
   * aiTakeTurn: nothing unless it is the AI's turn. Otherwise the AI first declares a pending
   * near-win, then either takes the discard top or draws as AiDecide says, and finishes the turn.
   * The AI always declares in time, so its turn never earns it a penalty.
   */
  method AiTakeTurn(g: GameState, aiId: nat, remote: Turn.RemoteDraw) returns (s: GameState, result: AiResult, drawn: Option<Card>)
    requires WellFormed(g)
    requires g.currentPlayerIndex == aiId ==> |g.players[aiId].hand| > 0
    ensures WellFormed(s)
    ensures result == NotItsTurn <==> g.currentPlayerIndex != aiId
    ensures result == NotItsTurn ==> s == g && drawn.None?
    ensures result == ComputerWins ==>
      s.currentPlayerIndex == aiId && Win.HasWinningHand(s.players[aiId].hand, g.winMode)
    ensures result == TurnEnded ==> s.currentPlayerIndex != aiId && s.currentTurn == g.currentTurn + 1
    ensures result != NotItsTurn ==>
      && s.players[aiId].canWinNextTurn == g.players[aiId].canWinNextTurn
      && s.players[aiId].penaltyUntilTurn == g.players[aiId].penaltyUntilTurn
      && |g.players[aiId].hand| - 1 <= |s.players[aiId].hand| <= |g.players[aiId].hand|
      && s.players[1 - aiId].hand == g.players[1 - aiId].hand
    ensures result != NotItsTurn ==>
      PlayedAsPlanned(g.players[aiId].hand, g.discardPile, g.winMode,
                      AiDecide(g.players[aiId].hand, g.discardPile, g.lastDiscardBy, aiId, g.winMode),
                      s.players[aiId].hand, result, drawn)
    ensures result != NotItsTurn ==>
      TableAsPlanned(g, aiId, AiDecide(g.players[aiId].hand, g.discardPile, g.lastDiscardBy, aiId, g.winMode),
                     remote, drawn, s)
    ensures drawn.Some? && |g.drawPileLocal| > 0 ==> drawn.value == g.drawPileLocal[|g.drawPileLocal| - 1]
    ensures drawn.Some? && |g.drawPileLocal| == 0 ==> remote.Served? && drawn.value == remote.card
  {
    if g.currentPlayerIndex != aiId {
      return g, NotItsTurn, None;
    }
    var g0 := DeclarePending(g, aiId);
    var plan := AiDecide(g.players[aiId].hand, g.discardPile, g.lastDiscardBy, aiId, g.winMode);
    s, result, drawn := PlayPlan(g0, aiId, plan, remote);
  }

  /** The fallback to drawing after a failed take never happens: the AI only plans a take it is allowed. */
  lemma PlannedTakeSucceeds(g: GameState, aiId: nat, plan: AiPlan)
    requires WellFormed(g) && g.currentPlayerIndex == aiId
    requires plan == AiDecide(g.players[aiId].hand, g.discardPile, g.lastDiscardBy, aiId, g.winMode)
    ensures plan.TakeDiscard? ==> Turn.TakeTopDiscard(g).value.Some?
  {
  }
}

=== FILE: cards.dfy ===
/** Cards as the rules see them. */
module Cards {

  /**
   * A card from the deck service. Only the value string ("ACE", "KING", "10", "2", ...)
   * takes part in the rules; suit, code and image are display data and are not kept.
   */
  datatype Card = Card(value: string)

  /** `hand.map(c => c.value)`. */
  function Values(hand: seq<Card>): (vs: seq<string>)
    ensures |vs| == |hand|
    ensures forall i :: 0 <= i < |hand| ==> vs[i] == hand[i].value
  {
    seq(|hand|, i requires 0 <= i < |hand| => hand[i].value)
  }

  /** How many cards of the hand carry the value v. */
  function Count(hand: seq<Card>, v: string): (c: nat)
    ensures c > 0 <==> exists i :: 0 <= i < |hand| && hand[i].value == v
  {
    var vs := Values(hand);
    assert v in vs ==> exists i :: 0 <= i < |vs| && vs[i] == v;
    multiset(vs)[v]
  }

  /** Two different slots holding the same value make that value occur at least twice. */
  lemma DuplicateCounts(hand: seq<Card>, i: nat, j: nat)
    requires i < |hand| && j < |hand| && i != j
    requires hand[i].value == hand[j].value
    ensures Count(hand, hand[i].value) >= 2
  {
    var vs := Values(hand);
    var rest := vs[..i] + vs[i + 1..];
    assert vs == vs[..i] + [vs[i]] + vs[i + 1..];
    assert multiset(vs) == multiset(rest) + multiset{vs[i]};
    var k := if j < i then j else j - 1;
    assert rest[k] == vs[j];
    assert multiset(rest)[vs[j]] >= 1;
  }
}

=== FILE: flows.dfy ===
/**
 * How the page's click handlers chain the turn operations for the human seat: the draw-pile
 * click (discard, draw, refill, resolve, end turn), the discard-pile click (take, discard,
 * refill, resolve, end turn), the declare button and the start button's flag reset.
 * The computer's reply after a passed turn is `Ai.AiTakeTurn`, applied by the caller.
 */
module Flows {
  import opened Opt
  import opened JsArray
  import opened Cards
  import opened State
  import Win
  import Turn
  import Setup

  /** What a click handler ends with. */
  datatype HumanResult =
    | NoSelection                      // "Select a card first."
    | CannotTake                       // "Cannot take that discard."
    | DrawFailed(error: Turn.DrawError) // the caught error of the draw
    | PlayerWins
    | Declaring                        // stopped on must-declare; the turn is not ended
    | TurnPassed

  /**
   * The selection as the hand click leaves it: made by the player to move, on a card of
   * their hand. `selectCardForDiscard` refuses every other seat.
   */
  predicate SelectionByMover(g: GameState)
    requires WellFormed(g)
  {
    g.selectedCard.Some? ==>
      && g.selectedCard.value.playerId == g.currentPlayerIndex
      && g.selectedCard.value.cardIndex < |Current(g).hand|
  }

  /** A successful hand click on a card of the mover's hand leaves a selection of that shape. */
  lemma SelectMakesSelectionByMover(g: GameState, cardIndex: nat)
    requires WellFormed(g) && cardIndex < |Current(g).hand|
    ensures var s := Turn.SelectCardForDiscard(g, g.currentPlayerIndex, cardIndex);
      s.value && SelectionByMover(s.state)
  {
  }

  /**
   * The shared tail of both clicks: resolve the mover's hand; a win stops there, a must-declare
   * stops there without ending the turn, and anything else ends the turn. Since the turn is only
   * ended after the must-declare flag has just been cleared, no penalty is ever charged.
   */
  method Resolve(g: GameState) returns (s: GameState, result: HumanResult)
    requires WellFormed(g)
    ensures WellFormed(s)
    ensures result == PlayerWins || result == Declaring || result == TurnPassed
    ensures var hand := Current(g).hand;
      && (result == PlayerWins <==> Win.HasWinningHand(hand, g.winMode))
      && (result == Declaring <==>
            !Win.HasWinningHand(hand, g.winMode) && Win.HasPotentialWinningHand(hand, g.winMode))
    ensures result == PlayerWins ==> s == g
    ensures result == Declaring ==>
      && s.currentPlayerIndex == g.currentPlayerIndex && s.currentTurn == g.currentTurn
      && s.players[g.currentPlayerIndex].mustDeclare
      && s.selectedCard == g.selectedCard
    ensures result == TurnPassed ==>
      && s.currentPlayerIndex != g.currentPlayerIndex && s.currentTurn == g.currentTurn + 1
      && !s.players[g.currentPlayerIndex].mustDeclare
    ensures s.players[g.currentPlayerIndex].canWinNextTurn == g.players[g.currentPlayerIndex].canWinNextTurn
    ensures s.players[g.currentPlayerIndex].penaltyUntilTurn == g.players[g.currentPlayerIndex].penaltyUntilTurn
    ensures forall k :: 0 <= k < |g.players| ==> s.players[k].hand == g.players[k].hand
    ensures s.discardPile == g.discardPile && s.drawPileLocal == g.drawPileLocal
    ensures s.drawRemaining == g.drawRemaining
  {
    var c := Turn.CompleteTurnAfterReplacement(g);
    if c.value == Turn.WinNow {
      s, result := c.state, PlayerWins;
    } else if c.value == Turn.MustDeclare {
      s, result := c.state, Declaring;
    } else {
      Turn.EndTurnPenalties(c.state);
      s, result := Turn.EndTurn(c.state), TurnPassed;
    }
  }

  /** The discard step of either click: the selected card moves from the mover's hand to the pile. */
  method Discard(g: GameState) returns (d: GameState, card: Card)
    requires WellFormed(g) && SelectionByMover(g) && g.selectedCard.Some?
    ensures WellFormed(d)
    ensures var me := g.currentPlayerIndex;
      var i := g.selectedCard.value.cardIndex;
      && card == g.players[me].hand[i]
      && d.players[me].hand == RemoveAt(g.players[me].hand, i)
      && d.players[me].(hand := g.players[me].hand) == g.players[me]
      && d.players[1 - me] == g.players[1 - me]
      && d.lastDiscardBy == Some(me)
    ensures d.discardPile == g.discardPile + [card]
    ensures d.selectedCard == g.selectedCard && d.currentPlayerIndex == g.currentPlayerIndex
    ensures d.currentTurn == g.currentTurn && d.winMode == g.winMode
    ensures d.drawPileLocal == g.drawPileLocal && d.drawRemaining == g.drawRemaining && d.deckId == g.deckId
  {
    var t := Turn.DiscardSelectedCard(g);
    d, card := t.state, t.value.value;
  }

  /**
   * The draw step of the draw-pile click: the local pile's last card if there is one, else the
   * remote deck's card when there is a deck id, a positive remaining count and an answer.
   * A local card leaves the local pile and lowers the count; a served card sets the count to the
   * service's. Only the draw-side fields of the record change.
   */
  method DrawStep(d: GameState, remote: Turn.RemoteDraw) returns (e: GameState, drawn: Turn.Draw)
    requires WellFormed(d)
    ensures WellFormed(e)
    ensures |d.drawPileLocal| > 0 ==> drawn == Turn.Drawn(d.drawPileLocal[|d.drawPileLocal| - 1])
    ensures |d.drawPileLocal| == 0 ==>
      (drawn.Drawn? <==> !Turn.MissingDeckId(d.deckId) && d.drawRemaining > 0 && remote.Served?)
    ensures |d.drawPileLocal| == 0 && drawn.Drawn? ==> drawn.card == remote.card
    ensures |d.drawPileLocal| > 0 ==>
      e.drawPileLocal + [drawn.card] == d.drawPileLocal && e.drawRemaining == d.drawRemaining - 1
    ensures |d.drawPileLocal| == 0 && drawn.Drawn? ==>
      remote.Served? && e.drawPileLocal == [] && e.drawRemaining == remote.remaining
    ensures drawn.Failed? ==> e == d
    ensures e.players == d.players && e.currentPlayerIndex == d.currentPlayerIndex
    ensures e.selectedCard == d.selectedCard && e.lastDiscardBy == d.lastDiscardBy
    ensures e.discardPile == d.discardPile && e.currentTurn == d.currentTurn && e.winMode == d.winMode
  {
    var r := Turn.DrawFromDeck(d, remote);
    e, drawn := r.state, r.value;
  }

  /**
   * The take step of the discard-pile click: the top of the pile, refused when the pile is
   * empty or the mover put it there. Only the pile changes.
   */
  method TakeStep(g: GameState) returns (t: GameState, taken: Option<Card>)
    requires WellFormed(g)
    ensures WellFormed(t)
    ensures taken.Some? <==> |g.discardPile| > 0 && g.lastDiscardBy != Some(g.currentPlayerIndex)
    ensures taken.None? ==> t == g
    ensures taken.Some? ==> t.discardPile + [taken.value] == g.discardPile
    ensures t.players == g.players && t.currentPlayerIndex == g.currentPlayerIndex
    ensures t.selectedCard == g.selectedCard && t.lastDiscardBy == g.lastDiscardBy
    ensures t.currentTurn == g.currentTurn && t.winMode == g.winMode
  {
    var r := Turn.TakeTopDiscard(g);
    t, taken := r.state, r.value;
  }

  /**
   * The tail both clicks share once the slot is empty: the new card goes back into the slot the
   * discard emptied, so the hand as it was before the discard now holds the new card there; the
   * marks are cleared and the hand is resolved.
   */
  method Complete(h: GameState, card: Card, ghost before: seq<Card>) returns (s: GameState, result: HumanResult)
    requires WellFormed(h) && h.selectedCard.Some? && h.selectedCard.value.playerId == h.currentPlayerIndex
    requires h.selectedCard.value.cardIndex < |before|
    requires Current(h).hand == RemoveAt(before, h.selectedCard.value.cardIndex)
    ensures WellFormed(s)
    ensures result == PlayerWins || result == Declaring || result == TurnPassed
    ensures var me := h.currentPlayerIndex;
      var hand := before[h.selectedCard.value.cardIndex := card];
      && s.players[me].hand == hand
      && (result == PlayerWins <==> Win.HasWinningHand(hand, h.winMode))
      && (result == Declaring <==>
            !Win.HasWinningHand(hand, h.winMode) && Win.HasPotentialWinningHand(hand, h.winMode))
      && s.players[1 - me].hand == h.players[1 - me].hand
      && s.players[me].canWinNextTurn == h.players[me].canWinNextTurn
      && s.players[me].penaltyUntilTurn == h.players[me].penaltyUntilTurn
    ensures s.discardPile == h.discardPile
    ensures s.drawPileLocal == h.drawPileLocal && s.drawRemaining == h.drawRemaining
  {
    var me := h.currentPlayerIndex;
    var i := h.selectedCard.value.cardIndex;
    RemoveThenInsert(before, i, card);
    var r := Turn.ReplaceDiscardedSlotWith(h, card).state;
    assert r.players[me].hand == before[i := card];
    assert r.players[1 - me] == h.players[1 - me];
    s, result := Resolve(r);
  }

  /**
   * The draw-pile click once a card is selected: discard it, draw, refill the slot with the drawn
   * card and resolve. A failed draw is caught after the discard has happened, so the hand is left
   * one card short with the selection still set.
   */
  method DrawSwap(g: GameState, remote: Turn.RemoteDraw) returns (s: GameState, result: HumanResult, drawn: Option<Card>)
    requires WellFormed(g) && SelectionByMover(g) && g.selectedCard.Some?
    ensures WellFormed(s)
    ensures result != NoSelection && result != CannotTake
    ensures result.DrawFailed? <==> drawn.None?
    ensures drawn.Some? && |g.drawPileLocal| > 0 ==> drawn.value == g.drawPileLocal[|g.drawPileLocal| - 1]
    ensures drawn.Some? && |g.drawPileLocal| == 0 ==> remote.Served? && drawn.value == remote.card
    ensures drawn.None? <==>
      |g.drawPileLocal| == 0 && (Turn.MissingDeckId(g.deckId) || g.drawRemaining <= 0 || remote.Unavailable?)
    ensures s.discardPile == g.discardPile + [g.players[g.currentPlayerIndex].hand[g.selectedCard.value.cardIndex]]
    ensures drawn.Some? ==>
      var me := g.currentPlayerIndex;
      var hand := g.players[me].hand[g.selectedCard.value.cardIndex := drawn.value];
      && s.players[me].hand == hand
      && (result == PlayerWins <==> Win.HasWinningHand(hand, g.winMode))
    ensures drawn.None? ==>
      var me := g.currentPlayerIndex;
      && s.players[me].hand == RemoveAt(g.players[me].hand, g.selectedCard.value.cardIndex)
      && s.selectedCard == g.selectedCard
      && s.lastDiscardBy == Some(me)
    ensures drawn.Some? && |g.drawPileLocal| > 0 ==>
      s.drawPileLocal + [drawn.value] == g.drawPileLocal && s.drawRemaining == g.drawRemaining - 1
    ensures drawn.Some? && |g.drawPileLocal| == 0 ==> s.drawPileLocal == [] && s.drawRemaining == remote.remaining
    ensures drawn.None? ==> s.drawPileLocal == g.drawPileLocal && s.drawRemaining == g.drawRemaining
    ensures var me := g.currentPlayerIndex;
      && s.players[1 - me].hand == g.players[1 - me].hand
      && s.players[me].canWinNextTurn == g.players[me].canWinNextTurn
      && s.players[me].penaltyUntilTurn == g.players[me].penaltyUntilTurn
  {
    var me := g.currentPlayerIndex;
    var hand := g.players[me].hand;
    var i := g.selectedCard.value.cardIndex;
    var d, gone := Discard(g);
    assert d.players[me].hand == RemoveAt(hand, i) && d.players[1 - me].hand == g.players[1 - me].hand;
    assert d.drawPileLocal == g.drawPileLocal && d.drawRemaining == g.drawRemaining && d.deckId == g.deckId;
    var e, draw := DrawStep(d, remote);
    if draw.Failed? {
      s, result, drawn := e, DrawFailed(draw.error), None;
    } else {
      assert e.players == d.players && e.discardPile == g.discardPile + [hand[i]];
      s, result := Complete(e, draw.card, hand);
      drawn := Some(draw.card);
    }
    assert s.players[1 - me].hand == d.players[1 - me].hand && s.players[me].canWinNextTurn == d.players[me].canWinNextTurn;
  }

  /** The draw-pile click: nothing without a selection, else the swap above. */
  method HumanDrawTurn(g: GameState, remote: Turn.RemoteDraw) returns (s: GameState, result: HumanResult, drawn: Option<Card>)
    requires WellFormed(g) && SelectionByMover(g)
    ensures WellFormed(s)
    ensures result == NoSelection <==> g.selectedCard.None?
    ensures result == NoSelection ==> s == g && drawn.None?
    ensures result.DrawFailed? <==> g.selectedCard.Some? && drawn.None?
    ensures g.selectedCard.Some? && drawn.Some? ==>
      var me := g.currentPlayerIndex;
      var hand := g.players[me].hand[g.selectedCard.value.cardIndex := drawn.value];
      && s.players[me].hand == hand
      && (result == PlayerWins <==> Win.HasWinningHand(hand, g.winMode))
    ensures g.selectedCard.Some? ==>
      && (drawn.None? <==>
            |g.drawPileLocal| == 0 && (Turn.MissingDeckId(g.deckId) || g.drawRemaining <= 0 || remote.Unavailable?))
      && s.discardPile == g.discardPile + [g.players[g.currentPlayerIndex].hand[g.selectedCard.value.cardIndex]]
    ensures drawn.Some? && |g.drawPileLocal| > 0 ==>
      && drawn.value == g.drawPileLocal[|g.drawPileLocal| - 1]
      && s.drawPileLocal + [drawn.value] == g.drawPileLocal && s.drawRemaining == g.drawRemaining - 1
    ensures drawn.Some? && |g.drawPileLocal| == 0 ==>
      && remote.Served? && drawn.value == remote.card
      && s.drawPileLocal == [] && s.drawRemaining == remote.remaining
    ensures g.selectedCard.Some? && drawn.None? ==>
      var me := g.currentPlayerIndex;
      && s.players[me].hand == RemoveAt(g.players[me].hand, g.selectedCard.value.cardIndex)
      && s.drawPileLocal == g.drawPileLocal && s.drawRemaining == g.drawRemaining
  {
    if g.selectedCard.None? {
      return g, NoSelection, None;
    }
    s, result, drawn := DrawSwap(g, remote);
  }

  /**
   * The discard-pile click once a card is selected: take the top discard (refused when the pile
   * is empty or the top is the mover's own), discard the selection, put the taken card in its
   * slot and resolve.
   */
  method TakeSwap(g: GameState) returns (s: GameState, result: HumanResult)
    requires WellFormed(g) && SelectionByMover(g) && g.selectedCard.Some?
    ensures WellFormed(s)
    ensures result != NoSelection && !result.DrawFailed?
    ensures result == CannotTake ==> s == g
    ensures var me := g.currentPlayerIndex;
      var i := g.selectedCard.value.cardIndex;
      var hand := g.players[me].hand;
      var n := |g.discardPile|;
      && (result == CannotTake <==> n == 0 || g.lastDiscardBy == Some(me))
      && (result != CannotTake ==>
            && s.players[me].hand == hand[i := g.discardPile[n - 1]]
            && s.discardPile == g.discardPile[..n - 1] + [hand[i]]
            && (result == PlayerWins <==> Win.HasWinningHand(hand[i := g.discardPile[n - 1]], g.winMode))
            && s.players[me].canWinNextTurn == g.players[me].canWinNextTurn
            && s.players[me].penaltyUntilTurn == g.players[me].penaltyUntilTurn)
      && s.players[1 - me].hand == g.players[1 - me].hand
  {
    var me := g.currentPlayerIndex;
    var t, taken := TakeStep(g);
    if taken.None? {
      return g, CannotTake;
    }
    assert t.discardPile == g.discardPile[..|g.discardPile| - 1];
    var d, gone := Discard(t);
    s, result := Complete(d, taken.value, g.players[me].hand);
  }

  /** The discard-pile click: nothing without a selection, else the swap above. */
  method HumanTakeTurn(g: GameState) returns (s: GameState, result: HumanResult)
    requires WellFormed(g) && SelectionByMover(g)
    ensures WellFormed(s)
    ensures result == NoSelection <==> g.selectedCard.None?
    ensures result == NoSelection || result == CannotTake ==> s == g
    ensures !result.DrawFailed?
    ensures result == CannotTake <==>
      g.selectedCard.Some? && (|g.discardPile| == 0 || g.lastDiscardBy == Some(g.currentPlayerIndex))
    ensures g.selectedCard.Some? && |g.discardPile| > 0 && result != CannotTake ==>
      var me := g.currentPlayerIndex;
      var hand := g.players[me].hand[g.selectedCard.value.cardIndex := g.discardPile[|g.discardPile| - 1]];
      && s.players[me].hand == hand
      && (result == PlayerWins <==> Win.HasWinningHand(hand, g.winMode))
      && s.discardPile == g.discardPile[..|g.discardPile| - 1] + [g.players[me].hand[g.selectedCard.value.cardIndex]]
  {
    if g.selectedCard.None? {
      return g, NoSelection;
    }
    s, result := TakeSwap(g);
  }

  /** The take-and-swap of the discard-pile click only moves cards: the table holds the same ones. */
  lemma TakeSwapConservesCards(g: GameState)
    requires WellFormed(g) && SelectionByMover(g) && g.selectedCard.Some?
    requires Turn.TakeTopDiscard(g).value.Some?
    ensures var t := Turn.TakeTopDiscard(g);
      var d := Turn.DiscardSelectedCard(t.state).state;
      var r := Turn.ReplaceDiscardedSlotWith(d, t.value.value).state;
      WellFormed(r) && CardsInPlay(r) == CardsInPlay(g)
  {
    var t := Turn.TakeTopDiscard(g);
    Turn.TakeTopConservesCards(g);
    assert t.state.players == g.players && t.state.selectedCard == g.selectedCard;
    Turn.DiscardThenReplace(t.state, t.value.value);
  }

  /**
   * The swap of the draw-pile click: a card from the local pile only moves, so the table is the
   * same; a card served by the remote deck is one more card on the table.
   */
  lemma DrawSwapCards(g: GameState, remote: Turn.RemoteDraw)
    requires WellFormed(g) && SelectionByMover(g) && g.selectedCard.Some?
    requires Turn.DrawFromDeck(Turn.DiscardSelectedCard(g).state, remote).value.Drawn?
    ensures var d := Turn.DiscardSelectedCard(g).state;
      var dr := Turn.DrawFromDeck(d, remote);
      var r := Turn.ReplaceDiscardedSlotWith(dr.state, dr.value.card).state;
      && WellFormed(r)
      && (|g.drawPileLocal| > 0 ==> CardsInPlay(r) == CardsInPlay(g))
      && (|g.drawPileLocal| == 0 ==> CardsInPlay(r) == CardsInPlay(g) + multiset{dr.value.card})
  {
    var d := Turn.DiscardSelectedCard(g).state;
    Turn.DiscardConservesCards(g);
    var dr := Turn.DrawFromDeck(d, remote);
    if |g.drawPileLocal| > 0 {
      Turn.LocalDrawConservesCards(d, remote);
    } else {
      assert CardsInPlay(dr.state) == CardsInPlay(d);
    }
    Turn.ReplaceAddsCard(dr.state, dr.value.card);
  }

  /**
   * After a failed draw the selection still names the same slot, which now holds the next card:
   * clicking the draw pile again discards that card too, two cards gone from the hand.
   */
  lemma RetryAfterFailedDrawDiscardsAgain(g: GameState, remote: Turn.RemoteDraw)
    requires WellFormed(g) && SelectionByMover(g) && g.selectedCard.Some?
    requires g.selectedCard.value.cardIndex + 1 < |Current(g).hand|
    requires Turn.DrawFromDeck(Turn.DiscardSelectedCard(g).state, remote).value.Failed?
    ensures var Selection(me, i) := g.selectedCard.value;
      var f := Turn.DrawFromDeck(Turn.DiscardSelectedCard(g).state, remote).state;
      && SelectionByMover(f)
      && Turn.DiscardSelectedCard(f).value == Some(g.players[me].hand[i + 1])
      && |Turn.DiscardSelectedCard(f).state.players[me].hand| + 2 == |g.players[me].hand|
  {
  }

  /** The declare button: only when the human seat has a pending must-declare, mark it declared. */
  function HumanDeclare(g: GameState): (s: Step<bool>)
    requires WellFormed(g)
    ensures WellFormed(s.state)
    ensures s.value <==> g.players[0].mustDeclare
    ensures !s.value ==> s.state == g
    ensures s.value ==> s.state.players[0].declared
    ensures s.state.players[0].(declared := g.players[0].declared) == g.players[0]
    ensures s.state.players[1] == g.players[1]
    ensures s.state.(players := g.players) == g
  {
    if !g.players[0].mustDeclare then Step(g, false)
    else Step(WithPlayer(g, 0, g.players[0].(declared := true)), true)
  }

  /** Declaring clears the way: a turn ended right after it charges the human seat no penalty. */
  lemma DeclaredTurnEndsWithoutPenalty(g: GameState)
    requires WellFormed(g) && g.currentPlayerIndex == 0 && HumanDeclare(g).value
    ensures var r := Turn.EndTurn(HumanDeclare(g).state);
      && r.players[0].canWinNextTurn == g.players[0].canWinNextTurn
      && r.players[0].penaltyUntilTurn == g.players[0].penaltyUntilTurn
  {
    Turn.EndTurnPenalties(HumanDeclare(g).state);
  }

  /** The flag reset the start button applies to every seat after a successful deal. */
  function ResetFlags(p: Player): (r: Player)
    ensures !r.declared && !r.mustDeclare && r.canWinNextTurn
    ensures r.(declared := p.declared, mustDeclare := p.mustDeclare, canWinNextTurn := p.canWinNextTurn) == p
  {
    p.(declared := false, mustDeclare := false, canWinNextTurn := true)
  }

  /**
   * The start button: a new game, and once it has been dealt every seat's declared and
   * must-declare flags cleared and its win permission restored. The recorded penalty turn is
   * not cleared. A failed start is caught before the reset.
   */
  function StartButton(g: GameState, deck: Setup.DeckReply, deal: Setup.DealReply): (s: Step<Setup.SetupResult>)
    requires WellFormed(g)
    ensures WellFormed(s.state)
    ensures s.value == Setup.StartNewGame(g, deck, deal).value
    ensures s.value.SetupFailed? ==> s.state == Setup.StartNewGame(g, deck, deal).state
    ensures s.value == Setup.Started ==>
      && s.state.players[0] == ResetFlags(Setup.StartNewGame(g, deck, deal).state.players[0])
      && s.state.players[1] == ResetFlags(Setup.StartNewGame(g, deck, deal).state.players[1])
      && s.state.(players := g.players) == Setup.StartNewGame(g, deck, deal).state.(players := g.players)
  {
    var st := Setup.StartNewGame(g, deck, deal);
    if st.value.SetupFailed? then st
    else
      var ps := st.state.players;
      Step(st.state.(players := [ResetFlags(ps[0]), ResetFlags(ps[1])]), Setup.Started)
  }

  /**
   * After the start button the seats hold their dealt hands with every flag cleared, and a
   * penalty turn recorded in the game before is still there, now inert.
   */
  lemma StartButtonResets(g: GameState, id: string, cards: seq<Card>, remaining: int)
    requires WellFormed(g)
    ensures var s := StartButton(g, Setup.NewDeck(id), Setup.Dealt(cards, remaining));
      && s.value == Setup.Started
      && (forall k :: 0 <= k < |s.state.players| ==>
            && s.state.players[k].hand == Setup.HandFor(cards, k)
            && !s.state.players[k].declared && !s.state.players[k].mustDeclare
            && s.state.players[k].canWinNextTurn
            && s.state.players[k].penaltyUntilTurn == g.players[k].penaltyUntilTurn)
  {
    Setup.RestartKeepsStaleMarks(g, id, cards, remaining);
  }

  /** The start button keeps the penalty book, so the turn-end penalty lemmas hold for the game it deals. */
  lemma StartButtonKeepsPenaltyBook(g: GameState, deck: Setup.DeckReply, deal: Setup.DealReply)
    requires WellFormed(g) && PenaltyBook(g)
    ensures PenaltyBook(StartButton(g, deck, deal).state)
  {
    var st := Setup.StartNewGame(g, deck, deal).state;
    var s := StartButton(g, deck, deal).state;
    Setup.RestartKeepsPenaltyBook(g, deck, deal);
    assert s.players[0].penaltyUntilTurn == st.players[0].penaltyUntilTurn;
    assert s.players[1].penaltyUntilTurn == st.players[1].penaltyUntilTurn;
    PenaltyBookFrame(st, s);
  }

  /** After the start button has dealt a game, a player can win on their very first turn. */
  lemma StartButtonLiftsPenalties(g: GameState, deck: Setup.DeckReply, deal: Setup.DealReply)
    requires WellFormed(g) && StartButton(g, deck, deal).value == Setup.Started
    ensures var s := StartButton(g, deck, deal).state;
      var hand := Current(s).hand;
      Win.HasWinningHand(hand, s.winMode) ==> Turn.EvaluateDeclarationAfterDraw(s, s.currentPlayerIndex).value == Turn.WinNow
  {
  }
}

=== FILE: helpers.dfy ===
/**
 * The utility functions: the Fisher–Yates shuffle, the card-value normaliser
 * (built on JavaScript's `parseInt(v, 10)`) and the random card-back choice.
 *
 * `Math.random()` is replaced by an arbitrary stream `rolls`: the draw made
 * while handling position i is `rolls(i) % (i + 1)`, which ranges over exactly
 * the indices `Math.floor(Math.random() * (i + 1))` can produce.
 */
module Helpers {
  import opened Opt
  import opened JsArray
  import Win

  /* ---------------------------------------------------------------------
     shuffle
     --------------------------------------------------------------------- */

  /** The Fisher–Yates loop from position i down to 1: swap position k with a drawn index in [0, k]. */
  function ShuffleDown<T>(a: seq<T>, i: nat, rolls: nat -> nat): (r: seq<T>)
    requires i < |a|
    ensures |r| == |a|
    ensures multiset(r) == multiset(a)
    ensures forall k :: i < k < |a| ==> r[k] == a[k]
    decreases i
  {
    if i == 0 then a
    else ShuffleDown(Swap(a, i, rolls(i) % (i + 1)), i - 1, rolls)
  }

  /** `shuffle(arr)`: a new array holding a permutation of the input, which is left as it was. */
  function Shuffle<T>(a: seq<T>, rolls: nat -> nat): (r: seq<T>)
    ensures |r| == |a|
    ensures multiset(r) == multiset(a)
  {
    if |a| == 0 then a else ShuffleDown(a, |a| - 1, rolls)
  }

  /** The roll stream under which position k always draws k itself. */
  function TopRoll(k: nat): nat { k }

  /** Handling position i, that stream swaps i with itself and so leaves the sequence alone. */
  lemma TopRollSwapsNothing<T>(a: seq<T>, i: nat)
    requires i < |a|
    ensures Swap(a, i, TopRoll(i) % (i + 1)) == a
  {
    assert TopRoll(i) % (i + 1) == i;
    SwapSelf(a, i);
  }

  /** One step of the shuffle under that stream is the next step on the same sequence. */
  lemma TopRollStep<T>(a: seq<T>, i: nat)
    requires 0 < i < |a|
    ensures ShuffleDown(a, i, TopRoll) == ShuffleDown(a, i - 1, TopRoll)
  {
    TopRollSwapsNothing(a, i);
  }

  /** Under that stream every swap is a self-swap, so the shuffle keeps the order. */
  lemma {:induction false} ShuffleDownIdentity<T>(a: seq<T>, i: nat)
    requires i < |a|
    ensures ShuffleDown(a, i, TopRoll) == a
    decreases i
  {
    if i > 0 {
      TopRollStep(a, i);
      ShuffleDownIdentity(a, i - 1);
    }
  }

  /* ---------------------------------------------------------------------
     normalizeCardValue
     --------------------------------------------------------------------- */

  /** The characters `parseInt` skips before the number: JavaScript's white space and line terminators. */
  predicate IsJsSpace(c: char) {
    var n := c as int;
    (0x09 <= n <= 0x0D) || n == 0x20 || n == 0xA0 || n == 0x1680
    || (0x2000 <= n <= 0x200A) || n == 0x2028 || n == 0x2029
    || n == 0x202F || n == 0x205F || n == 0x3000 || n == 0xFEFF
  }

  predicate IsDigit(c: char) {
    '0' <= c <= '9'
  }

  function DigitValue(c: char): (d: nat)
    requires IsDigit(c)
    ensures d < 10
  {
    (c as int) - ('0' as int)
  }

  function DigitChar(d: nat): (c: char)
    requires d < 10
    ensures IsDigit(c) && DigitValue(c) == d
  {
    (('0' as int) + d) as char
  }

  /** The string without its leading white space. */
  function TrimStart(s: string): (r: string)
    ensures |r| <= |s|
    ensures |r| > 0 ==> !IsJsSpace(r[0])
    ensures |s| > 0 && !IsJsSpace(s[0]) ==> r == s
  {
    if |s| > 0 && IsJsSpace(s[0]) then TrimStart(s[1..]) else s
  }

  /** Trimming removes only leading white space: the rest is a suffix, and everything before it a space. */
  lemma {:induction false} TrimStartDropsOnlySpace(s: string)
    ensures TrimStart(s) == s[|s| - |TrimStart(s)|..]
    ensures forall k :: 0 <= k < |s| - |TrimStart(s)| ==> IsJsSpace(s[k])
  {
    if |s| > 0 && IsJsSpace(s[0]) {
      TrimStartDropsOnlySpace(s[1..]);
      assert s[1..][|s[1..]| - |TrimStart(s[1..])|..] == s[|s| - |TrimStart(s)|..];
      forall k | 0 <= k < |s| - |TrimStart(s)|
        ensures IsJsSpace(s[k])
      {
        if k > 0 {
          assert s[k] == s[1..][k - 1];
        }
      }
    }
  }

  /** The longest prefix made of decimal digits. */
  function DigitPrefix(s: string): (r: string)
    ensures |r| <= |s| && r == s[..|r|]
    ensures forall k :: 0 <= k < |r| ==> IsDigit(r[k])
    ensures |r| < |s| ==> !IsDigit(s[|r|])
  {
    if |s| > 0 && IsDigit(s[0]) then [s[0]] + DigitPrefix(s[1..]) else []
  }

  /** The number a digit string denotes, read left to right. */
  function DigitsValue(ds: string): nat
    requires forall k :: 0 <= k < |ds| ==> IsDigit(ds[k])
  {
    if |ds| == 0 then 0
    else DigitsValue(ds[..|ds| - 1]) * 10 + DigitValue(ds[|ds| - 1])
  }

  /**
   * `parseInt(s, 10)`: skip leading white space, read an optional sign, then the longest
   * run of digits; None stands for NaN, the result when there is no digit at all.
   */
  function ParseInt10(s: string): (r: Option<int>)
    ensures var t := TrimStart(s);
      var signed := |t| > 0 && (t[0] == '-' || t[0] == '+');
      r.Some? <==> (|t| > 0 && IsDigit(t[0])) || (signed && |t| > 1 && IsDigit(t[1]))
    ensures r.Some? && r.value < 0 ==> TrimStart(s)[0] == '-'
  {
    var t := TrimStart(s);
    var negative := |t| > 0 && t[0] == '-';
    var rest := if |t| > 0 && (t[0] == '-' || t[0] == '+') then t[1..] else t;
    var ds := DigitPrefix(rest);
    if |ds| == 0 then None
    else if negative then Some(0 - DigitsValue(ds))
    else Some(DigitsValue(ds))
  }

  /** The decimal spelling of a natural number, without leading zeros. */
  function Decimal(n: nat): (s: string)
    ensures |s| > 0
    ensures forall k :: 0 <= k < |s| ==> IsDigit(s[k])
  {
    if n < 10 then [DigitChar(n)] else Decimal(n / 10) + [DigitChar(n % 10)]
  }

  /** Reading back a decimal spelling gives the number. */
  lemma {:induction false} DigitsValueOfDecimal(n: nat)
    ensures DigitsValue(Decimal(n)) == n
  {
    if n >= 10 {
      DigitsValueOfDecimal(n / 10);
      var s := Decimal(n);
      assert s[..|s| - 1] == Decimal(n / 10);
    }
  }

  /** A string of digits is its own longest digit prefix. */
  lemma {:induction false} DigitPrefixOfDigits(s: string)
    requires forall k :: 0 <= k < |s| ==> IsDigit(s[k])
    ensures DigitPrefix(s) == s
  {
    if |s| > 0 {
      assert forall k :: 0 <= k < |s[1..]| ==> IsDigit(s[1..][k]);
      DigitPrefixOfDigits(s[1..]);
      assert s == [s[0]] + s[1..];
    }
  }

  /** `parseInt` reads the decimal spelling of n back as n, for n up to 2^53, below which a double is exact. */
  lemma ParseIntOfDecimal(n: nat)
    requires n <= 0x20_0000_0000_0000
    ensures ParseInt10(Decimal(n)) == Some(n)
  {
    var s := Decimal(n);
    DigitsValueOfDecimal(n);
    DigitPrefixOfDigits(s);
    assert IsDigit(s[0]) && !IsJsSpace(s[0]);
    assert TrimStart(s) == s;
  }

  /** `parseInt` reads "-" followed by the decimal spelling of n as -n, for n up to 2^53. */
  lemma ParseIntOfNegatedDecimal(n: nat)
    requires n <= 0x20_0000_0000_0000
    ensures ParseInt10("-" + Decimal(n)) == Some(0 - n)
  {
    var s := Decimal(n);
    DigitsValueOfDecimal(n);
    DigitPrefixOfDigits(s);
    var t := "-" + s;
    assert t[0] == '-' && !IsJsSpace(t[0]);
    assert TrimStart(t) == t;
    assert t[1..] == s;
  }

  /** The names the normaliser maps to face ranks. */
  const FaceNames: seq<string> := ["JACK", "QUEEN", "KING", "ACE"]

  /** `map[v] ?? 0` with `map = { JACK: 11, QUEEN: 12, KING: 13, ACE: 14 }`. */
  function FaceValue(v: string): (n: int)
    ensures v in FaceNames <==> n != 0
  {
    if v == "JACK" then 11
    else if v == "QUEEN" then 12
    else if v == "KING" then 13
    else if v == "ACE" then 14
    else 0
  }

  /** normalizeCardValue: the parsed integer when `parseInt` finds one, else the face rank, else 0. */
  function NormalizeCardValue(v: string): (n: int)
    ensures ParseInt10(v).Some? ==> n == ParseInt10(v).value
    ensures ParseInt10(v).None? && v !in FaceNames ==> n == 0
    ensures ParseInt10(v).None? && v in FaceNames ==> 11 <= n <= 14
  {
    match ParseInt10(v)
    case Some(x) => x
    case None => FaceValue(v)
  }

  /**
   * Every digit string without leading zeros, up to 2^53, normalises to the number it spells,
   * so "2".."10" give 2..10.
   */
  lemma NormalizeDecimal(n: nat)
    requires n <= 0x20_0000_0000_0000
    ensures NormalizeCardValue(Decimal(n)) == n
  {
    ParseIntOfDecimal(n);
  }

  /** A string that starts with a capital letter has no number for `parseInt` to read. */
  lemma LetterStartIsNaN(s: string)
    requires |s| > 0 && 'A' <= s[0] <= 'Z'
    ensures ParseInt10(s).None?
  {
    assert !IsJsSpace(s[0]);
    assert TrimStart(s) == s;
    assert DigitPrefix(s) == [];
  }

  /** The face names normalise to 11, 12, 13 and 14. */
  lemma NormalizeFaces()
    ensures NormalizeCardValue("JACK") == 11
    ensures NormalizeCardValue("QUEEN") == 12
    ensures NormalizeCardValue("KING") == 13
    ensures NormalizeCardValue("ACE") == 14
  {
    LetterStartIsNaN("JACK");
    LetterStartIsNaN("QUEEN");
    LetterStartIsNaN("KING");
    LetterStartIsNaN("ACE");
  }

  /** The number cards' names are the decimal spellings of 2..10. */
  lemma NumberNamesAreDecimal()
    ensures Decimal(2) == "2" && Decimal(3) == "3" && Decimal(4) == "4"
    ensures Decimal(5) == "5" && Decimal(6) == "6" && Decimal(7) == "7"
    ensures Decimal(8) == "8" && Decimal(9) == "9" && Decimal(10) == "10"
  {
  }

  /** The number cards' names normalise to the numbers they spell. */
  lemma NormalizeNumberNames()
    ensures NormalizeCardValue("2") == 2 && NormalizeCardValue("3") == 3 && NormalizeCardValue("4") == 4
    ensures NormalizeCardValue("5") == 5 && NormalizeCardValue("6") == 6 && NormalizeCardValue("7") == 7
    ensures NormalizeCardValue("8") == 8 && NormalizeCardValue("9") == 9 && NormalizeCardValue("10") == 10
  {
    NumberNamesAreDecimal();
    NormalizeDecimal(2);
    NormalizeDecimal(3);
    NormalizeDecimal(4);
    NormalizeDecimal(5);
    NormalizeDecimal(6);
    NormalizeDecimal(7);
    NormalizeDecimal(8);
    NormalizeDecimal(9);
    NormalizeDecimal(10);
  }

  /** The face entries of the rank table (ace, king, queen, jack) normalise to 14 - i. */
  lemma NormalizeFaceRanks(i: nat)
    requires i < 4
    ensures NormalizeCardValue(Win.RankNames[i]) == 14 - i
  {
    var v := Win.RankNames[i];
    assert v == FaceNames[3 - i];
    LetterStartIsNaN(v);
  }

  /** The number entries of the rank table (ten down to two) normalise to 14 - i. */
  lemma NormalizeNumberRanks(i: nat)
    requires 4 <= i < |Win.RankNames|
    ensures NormalizeCardValue(Win.RankNames[i]) == 14 - i
  {
    NumberNamesAreDecimal();
    assert Win.RankNames[i] == Decimal(14 - i);
    NormalizeDecimal(14 - i);
  }

  /** On every card name the deck serves, the normaliser and the win-check rank table agree. */
  lemma NormalizeAgreesWithValueOrder(v: string)
    requires v in Win.RankNames
    ensures Win.ValueOrder(v) == Some(NormalizeCardValue(v))
  {
    Win.ValueOrderTable();
    var i :| 0 <= i < |Win.RankNames| && Win.RankNames[i] == v;
    if i < 4 {
      NormalizeFaceRanks(i);
    } else {
      NormalizeNumberRanks(i);
    }
  }

  /* ---------------------------------------------------------------------
     getRandomCardBack
     --------------------------------------------------------------------- */

  /**
   * `cardBacks[Math.floor(Math.random() * cardBacks.length)]`; on an empty list the
   * index is 0 and the read gives `undefined`, modelled as None.
   */
  function GetRandomCardBack<T>(cardBacks: seq<T>, roll: nat): (r: Option<T>)
    ensures r.None? <==> |cardBacks| == 0
    ensures r.Some? ==> r.value in cardBacks
  {
    if |cardBacks| == 0 then None else Some(cardBacks[roll % |cardBacks|])
  }

  /** Every card back can be the one chosen. */
  lemma EveryCardBackReachable<T>(cardBacks: seq<T>, k: nat)
    requires k < |cardBacks|
    ensures GetRandomCardBack(cardBacks, k) == Some(cardBacks[k])
  {
    assert k % |cardBacks| == k;
  }
}

=== FILE: jsarray.dfy ===
/**
 * Value-level versions of the JavaScript array primitives the game code relies on:
 * `splice` with one of its three shapes, `slice` with index clamping, `reverse`
 * and the two-element swap of a Fisher–Yates pass.
 */
module JsArray {

  /** `a.splice(i, 1)` for an index inside the array: the array without its i-th element. */
  function RemoveAt<T>(s: seq<T>, i: nat): (r: seq<T>)
    requires i < |s|
    ensures |r| == |s| - 1
    ensures forall k :: 0 <= k < i ==> r[k] == s[k]
    ensures forall k :: i <= k < |r| ==> r[k] == s[k + 1]
    ensures multiset(r) + multiset{s[i]} == multiset(s)
  {
    assert s == s[..i] + [s[i]] + s[i + 1..];
    s[..i] + s[i + 1..]
  }

  /** `a.splice(i, 0, x)`: JavaScript clamps a start index past the end to the length. */
  function InsertAt<T>(s: seq<T>, i: nat, x: T): (r: seq<T>)
    ensures |r| == |s| + 1
    ensures var j := if i < |s| then i else |s|;
      && r[j] == x
      && (forall k :: 0 <= k < j ==> r[k] == s[k])
      && (forall k :: j < k < |r| ==> r[k] == s[k - 1])
    ensures multiset(r) == multiset(s) + multiset{x}
  {
    var j := if i < |s| then i else |s|;
    assert s == s[..j] + s[j..];
    s[..j] + [x] + s[j..]
  }

  /** `a.splice(i, 1, x)`: overwrite slot i, or append when i is at or past the end. */
  function ReplaceAt<T>(s: seq<T>, i: nat, x: T): (r: seq<T>)
    ensures i < |s| ==> |r| == |s| && r == s[i := x]
    ensures i >= |s| ==> r == s + [x]
  {
    if i < |s| then s[..i] + [x] + s[i + 1..] else s + [x]
  }

  /**
   * `a.slice(lo, hi)` for non-negative bounds: both are clamped to the length, and an end at or
   * before the start gives the empty array.
   */
  function Slice<T>(s: seq<T>, lo: nat, hi: nat): (r: seq<T>)
    ensures lo <= hi <= |s| ==> r == s[lo..hi]
    ensures lo <= |s| && |s| <= hi ==> r == s[lo..]
    ensures hi <= lo || |s| <= lo ==> r == []
    ensures |r| <= |s|
    ensures |r| > 0 ==> lo + |r| <= |s|
    ensures forall k :: 0 <= k < |r| ==> r[k] == s[lo + k]
  {
    var b := if hi < |s| then hi else |s|;
    var a := if lo < b then lo else b;
    s[a..b]
  }

  /** `a.reverse()` on a copy. */
  function Reverse<T>(s: seq<T>): (r: seq<T>)
    ensures |r| == |s|
    ensures forall k :: 0 <= k < |s| ==> r[k] == s[|s| - 1 - k]
    ensures multiset(r) == multiset(s)
  {
    if |s| == 0 then []
    else
      assert s == s[..|s| - 1] + [s[|s| - 1]];
      [s[|s| - 1]] + Reverse(s[..|s| - 1])
  }

  /** `[a[i], a[j]] = [a[j], a[i]]`. */
  function Swap<T>(s: seq<T>, i: nat, j: nat): (r: seq<T>)
    requires i < |s| && j < |s|
    ensures |r| == |s| && r[i] == s[j] && r[j] == s[i]
    ensures forall k :: 0 <= k < |s| && k != i && k != j ==> r[k] == s[k]
    ensures multiset(r) == multiset(s)
  {
    s[i := s[j]][j := s[i]]
  }

  /** A non-empty sequence is its front plus its last element, as a multiset too. */
  lemma SplitLast<T>(s: seq<T>)
    requires |s| > 0
    ensures s == s[..|s| - 1] + [s[|s| - 1]]
    ensures multiset(s) == multiset(s[..|s| - 1]) + multiset{s[|s| - 1]}
  {
    assert s == s[..|s| - 1] + [s[|s| - 1]];
  }

  /** Swapping a position with itself changes nothing. */
  lemma SwapSelf<T>(s: seq<T>, i: nat)
    requires i < |s|
    ensures Swap(s, i, i) == s
  {
    assert s[i := s[i]] == s;
  }

  /** The card slot round trip: removing slot i and inserting x at i overwrites slot i with x. */
  lemma RemoveThenInsert<T>(s: seq<T>, i: nat, x: T)
    requires i < |s|
    ensures InsertAt(RemoveAt(s, i), i, x) == ReplaceAt(s, i, x)
    ensures InsertAt(RemoveAt(s, i), i, s[i]) == s
  {
    RemoveThenInsertSlots(s, i, x);
    RemoveThenInsertSlots(s, i, s[i]);
    assert s[i := s[i]] == s;
  }

  /** Slot by slot, removing slot i and inserting x at i gives s with slot i set to x. */
  lemma RemoveThenInsertSlots<T>(s: seq<T>, i: nat, x: T)
    requires i < |s|
    ensures InsertAt(RemoveAt(s, i), i, x) == s[i := x]
  {
    var d := RemoveAt(s, i);
    var r := InsertAt(d, i, x);
    assert |r| == |s|;
    forall k | 0 <= k < |s|
      ensures r[k] == s[i := x][k]
    {
      if k < i {
        assert r[k] == d[k];
      } else if k > i {
        assert r[k] == d[k - 1];
      }
    }
  }
}

=== FILE: option.dfy ===
/** The optional value used wherever the game code stores `null` (or reads `undefined`). */
module Opt {

  datatype Option<+T> = None | Some(value: T) {

    /** The wrapped value, or `default` when there is none (JavaScript's `x ?? default`). */
    function GetOr(default: T): T {
      match this
      case Some(v) => v
      case None => default
    }
  }
}

=== FILE: setup.dfy ===
/**
 * Starting a game: ask the deck service for a shuffled deck, deal four cards per seat
 * from one batch, and reset the table. The two service answers are inputs; a failed
 * request stops the start where it happened, as the thrown error does.
 */
module Setup {
  import opened Opt
  import opened JsArray
  import opened Cards
  import opened State

  /** The deck service's answer to a new-deck request. */
  datatype DeckReply = NewDeck(deckId: string) | DeckUnavailable

  /** The deck service's answer to the deal request: the cards served and the count left in the deck. */
  datatype DealReply = Dealt(cards: seq<Card>, remaining: int) | DealUnavailable

  datatype SetupError = DeckRequestFailed | DealRequestFailed

  datatype SetupResult = Started | SetupFailed(error: SetupError)

  /** Cards per hand. */
  const HandSize: nat := 4

  /** `players.length * 4`: the size of the deal request. */
  function DealCount(g: GameState): (n: nat)
    requires WellFormed(g)
    ensures n == 8
  {
    |g.players| * HandSize
  }

  /** `cards.slice(i*4, i*4 + 4)`: seat i's block of the dealt batch, cut short when the batch is. */
  function HandFor(cards: seq<Card>, i: nat): (h: seq<Card>)
    ensures |h| <= HandSize
    ensures |h| > 0 ==> 4 * i + |h| <= |cards|
    ensures forall k :: 0 <= k < |h| ==> h[k] == cards[4 * i + k]
    ensures |h| == HandSize <==> |cards| >= 4 * i + HandSize
    ensures |cards| >= 4 * i + HandSize ==> h == cards[4 * i .. 4 * i + HandSize]
    ensures 4 * i <= |cards| < 4 * i + HandSize ==> h == cards[4 * i ..]
    ensures |cards| <= 4 * i ==> h == []
  {
    Slice(cards, 4 * i, 4 * i + HandSize)
  }

  /**
   * startNewGame: record the new deck's id, deal seat i the i-th block of four, take the remaining
   * count from the deal answer, empty the discard pile, give the move to seat 0 and clear the
   * game-over mark. The turn counter, the selection, the last-discarder mark, the local draw pile,
   * the rule mode and every player flag are left as they were.
   */
  function StartNewGame(g: GameState, deck: DeckReply, deal: DealReply): (s: Step<SetupResult>)
    requires WellFormed(g)
    ensures WellFormed(s.state)
    ensures deck.DeckUnavailable? ==> s == Step(g, SetupFailed(DeckRequestFailed))
    ensures deck.NewDeck? && deal.DealUnavailable? ==>
      s == Step(g.(deckId := Some(deck.deckId)), SetupFailed(DealRequestFailed))
    ensures deck.NewDeck? && deal.Dealt? ==>
      && s.value == Started
      && s.state.deckId == Some(deck.deckId)
      && s.state.players[0].hand == HandFor(deal.cards, 0)
      && s.state.players[1].hand == HandFor(deal.cards, 1)
      && s.state.drawRemaining == deal.remaining
      && s.state.discardPile == []
      && s.state.currentPlayerIndex == 0
      && !s.state.gameOver && s.state.winner.None?
  {
    match deck
    case DeckUnavailable => Step(g, SetupFailed(DeckRequestFailed))
    case NewDeck(id) =>
      var g1 := g.(deckId := Some(id));
      match deal
      case DealUnavailable => Step(g1, SetupFailed(DealRequestFailed))
      case Dealt(cards, remaining) =>
        var p0 := g1.players[0].(hand := HandFor(cards, 0));
        var p1 := g1.players[1].(hand := HandFor(cards, 1));
        Step(g1.(players := [p0, p1], drawRemaining := remaining, discardPile := [],
                 currentPlayerIndex := 0, gameOver := false, winner := None), Started)
  }

  /**
   * With a full batch of eight cards the two hands are four cards each and, laid end to end,
   * are exactly the batch's first eight cards: consecutive, disjoint blocks.
   */
  lemma DealSplitsTheBatch(g: GameState, id: string, cards: seq<Card>, remaining: int)
    requires WellFormed(g) && |cards| >= DealCount(g)
    ensures var s := StartNewGame(g, NewDeck(id), Dealt(cards, remaining)).state;
      && |s.players[0].hand| == HandSize && |s.players[1].hand| == HandSize
      && s.players[0].hand + s.players[1].hand == cards[..8]
      && multiset(s.players[0].hand) + multiset(s.players[1].hand) == multiset(cards[..8])
  {
    var s := StartNewGame(g, NewDeck(id), Dealt(cards, remaining)).state;
    assert cards[..8] == cards[0..4] + cards[4..8];
  }

  /** A short batch still deals in order; the second seat gets what is left after the first four. */
  lemma ShortBatchDealsInOrder(g: GameState, id: string, cards: seq<Card>, remaining: int)
    requires WellFormed(g) && |cards| < DealCount(g)
    ensures var s := StartNewGame(g, NewDeck(id), Dealt(cards, remaining)).state;
      s.players[0].hand + s.players[1].hand == cards
  {
    var s := StartNewGame(g, NewDeck(id), Dealt(cards, remaining)).state;
    if |cards| <= 4 {
      assert s.players[0].hand == cards;
    } else {
      assert cards == cards[..4] + cards[4..];
    }
  }

  /** Starting from the load-time record, a full deal gives a fresh table with no penalties outstanding. */
  lemma StartFromInitialState(id: string, cards: seq<Card>, remaining: int)
    requires |cards| >= 8
    ensures var s := StartNewGame(InitialState(), NewDeck(id), Dealt(cards, remaining)).state;
      && PenaltyBook(s)
      && s.currentTurn == 0 && s.selectedCard.None? && s.lastDiscardBy.None?
      && (forall i :: 0 <= i < |s.players| ==>
            |s.players[i].hand| == HandSize && s.players[i].canWinNextTurn && !s.players[i].mustDeclare)
  {
    InitialWellFormed();
  }

  /**
   * A restart, failed or not, keeps the penalty book: it turns no counter back and touches no
   * recorded expiry turn, although it may hand the move to a seat whose penalty is due now.
   */
  lemma RestartKeepsPenaltyBook(g: GameState, deck: DeckReply, deal: DealReply)
    requires WellFormed(g) && PenaltyBook(g)
    ensures PenaltyBook(StartNewGame(g, deck, deal).state)
  {
    if deck.NewDeck? && deal.Dealt? {
      RestartKeepsStaleMarks(g, deck.deckId, deal.cards, deal.remaining);
      var s := StartNewGame(g, deck, deal).state;
      assert s.players[0].penaltyUntilTurn == g.players[0].penaltyUntilTurn;
      assert s.players[1].penaltyUntilTurn == g.players[1].penaltyUntilTurn;
      PenaltyBookFrame(g, s);
    }
  }

  /**
   * A restart keeps the turn counter, the local draw pile, the rule mode, a pending selection,
   * the last-discarder mark and every player flag, penalties included, from the game before.
   */
  lemma RestartKeepsStaleMarks(g: GameState, id: string, cards: seq<Card>, remaining: int)
    requires WellFormed(g)
    ensures var s := StartNewGame(g, NewDeck(id), Dealt(cards, remaining)).state;
      && s.selectedCard == g.selectedCard && s.lastDiscardBy == g.lastDiscardBy
      && s.currentTurn == g.currentTurn && s.drawPileLocal == g.drawPileLocal
      && s.winMode == g.winMode
      && (forall i :: 0 <= i < |g.players| ==>
            s.players[i].(hand := g.players[i].hand) == g.players[i])
  {
    var s := StartNewGame(g, NewDeck(id), Dealt(cards, remaining)).state;
    assert s.players[0].(hand := g.players[0].hand) == g.players[0];
    assert s.players[1].(hand := g.players[1].hand) == g.players[1];
  }
}

=== FILE: sorting.dfy ===
/**
 * Ascending numeric sort, the effect of `nums.sort((a, b) => a - b)` on an array of
 * numbers. A sorted permutation is unique (`SortedUnique`), so insertion sort yields
 * exactly what any correct sort does.
 */
module Sorting {

  ghost predicate Sorted(s: seq<int>) {
    forall i, j :: 0 <= i < j < |s| ==> s[i] <= s[j]
  }

  /** Inserts x into a sorted sequence before the first element not smaller than it. */
  function Insert(x: int, s: seq<int>): (r: seq<int>)
    requires Sorted(s)
    ensures Sorted(r)
    ensures |r| == |s| + 1
    ensures multiset(r) == multiset(s) + multiset{x}
  {
    if |s| == 0 then [x]
    else if x <= s[0] then
      HeadBelowAll(s);
      ConsSorted(x, s);
      [x] + s
    else
      assert s == [s[0]] + s[1..];
      var t := Insert(x, s[1..]);
      HeadBelowAll(s);
      forall y | y in t ensures s[0] <= y {
        assert y in multiset(t);
      }
      ConsSorted(s[0], t);
      [s[0]] + t
  }

  /** The head of a sorted sequence is below every element. */
  lemma HeadBelowAll(s: seq<int>)
    requires Sorted(s) && |s| > 0
    ensures forall y :: y in s ==> s[0] <= y
    ensures Sorted(s[1..])
  {
  }

  /** Prefixing a sequence by a lower bound of its elements keeps it sorted. */
  lemma ConsSorted(h: int, t: seq<int>)
    requires Sorted(t)
    requires forall y :: y in t ==> h <= y
    ensures Sorted([h] + t)
  {
    var r := [h] + t;
    forall i, j | 0 <= i < j < |r| ensures r[i] <= r[j] {
      if i == 0 {
        assert r[j] == t[j - 1];
        assert t[j - 1] in t;
      } else {
        assert r[i] == t[i - 1] && r[j] == t[j - 1];
      }
    }
  }

  function SortAsc(s: seq<int>): (r: seq<int>)
    ensures Sorted(r)
    ensures |r| == |s|
    ensures multiset(r) == multiset(s)
  {
    if |s| == 0 then []
    else
      assert s == [s[0]] + s[1..];
      Insert(s[0], SortAsc(s[1..]))
  }

  /** Two sorted sequences holding the same multiset of numbers are equal. */
  lemma {:induction false} SortedUnique(a: seq<int>, b: seq<int>)
    requires Sorted(a) && Sorted(b)
    requires multiset(a) == multiset(b)
    ensures a == b
    decreases |a|
  {
    assert |a| == |multiset(a)| == |multiset(b)| == |b|;
    if |a| > 0 {
      HeadBelowAll(a);
      HeadBelowAll(b);
      assert a[0] in multiset(b) && b[0] in multiset(a);
      assert a[0] in b && b[0] in a;
      assert a[0] == b[0];
      assert a == [a[0]] + a[1..];
      assert b == [b[0]] + b[1..];
      assert multiset(a) == multiset{a[0]} + multiset(a[1..]);
      assert multiset(b) == multiset{b[0]} + multiset(b[1..]);
      assert multiset(a[1..]) == multiset(a) - multiset{a[0]};
      assert multiset(b[1..]) == multiset(b) - multiset{b[0]};
      SortedUnique(a[1..], b[1..]);
    }
  }

  /** Sorting is determined by the multiset: a sorted permutation of s is SortAsc(s). */
  lemma SortAscOfSortedPermutation(s: seq<int>, t: seq<int>)
    requires Sorted(t) && multiset(t) == multiset(s)
    ensures SortAsc(s) == t
  {
    SortedUnique(SortAsc(s), t);
  }
}

=== FILE: state.dfy ===
/**
 * The shared game record. The source keeps one mutable object; here it is an
 * immutable value and every operation returns the next one.
 *
 * Display-only parts (player names, background, card-back images) are left out.
 * `drawPileLocal` does not exist until the first reshuffle; an absent pile and an
 * empty one behave the same wherever it is read, so both are the empty sequence.
 */
module State {
  import opened Opt
  import opened Cards
  import Win

  datatype Player = Player(
    id: nat,
    hand: seq<Card>,
    declared: bool,
    mustDeclare: bool,
    canWinNextTurn: bool,
    penaltyUntilTurn: Option<int>)

  /** `ui.selectedCard`: the slot a player has marked for discarding. */
  datatype Selection = Selection(playerId: nat, cardIndex: nat)

  datatype GameState = GameState(
    deckId: Option<string>,
    drawRemaining: int,
    drawPileLocal: seq<Card>,
    discardPile: seq<Card>,
    currentTurn: int,
    players: seq<Player>,
    currentPlayerIndex: nat,
    gameOver: bool,
    winner: Option<nat>,
    selectedCard: Option<Selection>,
    lastDiscardBy: Option<nat>,
    winMode: string)

  /** An operation's next state together with what the source function returns. */
  datatype Step<T> = Step(state: GameState, value: T)

  /** The number of seats; the record is created with two players and nothing adds or removes one. */
  const PlayerCount: nat := 2

  /** A player as the record creates it: no cards, no declaration, no penalty. */
  function FreshPlayer(id: nat): (p: Player)
    ensures p.id == id && p.hand == []
    ensures !p.declared && !p.mustDeclare && p.canWinNextTurn && p.penaltyUntilTurn.None?
  {
    Player(id, [], false, false, true, None)
  }

  /** The record at load time. */
  function InitialState(): (g: GameState)
    ensures |g.players| == PlayerCount
    ensures forall i :: 0 <= i < |g.players| ==> g.players[i] == FreshPlayer(i)
    ensures g.deckId.None? && g.drawRemaining == 0 && g.drawPileLocal == [] && g.discardPile == []
    ensures g.currentTurn == 0 && g.currentPlayerIndex == 0
    ensures !g.gameOver && g.winner.None?
    ensures g.selectedCard.None? && g.lastDiscardBy.None?
    ensures g.winMode == Win.Ak47Mode
  {
    GameState(None, 0, [], [], 0, [FreshPlayer(0), FreshPlayer(1)], 0,
              false, None, None, None, Win.Ak47Mode)
  }

  /**
   * The shape every operation relies on: two seats whose ids are their indices,
   * a current index naming one of them, and a selection naming one of them.
   */
  predicate WellFormed(g: GameState) {
    && |g.players| == PlayerCount
    && g.players[0].id == 0 && g.players[1].id == 1
    && g.currentPlayerIndex < |g.players|
    && (g.selectedCard.Some? ==> g.selectedCard.value.playerId < |g.players|)
  }

  lemma InitialWellFormed()
    ensures WellFormed(InitialState())
  {
  }

  /** The player whose turn it is. */
  function Current(g: GameState): (p: Player)
    requires WellFormed(g)
    ensures p in g.players
  {
    g.players[g.currentPlayerIndex]
  }

  /** Every card the table holds: both hands, the discard pile and the local draw pile. */
  function CardsInPlay(g: GameState): (ms: multiset<Card>)
    requires WellFormed(g)
    ensures |ms| == |g.players[0].hand| + |g.players[1].hand| + |g.discardPile| + |g.drawPileLocal|
  {
    multiset(g.players[0].hand) + multiset(g.players[1].hand)
      + multiset(g.discardPile) + multiset(g.drawPileLocal)
  }

  /** The record with seat i replaced. */
  function WithPlayer(g: GameState, i: nat, p: Player): (r: GameState)
    requires i < |g.players|
    ensures |r.players| == |g.players| && r.players[i] == p
    ensures forall k :: 0 <= k < |g.players| && k != i ==> r.players[k] == g.players[k]
  {
    g.(players := g.players[i := p])
  }

  /**
   * Everything outside the seats, the move and the selection agrees in both records: the deck
   * id, the remaining count, both piles, the last-discard mark, the game-over flags and the mode.
   */
  predicate SameTable(g: GameState, h: GameState) {
    && h.deckId == g.deckId && h.drawRemaining == g.drawRemaining && h.drawPileLocal == g.drawPileLocal
    && h.discardPile == g.discardPile && h.lastDiscardBy == g.lastDiscardBy
    && h.gameOver == g.gameOver && h.winner == g.winner && h.winMode == g.winMode
  }

  /**
   * The penalty book: every recorded expiry turn has already come. A penalty is recorded for
   * the turn number the counter takes at that very end of turn, and the counter never goes back.
   */
  predicate PenaltyBook(g: GameState) {
    forall i :: 0 <= i < |g.players| && g.players[i].penaltyUntilTurn.Some? ==>
      g.players[i].penaltyUntilTurn.value <= g.currentTurn
  }

  /**
   * The book depends on nothing but the turn counter and the recorded expiry turns: a step that
   * keeps the expiry turns and does not turn the counter back keeps it.
   */
  lemma PenaltyBookFrame(g: GameState, h: GameState)
    requires PenaltyBook(g)
    requires |h.players| == |g.players| && g.currentTurn <= h.currentTurn
    requires forall i :: 0 <= i < |g.players| ==> h.players[i].penaltyUntilTurn == g.players[i].penaltyUntilTurn
    ensures PenaltyBook(h)
  {
    forall i | 0 <= i < |h.players| && h.players[i].penaltyUntilTurn.Some?
      ensures h.players[i].penaltyUntilTurn.value <= h.currentTurn
    {
      assert h.players[i].penaltyUntilTurn == g.players[i].penaltyUntilTurn;
    }
  }

  lemma InitialPenaltyBook()
    ensures WellFormed(InitialState()) && PenaltyBook(InitialState())
  {
  }
}

=== FILE: turn.dfy ===
/**
 * The turn engine: selecting, discarding, drawing, taking the discard top,
 * refilling the vacated slot, resolving the turn, and the penalty bookkeeping
 * of `endTurn`. Each operation maps a state to the next state and the value
 * the source function returns.
 *
 * The remote draw of the deck service is an input: `RemoteDraw` says what the
 * service would answer. `Math.random` in the reshuffle is the roll stream of
 * Helpers. The status-message lines of `endTurn` touch only the page.
 */
module Turn {
  import opened Opt
  import opened JsArray
  import opened Cards
  import opened State
  import Win
  import Helpers

  /* ---------------------------------------------------------------------
     select
     --------------------------------------------------------------------- */

  /** selectCardForDiscard: only the player to move may mark a slot; a new mark replaces the old one. */
  function SelectCardForDiscard(g: GameState, playerId: nat, cardIndex: nat): (s: Step<bool>)
    requires WellFormed(g)
    ensures s.value <==> playerId == g.currentPlayerIndex
    ensures s.value ==> s.state.selectedCard == Some(Selection(playerId, cardIndex))
    ensures s.state.(selectedCard := g.selectedCard) == g
    ensures WellFormed(s.state)
  {
    if g.currentPlayerIndex != playerId then Step(g, false)
    else Step(g.(selectedCard := Some(Selection(playerId, cardIndex))), true)
  }

  /** Selecting twice is selecting once with the second slot. */
  lemma SelectOverwrites(g: GameState, i: nat, j: nat)
    requires WellFormed(g)
    ensures var p := g.currentPlayerIndex;
      SelectCardForDiscard(SelectCardForDiscard(g, p, i).state, p, j) == SelectCardForDiscard(g, p, j)
  {
  }

  /* ---------------------------------------------------------------------
     discard
     --------------------------------------------------------------------- */

  /** The selected slot lies inside its player's hand (or nothing is selected). */
  predicate SelectionInHand(g: GameState)
    requires WellFormed(g)
  {
    g.selectedCard.Some? ==> g.selectedCard.value.cardIndex < |g.players[g.selectedCard.value.playerId].hand|
  }

  /**
   * discardSelectedCard: with no selection, null and no change. Otherwise the selected card
   * leaves the hand and becomes the discard top, its owner is recorded as the last
   * discarder, and the selection is kept so the slot can be refilled.
   */
  function DiscardSelectedCard(g: GameState): (s: Step<Option<Card>>)
    requires WellFormed(g) && SelectionInHand(g)
    ensures WellFormed(s.state)
    ensures g.selectedCard.None? ==> s == Step(g, None)
    ensures g.selectedCard.Some? ==>
      var Selection(pid, i) := g.selectedCard.value;
      var hand := g.players[pid].hand;
      && s.value == Some(hand[i])
      && s.state.players[pid].hand == RemoveAt(hand, i)
      && s.state.discardPile == g.discardPile + [hand[i]]
      && s.state.lastDiscardBy == Some(pid)
      && s.state.selectedCard == g.selectedCard
    ensures s.state.(players := g.players, discardPile := g.discardPile, lastDiscardBy := g.lastDiscardBy) == g
    ensures forall k :: 0 <= k < |g.players| ==> s.state.players[k].(hand := g.players[k].hand) == g.players[k]
  {
    match g.selectedCard
    case None => Step(g, None)
    case Some(Selection(pid, i)) =>
      var p := g.players[pid];
      var card := p.hand[i];
      var g1 := WithPlayer(g, pid, p.(hand := RemoveAt(p.hand, i)));
      Step(g1.(discardPile := g.discardPile + [card], lastDiscardBy := Some(pid)), Some(card))
  }

  /** A discard moves a card from a hand to the pile: the table's cards are the same. */
  lemma DiscardConservesCards(g: GameState)
    requires WellFormed(g) && SelectionInHand(g)
    ensures CardsInPlay(DiscardSelectedCard(g).state) == CardsInPlay(g)
  {
    if g.selectedCard.Some? {
      var s := DiscardSelectedCard(g);
      var Selection(pid, i) := g.selectedCard.value;
      var other := 1 - pid;
      assert s.state.players[other].hand == g.players[other].hand;
      assert multiset(s.state.players[pid].hand) + multiset{g.players[pid].hand[i]} == multiset(g.players[pid].hand);
      assert multiset(s.state.discardPile) == multiset(g.discardPile) + multiset{g.players[pid].hand[i]};
    }
  }

  /** A player can never pick up the card they have just discarded. */
  lemma OwnDiscardNotTakeable(g: GameState)
    requires WellFormed(g) && SelectionInHand(g)
    requires g.selectedCard.Some? && g.selectedCard.value.playerId == g.currentPlayerIndex
    ensures TakeTopDiscard(DiscardSelectedCard(g).state).value.None?
  {
  }

  /* ---------------------------------------------------------------------
     draw
     --------------------------------------------------------------------- */

  /** What the deck service would answer to a one-card draw request. */
  datatype RemoteDraw = Served(card: Card, remaining: int) | Unavailable

  /** The three errors drawFromDeck throws. */
  datatype DrawError = NoDeckId | DrawPileEmpty | RequestFailed

  datatype Draw = Drawn(card: Card) | Failed(error: DrawError)

  /** `!deckId` (turn.js:51): no deck yet, or the empty string; a step of `DrawFromDeck`, whose contract states it. */
  predicate MissingDeckId(deckId: Option<string>) {
    deckId.None? || deckId.value == ""
  }

  /**
   * drawFromDeck: the local pile built by a reshuffle is used first, popping its last card and
   * lowering the remaining count; otherwise the remote deck is asked, after checking for a deck
   * id and a positive remaining count. A failure leaves the state as it was.
   */
  function DrawFromDeck(g: GameState, remote: RemoteDraw): (s: Step<Draw>)
    ensures |g.drawPileLocal| > 0 ==>
      && s.value == Drawn(g.drawPileLocal[|g.drawPileLocal| - 1])
      && s.state.drawPileLocal + [s.value.card] == g.drawPileLocal
      && s.state.drawRemaining == g.drawRemaining - 1
    ensures |g.drawPileLocal| == 0 && MissingDeckId(g.deckId) ==> s == Step(g, Failed(NoDeckId))
    ensures |g.drawPileLocal| == 0 && !MissingDeckId(g.deckId) && g.drawRemaining <= 0 ==>
      s == Step(g, Failed(DrawPileEmpty))
    ensures |g.drawPileLocal| == 0 && !MissingDeckId(g.deckId) && g.drawRemaining > 0 ==>
      match remote
      case Unavailable => s == Step(g, Failed(RequestFailed))
      case Served(c, rem) =>
        s.value == Drawn(c) && s.state.drawRemaining == rem && s.state.drawPileLocal == g.drawPileLocal
    ensures s.state.(drawPileLocal := g.drawPileLocal, drawRemaining := g.drawRemaining) == g
  {
    var n := |g.drawPileLocal|;
    if n > 0 then
      Step(g.(drawPileLocal := g.drawPileLocal[..n - 1], drawRemaining := g.drawRemaining - 1),
           Drawn(g.drawPileLocal[n - 1]))
    else if MissingDeckId(g.deckId) then Step(g, Failed(NoDeckId))
    else if g.drawRemaining <= 0 then Step(g, Failed(DrawPileEmpty))
    else match remote
      case Unavailable => Step(g, Failed(RequestFailed))
      case Served(c, rem) => Step(g.(drawRemaining := rem), Drawn(c))
  }

  /** A card drawn from the local pile leaves the table's cards only by being in the drawer's hands. */
  lemma LocalDrawConservesCards(g: GameState, remote: RemoteDraw)
    requires WellFormed(g) && |g.drawPileLocal| > 0
    ensures var s := DrawFromDeck(g, remote);
      WellFormed(s.state) && CardsInPlay(s.state) + multiset{s.value.card} == CardsInPlay(g)
  {
    var s := DrawFromDeck(g, remote);
    assert multiset(g.drawPileLocal) == multiset(s.state.drawPileLocal) + multiset{s.value.card} by {
      assert g.drawPileLocal == s.state.drawPileLocal + [s.value.card];
    }
  }

  /* ---------------------------------------------------------------------
     reshuffle
     --------------------------------------------------------------------- */

  /**
   * reshuffleDiscardToDraw: with at most one discarded card, false and no change. Otherwise
   * every card below the top is shuffled into the local draw pile (replacing whatever it held),
   * the top alone stays face up, and the remaining count becomes the new pile's size.
   */
  function ReshuffleDiscardToDraw(g: GameState, rolls: nat -> nat): (s: Step<bool>)
    ensures s.value <==> |g.discardPile| > 1
    ensures !s.value ==> s.state == g
    ensures s.value ==>
      var n := |g.discardPile|;
      && s.state.discardPile == [g.discardPile[n - 1]]
      && multiset(s.state.drawPileLocal) == multiset(g.discardPile[..n - 1])
      && s.state.drawRemaining == |s.state.drawPileLocal| == n - 1
      && multiset(s.state.drawPileLocal) + multiset(s.state.discardPile) == multiset(g.discardPile)
    ensures s.state.(drawPileLocal := g.drawPileLocal, discardPile := g.discardPile,
                     drawRemaining := g.drawRemaining) == g
  {
    var n := |g.discardPile|;
    if n <= 1 then Step(g, false)
    else
      var top := g.discardPile[n - 1];
      var rest := g.discardPile[..n - 1];
      var pile := Reverse(Helpers.Shuffle(rest, rolls));
      SplitLast(g.discardPile);
      assert multiset(pile) == multiset(rest);
      Step(g.(drawPileLocal := pile, discardPile := [top], drawRemaining := |pile|), true)
  }

  /** Reshuffling with an empty local pile neither creates nor loses a card. */
  lemma ReshuffleConservesCards(g: GameState, rolls: nat -> nat)
    requires WellFormed(g) && g.drawPileLocal == []
    ensures WellFormed(ReshuffleDiscardToDraw(g, rolls).state)
    ensures CardsInPlay(ReshuffleDiscardToDraw(g, rolls).state) == CardsInPlay(g)
  {
  }

  /** The pile is reversed so that the first draw after a reshuffle is the first card of the shuffled array. */
  lemma FirstDrawAfterReshuffle(g: GameState, rolls: nat -> nat, remote: RemoteDraw)
    requires |g.discardPile| > 1
    ensures var n := |g.discardPile|;
      DrawFromDeck(ReshuffleDiscardToDraw(g, rolls).state, remote).value
        == Drawn(Helpers.Shuffle(g.discardPile[..n - 1], rolls)[0])
  {
  }

  /* ---------------------------------------------------------------------
     take the discard top
     --------------------------------------------------------------------- */

  /**
   * takeTopDiscard: null and no change when the pile is empty or the player to move made the
   * last discard; otherwise the top card leaves the pile and is returned.
   */
  function TakeTopDiscard(g: GameState): (s: Step<Option<Card>>)
    ensures s.value.Some? <==> |g.discardPile| > 0 && g.lastDiscardBy != Some(g.currentPlayerIndex)
    ensures s.value.None? ==> s.state == g
    ensures s.value.Some? ==> s.state.discardPile + [s.value.value] == g.discardPile
    ensures s.state.(discardPile := g.discardPile) == g
  {
    var n := |g.discardPile|;
    if n == 0 then Step(g, None)
    else if g.lastDiscardBy == Some(g.currentPlayerIndex) then Step(g, None)
    else Step(g.(discardPile := g.discardPile[..n - 1]), Some(g.discardPile[n - 1]))
  }

  /** Taking the top moves a card off the table into the taker's grip. */
  lemma TakeTopConservesCards(g: GameState)
    requires WellFormed(g) && TakeTopDiscard(g).value.Some?
    ensures var t := TakeTopDiscard(g);
      WellFormed(t.state) && CardsInPlay(t.state) + multiset{t.value.value} == CardsInPlay(g)
  {
    var t := TakeTopDiscard(g);
    assert g.discardPile == t.state.discardPile + [t.value.value];
  }

  /** Taking the top and putting it back restores the pile. */
  lemma TakeThenPushBack(g: GameState)
    requires TakeTopDiscard(g).value.Some?
    ensures var s := TakeTopDiscard(g);
      s.state.(discardPile := s.state.discardPile + [s.value.value]) == g
  {
  }

  /* ---------------------------------------------------------------------
     replace
     --------------------------------------------------------------------- */

  /**
   * replaceDiscardedSlotWith: with no selection, false and no change. Otherwise the new card is
   * inserted at the selected slot (clamped to the hand's end, as `splice` does), and both the
   * selection and the last-discarder mark are cleared.
   */
  function ReplaceDiscardedSlotWith(g: GameState, newCard: Card): (s: Step<bool>)
    requires WellFormed(g)
    ensures WellFormed(s.state)
    ensures s.value <==> g.selectedCard.Some?
    ensures !s.value ==> s.state == g
    ensures s.value ==>
      var Selection(pid, i) := g.selectedCard.value;
      && s.state.players[pid].hand == InsertAt(g.players[pid].hand, i, newCard)
      && s.state.selectedCard.None? && s.state.lastDiscardBy.None?
    ensures s.state.(players := g.players, selectedCard := g.selectedCard, lastDiscardBy := g.lastDiscardBy) == g
    ensures forall k :: 0 <= k < |g.players| ==> s.state.players[k].(hand := g.players[k].hand) == g.players[k]
  {
    match g.selectedCard
    case None => Step(g, false)
    case Some(Selection(pid, i)) =>
      var p := g.players[pid];
      var g1 := WithPlayer(g, pid, p.(hand := InsertAt(p.hand, i, newCard)));
      Step(g1.(selectedCard := None, lastDiscardBy := None), true)
  }

  /** Refilling a slot adds exactly the new card to the table. */
  lemma ReplaceAddsCard(g: GameState, newCard: Card)
    requires WellFormed(g) && g.selectedCard.Some?
    ensures CardsInPlay(ReplaceDiscardedSlotWith(g, newCard).state) == CardsInPlay(g) + multiset{newCard}
  {
    var s := ReplaceDiscardedSlotWith(g, newCard);
    var pid := g.selectedCard.value.playerId;
    var other := 1 - pid;
    assert s.state.players[other].hand == g.players[other].hand;
    assert multiset(s.state.players[pid].hand) == multiset(g.players[pid].hand) + multiset{newCard};
  }

  /**
   * The two halves of a swap: discarding the selected card and refilling its slot with x
   * overwrites that one slot, keeps the hand's length and order, and clears the marks.
   */
  lemma DiscardThenReplace(g: GameState, x: Card)
    requires WellFormed(g) && SelectionInHand(g) && g.selectedCard.Some?
    ensures var Selection(pid, i) := g.selectedCard.value;
      var d := DiscardSelectedCard(g);
      var r := ReplaceDiscardedSlotWith(d.state, x);
      && r.value
      && r.state.players[pid].hand == g.players[pid].hand[i := x]
      && |r.state.players[pid].hand| == |g.players[pid].hand|
      && r.state.discardPile == g.discardPile + [g.players[pid].hand[i]]
      && r.state.selectedCard.None? && r.state.lastDiscardBy.None?
      && CardsInPlay(r.state) == CardsInPlay(g) + multiset{x}
  {
    var Selection(pid, i) := g.selectedCard.value;
    RemoveThenInsert(g.players[pid].hand, i, x);
    DiscardConservesCards(g);
    ReplaceAddsCard(DiscardSelectedCard(g).state, x);
  }

  /** Discarding and then refilling the slot with the discarded card gives back the same hand. */
  lemma DiscardThenRestore(g: GameState)
    requires WellFormed(g) && SelectionInHand(g) && g.selectedCard.Some?
    ensures var pid := g.selectedCard.value.playerId;
      var d := DiscardSelectedCard(g);
      ReplaceDiscardedSlotWith(d.state, d.value.value).state.players[pid].hand == g.players[pid].hand
  {
    var Selection(pid, i) := g.selectedCard.value;
    RemoveThenInsert(g.players[pid].hand, i, g.players[pid].hand[i]);
  }

  /* ---------------------------------------------------------------------
     resolve
     --------------------------------------------------------------------- */

  /** The strings the resolution functions return. */
  datatype Outcome = Normal | MustDeclare | WinNow | PenaltyActive

  /** The player's must-declare flag set to b; nothing else in the record moves. */
  function WithMustDeclare(g: GameState, pid: nat, b: bool): (r: GameState)
    requires pid < |g.players|
    ensures |r.players| == |g.players|
    ensures r.players[pid].mustDeclare == b
    ensures r.players[pid].(mustDeclare := g.players[pid].mustDeclare) == g.players[pid]
    ensures forall k :: 0 <= k < |g.players| && k != pid ==> r.players[k] == g.players[k]
    ensures r.(players := g.players) == g
  {
    WithPlayer(g, pid, g.players[pid].(mustDeclare := b))
  }

  /**
   * evaluateDeclarationAfterDraw: a winning hand reports penalty-active while the player is
   * penalised and win-now otherwise, touching nothing; a near-win sets must-declare; any other
   * hand clears it.
   */
  function EvaluateDeclarationAfterDraw(g: GameState, playerId: nat): (s: Step<Outcome>)
    requires WellFormed(g) && playerId < |g.players|
    ensures var hand := g.players[playerId].hand;
      && (s.value == WinNow <==> Win.HasWinningHand(hand, g.winMode) && g.players[playerId].canWinNextTurn)
      && (s.value == PenaltyActive <==> Win.HasWinningHand(hand, g.winMode) && !g.players[playerId].canWinNextTurn)
      && (s.value == MustDeclare <==>
            !Win.HasWinningHand(hand, g.winMode) && Win.HasPotentialWinningHand(hand, g.winMode))
      && (s.value == Normal <==>
            !Win.HasWinningHand(hand, g.winMode) && !Win.HasPotentialWinningHand(hand, g.winMode))
    ensures s.value in {WinNow, PenaltyActive} ==> s.state == g
    ensures s.value in {MustDeclare, Normal} ==> s.state == WithMustDeclare(g, playerId, s.value == MustDeclare)
    ensures WellFormed(s.state)
  {
    var p := g.players[playerId];
    if Win.HasWinningHand(p.hand, g.winMode) then
      if !p.canWinNextTurn then Step(g, PenaltyActive) else Step(g, WinNow)
    else if Win.HasPotentialWinningHand(p.hand, g.winMode) then
      Step(WithMustDeclare(g, playerId, true), MustDeclare)
    else Step(WithMustDeclare(g, playerId, false), Normal)
  }

  /**
   * completeTurnAfterReplacement: the same three-way resolution for the player to move, except
   * that a winning hand always reports win-now, penalty or not.
   */
  function CompleteTurnAfterReplacement(g: GameState): (s: Step<Outcome>)
    requires WellFormed(g)
    ensures var hand := Current(g).hand;
      && (s.value == WinNow <==> Win.HasWinningHand(hand, g.winMode))
      && (s.value == MustDeclare <==>
            !Win.HasWinningHand(hand, g.winMode) && Win.HasPotentialWinningHand(hand, g.winMode))
      && (s.value == Normal <==>
            !Win.HasWinningHand(hand, g.winMode) && !Win.HasPotentialWinningHand(hand, g.winMode))
    ensures s.value != PenaltyActive
    ensures s.value == WinNow ==> s.state == g
    ensures s.value != WinNow ==> s.state == WithMustDeclare(g, g.currentPlayerIndex, s.value == MustDeclare)
    ensures WellFormed(s.state)
  {
    var pid := g.currentPlayerIndex;
    var hand := g.players[pid].hand;
    if Win.HasWinningHand(hand, g.winMode) then Step(g, WinNow)
    else if Win.HasPotentialWinningHand(hand, g.winMode) then
      Step(WithMustDeclare(g, pid, true), MustDeclare)
    else Step(WithMustDeclare(g, pid, false), Normal)
  }

  /** The two resolutions agree except that only the draw-time one reports an active penalty. */
  lemma ResolutionsAgree(g: GameState)
    requires WellFormed(g)
    ensures var e := EvaluateDeclarationAfterDraw(g, g.currentPlayerIndex);
      var c := CompleteTurnAfterReplacement(g);
      && e.state == c.state
      && (e.value == c.value || (e.value == PenaltyActive && c.value == WinNow && !Current(g).canWinNextTurn))
  {
  }

  /** The end-of-turn resolution does not look at the penalty: flipping it changes nothing. */
  lemma ResolutionIgnoresPenalty(g: GameState, canWin: bool, until: Option<int>)
    requires WellFormed(g)
    ensures var pid := g.currentPlayerIndex;
      var h := WithPlayer(g, pid, g.players[pid].(canWinNextTurn := canWin, penaltyUntilTurn := until));
      CompleteTurnAfterReplacement(h).value == CompleteTurnAfterReplacement(g).value
  {
  }

  /** A win and a must-declare are never reported together; in the sequence mode only because the win is checked first. */
  lemma ResolutionWinFirst(g: GameState)
    requires WellFormed(g) && g.winMode == Win.SequenceMode
    requires Win.IsSequence(Current(g).hand) && |Current(g).hand| >= 3
    ensures Win.HasPotentialWinningHand(Current(g).hand, g.winMode)
    ensures CompleteTurnAfterReplacement(g).value == WinNow
  {
    Win.SequenceWinIsNearWin(Current(g).hand);
  }

  /* ---------------------------------------------------------------------
     penalties and the end of a turn
     --------------------------------------------------------------------- */

  /** applyPenaltyIfUndeclared: a near-win left undeclared blocks winning until the next turn number. */
  function ApplyPenaltyIfUndeclared(g: GameState, playerId: nat): (r: GameState)
    requires WellFormed(g) && playerId < |g.players|
    ensures |r.players| == |g.players|
    ensures var p := g.players[playerId];
      if p.mustDeclare && !p.declared then
        && !r.players[playerId].canWinNextTurn
        && r.players[playerId].penaltyUntilTurn == Some(g.currentTurn + 1)
        && r.players[playerId].(canWinNextTurn := p.canWinNextTurn, penaltyUntilTurn := p.penaltyUntilTurn) == p
      else r == g
    ensures forall k :: 0 <= k < |g.players| && k != playerId ==> r.players[k] == g.players[k]
    ensures r.(players := g.players) == g
    ensures WellFormed(r)
  {
    var p := g.players[playerId];
    if p.mustDeclare && !p.declared then
      WithPlayer(g, playerId, p.(canWinNextTurn := false, penaltyUntilTurn := Some(g.currentTurn + 1)))
    else g
  }

  /** updatePenaltyStatus: a penalty is lifted exactly when its expiry turn is the current turn. */
  function UpdatePenaltyStatus(g: GameState, playerId: nat): (r: GameState)
    requires WellFormed(g) && playerId < |g.players|
    ensures |r.players| == |g.players|
    ensures var p := g.players[playerId];
      if !p.canWinNextTurn && p.penaltyUntilTurn == Some(g.currentTurn) then
        r.players[playerId] == p.(canWinNextTurn := true, penaltyUntilTurn := None)
      else r == g
    ensures forall k :: 0 <= k < |g.players| && k != playerId ==> r.players[k] == g.players[k]
    ensures r.(players := g.players) == g
    ensures WellFormed(r)
  {
    var p := g.players[playerId];
    if !p.canWinNextTurn && p.penaltyUntilTurn == Some(g.currentTurn) then
      WithPlayer(g, playerId, p.(canWinNextTurn := true, penaltyUntilTurn := None))
    else g
  }

  /**
   * endTurn: penalise the outgoing player for an undeclared near-win, pass the move to the next
   * seat, count the turn, lift the incoming player's penalty if it expires now, drop any
   * selection, and clear the incoming player's declaration.
   */
  function EndTurn(g: GameState): (r: GameState)
    requires WellFormed(g)
    ensures WellFormed(r)
    ensures r.currentPlayerIndex == (g.currentPlayerIndex + 1) % |g.players|
    ensures r.currentPlayerIndex != g.currentPlayerIndex
    ensures r.currentTurn == g.currentTurn + 1
    ensures r.selectedCard.None?
    ensures !r.players[r.currentPlayerIndex].declared
    ensures forall k :: 0 <= k < |g.players| ==> r.players[k].hand == g.players[k].hand
    ensures forall k :: 0 <= k < |g.players| ==> r.players[k].mustDeclare == g.players[k].mustDeclare
    ensures r.(players := g.players, currentPlayerIndex := g.currentPlayerIndex,
               currentTurn := g.currentTurn, selectedCard := g.selectedCard) == g
    ensures r.players[g.currentPlayerIndex].declared == g.players[g.currentPlayerIndex].declared
  {
    PassTurn(ApplyPenaltyIfUndeclared(g, g.currentPlayerIndex))
  }

  /**
   * The hand-over half of endTurn: the next seat moves, the turn is counted, the incoming
   * player's penalty is lifted if it expires now, the selection is dropped and the incoming
   * player's declaration is cleared. The outgoing player is left as it is.
   */
  function PassTurn(g: GameState): (r: GameState)
    requires WellFormed(g)
    ensures WellFormed(r)
    ensures r.currentPlayerIndex == 1 - g.currentPlayerIndex
    ensures r.currentTurn == g.currentTurn + 1
    ensures r.selectedCard.None?
    ensures r.players[g.currentPlayerIndex] == g.players[g.currentPlayerIndex]
    ensures var inc := g.players[r.currentPlayerIndex];
      var after := r.players[r.currentPlayerIndex];
      && !after.declared
      && after.(canWinNextTurn := inc.canWinNextTurn, penaltyUntilTurn := inc.penaltyUntilTurn,
                declared := inc.declared) == inc
      && ((after.canWinNextTurn && after.penaltyUntilTurn.None? && !inc.canWinNextTurn)
            <==> (!inc.canWinNextTurn && inc.penaltyUntilTurn == Some(g.currentTurn + 1)))
      && (!(!inc.canWinNextTurn && inc.penaltyUntilTurn == Some(g.currentTurn + 1)) ==>
            after.canWinNextTurn == inc.canWinNextTurn && after.penaltyUntilTurn == inc.penaltyUntilTurn)
    ensures r.(players := g.players, currentPlayerIndex := g.currentPlayerIndex,
               currentTurn := g.currentTurn, selectedCard := g.selectedCard) == g
  {
    var next := (g.currentPlayerIndex + 1) % |g.players|;
    var g2 := UpdatePenaltyStatus(g.(currentPlayerIndex := next, currentTurn := g.currentTurn + 1), next);
    var players := g2.players[next := g2.players[next].(declared := false)];
    g.(players := players, currentPlayerIndex := next, currentTurn := g.currentTurn + 1, selectedCard := None)
  }

  /**
   * endTurn's penalty bookkeeping: the outgoing player is penalised exactly when a near-win is
   * left undeclared, and otherwise keeps its penalty state; the incoming player's penalty is
   * lifted exactly when it is due at the new turn number.
   */
  lemma EndTurnPenalties(g: GameState)
    requires WellFormed(g)
    ensures var r := EndTurn(g);
      var out := g.players[g.currentPlayerIndex];
      var after := r.players[g.currentPlayerIndex];
      && (out.mustDeclare && !out.declared ==>
            !after.canWinNextTurn && after.penaltyUntilTurn == Some(g.currentTurn + 1))
      && (!(out.mustDeclare && !out.declared) ==>
            after.canWinNextTurn == out.canWinNextTurn && after.penaltyUntilTurn == out.penaltyUntilTurn)
    ensures var r := EndTurn(g);
      var inc := g.players[r.currentPlayerIndex];
      var after := r.players[r.currentPlayerIndex];
      (after.canWinNextTurn && after.penaltyUntilTurn.None? && !inc.canWinNextTurn)
        <==> (!inc.canWinNextTurn && inc.penaltyUntilTurn == Some(g.currentTurn + 1))
  {
  }

  /** Ending a turn moves no card. */
  lemma EndTurnConservesCards(g: GameState)
    requires WellFormed(g)
    ensures CardsInPlay(EndTurn(g)) == CardsInPlay(g)
  {
    var r := EndTurn(g);
    assert r.players[0].hand == g.players[0].hand && r.players[1].hand == g.players[1].hand;
  }

  /** With two seats, two ends of turn give the move back. */
  lemma EndTurnTwiceRestoresIndex(g: GameState)
    requires WellFormed(g)
    ensures EndTurn(EndTurn(g)).currentPlayerIndex == g.currentPlayerIndex
    ensures EndTurn(EndTurn(g)).currentTurn == g.currentTurn + 2
  {
  }

  /** The penalty book survives every end of turn: the only new expiry turn is the new counter value. */
  lemma EndTurnKeepsPenaltyBook(g: GameState)
    requires WellFormed(g) && PenaltyBook(g)
    ensures PenaltyBook(EndTurn(g))
  {
    var r := EndTurn(g);
    EndTurnPenalties(g);
    forall i | 0 <= i < |r.players| && r.players[i].penaltyUntilTurn.Some?
      ensures r.players[i].penaltyUntilTurn.value <= r.currentTurn
    {
      assert i == 0 || i == 1;
      assert g.players[i].penaltyUntilTurn.Some? ==> g.players[i].penaltyUntilTurn.value <= g.currentTurn;
    }
  }

  /**
   * Under the penalty book a penalty is never lifted by an end of turn: the incoming player's
   * expiry turn has come already, so it is never the new counter value, and the outgoing player
   * is not checked.
   */
  lemma EndTurnNeverLiftsPenalty(g: GameState)
    requires WellFormed(g) && PenaltyBook(g)
    ensures forall k :: 0 <= k < |g.players| && !g.players[k].canWinNextTurn ==>
      !EndTurn(g).players[k].canWinNextTurn
  {
    var r := EndTurn(g);
    EndTurnPenalties(g);
    var inc := r.currentPlayerIndex;
    assert inc != g.currentPlayerIndex;
    assert g.players[inc].penaltyUntilTurn.Some? ==> g.players[inc].penaltyUntilTurn.value <= g.currentTurn;
  }

  /** One end of turn keeps both the book and player k's penalty. */
  lemma PenaltySurvivesEndTurn(g: GameState, k: nat)
    requires WellFormed(g) && PenaltyBook(g)
    requires k < |g.players| && !g.players[k].canWinNextTurn
    ensures WellFormed(EndTurn(g)) && PenaltyBook(EndTurn(g))
    ensures !EndTurn(g).players[k].canWinNextTurn
  {
    EndTurnNeverLiftsPenalty(g);
    EndTurnKeepsPenaltyBook(g);
  }

  /** n consecutive ends of turn. */
  function EndTurns(g: GameState, n: nat): (r: GameState)
    requires WellFormed(g)
    ensures WellFormed(r)
    ensures r.currentTurn == g.currentTurn + n
    ensures forall k :: 0 <= k < |g.players| ==> r.players[k].hand == g.players[k].hand
    decreases n
  {
    if n == 0 then g else EndTurns(EndTurn(g), n - 1)
  }

  /** Once penalised, a player stays penalised however many turns pass. */
  lemma {:induction false} PenaltyNeverExpires(g: GameState, n: nat, k: nat)
    requires WellFormed(g) && PenaltyBook(g)
    requires k < |g.players| && !g.players[k].canWinNextTurn
    ensures !EndTurns(g, n).players[k].canWinNextTurn
    decreases n
  {
    if n > 0 {
      PenaltySurvivesEndTurn(g, k);
      PenaltyNeverExpires(EndTurn(g), n - 1, k);
      EndTurnsStep(g, n, k);
    }
  }

  /** One unfolding of EndTurns, kept apart so the induction above stays small. */
  lemma EndTurnsStep(g: GameState, n: nat, k: nat)
    requires WellFormed(g) && n > 0 && k < |g.players|
    requires !EndTurns(EndTurn(g), n - 1).players[k].canWinNextTurn
    ensures !EndTurns(g, n).players[k].canWinNextTurn
  {
  }

  /** An undeclared near-win at the end of a turn blocks that player from winning for the rest of the game. */
  lemma UndeclaredNearWinBlocksForever(g: GameState, n: nat)
    requires WellFormed(g) && PenaltyBook(g)
    requires Current(g).mustDeclare && !Current(g).declared
    ensures !EndTurns(EndTurn(g), n).players[g.currentPlayerIndex].canWinNextTurn
  {
    EndTurnKeepsPenaltyBook(g);
    PenaltyNeverExpires(EndTurn(g), n, g.currentPlayerIndex);
  }
}

=== FILE: win.dfy ===
/**
 * The rules evaluator: the rank table used for runs, and the win and near-win
 * ("must declare") predicates of the three rule modes. Every predicate here is
 * written the way the game code computes it (lists, a counts object, a sort);
 * the lemmas relate each one to a definition in terms of the hand's multiset
 * of values or ranks.
 */
module Win {
  import opened Opt
  import opened Cards
  import opened Sorting

  const Ak47Mode: string := "ak47"
  const PairsMode: string := "pairs"
  const SequenceMode: string := "sequence"

  /* ---------------------------------------------------------------------
     Rank table
     --------------------------------------------------------------------- */

  /** The 13 keys of the rank table, from the highest rank down. */
  const RankNames: seq<string> :=
    ["ACE", "KING", "QUEEN", "JACK", "10", "9", "8", "7", "6", "5", "4", "3", "2"]

  /**
   * `valueOrder[v]`. A string outside the table reads as `undefined`, modelled as None.
   */
  function ValueOrder(v: string): (r: Option<int>)
    ensures r.Some? <==> v in RankNames
    ensures r.Some? ==> 2 <= r.value <= 14
  {
    if v == "ACE" then Some(14)
    else if v == "KING" then Some(13)
    else if v == "QUEEN" then Some(12)
    else if v == "JACK" then Some(11)
    else if v == "10" then Some(10)
    else if v == "9" then Some(9)
    else if v == "8" then Some(8)
    else if v == "7" then Some(7)
    else if v == "6" then Some(6)
    else if v == "5" then Some(5)
    else if v == "4" then Some(4)
    else if v == "3" then Some(3)
    else if v == "2" then Some(2)
    else None
  }

  /** The table lists 13 distinct names and gives the i-th name (from ACE down) the rank 14 - i. */
  lemma ValueOrderTable()
    ensures |RankNames| == 13
    ensures forall i :: 0 <= i < |RankNames| ==> ValueOrder(RankNames[i]) == Some(14 - i)
    ensures forall i, j :: 0 <= i < j < |RankNames| ==> RankNames[i] != RankNames[j]
  {
  }

  /** No two names share a rank, and every rank 2..14 has a name: the table is a bijection onto 2..14. */
  lemma ValueOrderBijective(v: string, w: string, n: int)
    ensures ValueOrder(v).Some? && ValueOrder(v) == ValueOrder(w) ==> v == w
    ensures 2 <= n <= 14 ==> ValueOrder(RankNames[14 - n]) == Some(n)
  {
    ValueOrderTable();
  }

  /* ---------------------------------------------------------------------
     AK47 mode
     --------------------------------------------------------------------- */

  /** The four values the AK47 mode looks for. */
  const Needed: seq<string> := ["ACE", "KING", "4", "7"]

  /** Which of the four AK47 values the hand holds. */
  ghost function NeededPresent(hand: seq<Card>): set<string> {
    set v | v in Needed && v in Values(hand)
  }

  /**
   * How many entries of `wanted` satisfy `vs.includes(w)`, counted one entry at a
   * time as the `forEach` in isPotentialAK47 and the loop in scoreHand do.
   */
  function CountPresent(wanted: seq<string>, vs: seq<string>): (n: nat)
    ensures n <= |wanted|
    ensures n == |wanted| <==> forall k :: 0 <= k < |wanted| ==> wanted[k] in vs
  {
    if |wanted| == 0 then 0
    else (if wanted[0] in vs then 1 else 0) + CountPresent(wanted[1..], vs)
  }

  /** For a list without repeats the count is the size of the set of listed values that are present. */
  lemma {:induction false} CountPresentIsSetSize(wanted: seq<string>, vs: seq<string>)
    requires forall i, j :: 0 <= i < j < |wanted| ==> wanted[i] != wanted[j]
    ensures CountPresent(wanted, vs) == |set v | v in wanted && v in vs|
  {
    var all := set v | v in wanted && v in vs;
    if |wanted| == 0 {
      assert all == {};
    } else {
      CountPresentIsSetSize(wanted[1..], vs);
      var rest := set v | v in wanted[1..] && v in vs;
      assert wanted[0] !in rest;
      if wanted[0] in vs {
        assert all == rest + {wanted[0]};
      } else {
        assert all == rest;
      }
    }
  }

  /** The hand holds every listed value exactly when the set of present ones is all four. */
  lemma NeededPresentAll(hand: seq<Card>)
    ensures (forall k :: 0 <= k < |Needed| ==> Needed[k] in Values(hand))
      <==> NeededPresent(hand) == {"ACE", "KING", "4", "7"}
  {
    var vs := Values(hand);
    var present := NeededPresent(hand);
    assert Needed[0] == "ACE" && Needed[1] == "KING" && Needed[2] == "4" && Needed[3] == "7";
    if forall k :: 0 <= k < |Needed| ==> Needed[k] in vs {
      assert "ACE" in present && "KING" in present && "4" in present && "7" in present;
      assert forall v :: v in present ==> v in Needed;
    }
    if present == {"ACE", "KING", "4", "7"} {
      forall k | 0 <= k < |Needed| ensures Needed[k] in vs {
        assert Needed[k] in present;
      }
    }
  }

  /** `match` in scoreHand and `count` in isPotentialAK47: how many of the four values the hand holds. */
  function MatchCount(hand: seq<Card>): (n: nat)
    ensures n == |NeededPresent(hand)|
    ensures n <= 4
  {
    CountPresentIsSetSize(Needed, Values(hand));
    CountPresent(Needed, Values(hand))
  }

  /** isAK47: `needed.every(v => values.includes(v))`. */
  function IsAK47(hand: seq<Card>): (r: bool)
    ensures r <==> NeededPresent(hand) == {"ACE", "KING", "4", "7"}
    ensures r <==> MatchCount(hand) == 4
  {
    var vs := Values(hand);
    var all := forall k :: 0 <= k < |Needed| ==> Needed[k] in vs;
    NeededPresentAll(hand);
    all
  }

  /** isPotentialAK47: exactly three of the four values are present. */
  function IsPotentialAK47(hand: seq<Card>): (r: bool)
    ensures r <==> |NeededPresent(hand)| == 3
    ensures r ==> !IsAK47(hand)
  {
    MatchCount(hand) == 3
  }

  /* ---------------------------------------------------------------------
     Pairs mode
     --------------------------------------------------------------------- */

  /**
   * The `counts` object built by `hand.forEach(c => counts[c.value] = (counts[c.value] || 0) + 1)`:
   * one key per distinct value, mapped to how often it occurs.
   */
  function Tally(vs: seq<string>): (counts: map<string, nat>)
    ensures forall v :: v in counts <==> v in vs
    ensures forall v :: v in counts ==> counts[v] == multiset(vs)[v]
    decreases |vs|
  {
    if |vs| == 0 then map[]
    else
      var last := vs[|vs| - 1];
      var before := Tally(vs[..|vs| - 1]);
      assert vs == vs[..|vs| - 1] + [last];
      before[last := (if last in before then before[last] else 0) + 1]
  }

  /** `Object.values(counts).filter(n => n === k).length`. */
  function KeysCounted(counts: map<string, nat>, k: nat): nat {
    |set v | v in counts && counts[v] == k|
  }

  /** The distinct elements of a multiset that occur exactly k times. */
  ghost function OfMultiplicity(ms: multiset<string>, k: nat): set<string> {
    set v | v in ms && ms[v] == k
  }

  /** The distinct values that occur exactly k times in the hand. */
  ghost function WithMultiplicity(hand: seq<Card>, k: nat): set<string> {
    OfMultiplicity(multiset(Values(hand)), k)
  }

  /** The counts object reports, for each multiplicity, exactly the values that have it. */
  lemma TallyMultiplicity(hand: seq<Card>, k: nat)
    ensures KeysCounted(Tally(Values(hand)), k) == |WithMultiplicity(hand, k)|
  {
    var counts := Tally(Values(hand));
    assert (set v | v in counts && counts[v] == k) == WithMultiplicity(hand, k);
  }

  /** hasTwoPairs: exactly two values occur exactly twice. */
  function HasTwoPairs(hand: seq<Card>): (r: bool)
    ensures r <==> |WithMultiplicity(hand, 2)| == 2
  {
    TallyMultiplicity(hand, 2);
    KeysCounted(Tally(Values(hand)), 2) == 2
  }

  /** isPotentialTwoPairs: not already two pairs, and one pair beside two singletons. */
  function IsPotentialTwoPairs(hand: seq<Card>): (r: bool)
    ensures r <==> |WithMultiplicity(hand, 2)| == 1 && |WithMultiplicity(hand, 1)| == 2
    ensures r ==> !HasTwoPairs(hand)
  {
    TallyMultiplicity(hand, 2);
    TallyMultiplicity(hand, 1);
    var counts := Tally(Values(hand));
    var pairs := KeysCounted(counts, 2);
    var singles := KeysCounted(counts, 1);
    if pairs >= 2 then false
    else pairs == 1 && singles == 2
  }

  /** Four values made of two values twice each. */
  ghost predicate TwoPairShape(ms: multiset<string>, v: string, w: string) {
    v != w && ms == multiset{v, v, w, w}
  }

  /** Four values made of one value twice and two further distinct values once each. */
  ghost predicate OnePairShape(ms: multiset<string>, p: string, a: string, b: string) {
    p != a && p != b && a != b && ms == multiset{p, p, a, b}
  }

  /** A sub-multiset as large as the whole is the whole. */
  lemma SubMultisetOfSameSize<T>(a: multiset<T>, b: multiset<T>)
    requires a <= b && |a| == |b|
    ensures a == b
  {
    var rest := b - a;
    assert b == a + rest;
    assert |rest| == 0;
  }

  /** Four values with exactly two distinct values occurring twice are {v, v, w, w}. */
  lemma TwoPairsGiveShape(ms: multiset<string>) returns (v: string, w: string)
    requires |ms| == 4 && |OfMultiplicity(ms, 2)| == 2
    ensures TwoPairShape(ms, v, w)
  {
    var s2 := OfMultiplicity(ms, 2);
    v :| v in s2;
    assert |s2 - {v}| == 1;
    w :| w in s2 - {v};
    var shape := multiset{v, v, w, w};
    assert ms[v] == 2 && ms[w] == 2;
    forall x ensures shape[x] <= ms[x] {
      if x != v && x != w {
        assert shape[x] == 0;
      }
    }
    SubMultisetOfSameSize(shape, ms);
  }

  lemma ShapeGivesTwoPairs(ms: multiset<string>, v: string, w: string)
    requires TwoPairShape(ms, v, w)
    ensures |OfMultiplicity(ms, 2)| == 2
  {
    assert OfMultiplicity(ms, 2) == {v, w};
  }

  lemma TwoPairsOfFourValues(ms: multiset<string>)
    requires |ms| == 4
    ensures |OfMultiplicity(ms, 2)| == 2 <==> exists v, w :: TwoPairShape(ms, v, w)
  {
    if |OfMultiplicity(ms, 2)| == 2 {
      var v, w := TwoPairsGiveShape(ms);
    }
    if exists v, w :: TwoPairShape(ms, v, w) {
      var v, w :| TwoPairShape(ms, v, w);
      ShapeGivesTwoPairs(ms, v, w);
    }
  }

  /** Four values with one value twice and two values once are {p, p, a, b}. */
  lemma OnePairGivesShape(ms: multiset<string>) returns (p: string, a: string, b: string)
    requires |ms| == 4 && |OfMultiplicity(ms, 2)| == 1 && |OfMultiplicity(ms, 1)| == 2
    ensures OnePairShape(ms, p, a, b)
  {
    var s2 := OfMultiplicity(ms, 2);
    var s1 := OfMultiplicity(ms, 1);
    p :| p in s2;
    a :| a in s1;
    assert |s1 - {a}| == 1;
    b :| b in s1 - {a};
    var shape := multiset{p, p, a, b};
    assert ms[p] == 2 && ms[a] == 1 && ms[b] == 1;
    assert p != a && p != b;
    forall x ensures shape[x] <= ms[x] {
      if x != p && x != a && x != b {
        assert shape[x] == 0;
      }
    }
    SubMultisetOfSameSize(shape, ms);
  }

  lemma ShapeGivesOnePair(ms: multiset<string>, p: string, a: string, b: string)
    requires OnePairShape(ms, p, a, b)
    ensures |OfMultiplicity(ms, 2)| == 1 && |OfMultiplicity(ms, 1)| == 2
  {
    assert OfMultiplicity(ms, 2) == {p};
    assert OfMultiplicity(ms, 1) == {a, b};
  }

  lemma NearTwoPairsOfFourValues(ms: multiset<string>)
    requires |ms| == 4
    ensures |OfMultiplicity(ms, 2)| == 1 && |OfMultiplicity(ms, 1)| == 2
      <==> exists p, a, b :: OnePairShape(ms, p, a, b)
  {
    if |OfMultiplicity(ms, 2)| == 1 && |OfMultiplicity(ms, 1)| == 2 {
      var p, a, b := OnePairGivesShape(ms);
    }
    if exists p, a, b :: OnePairShape(ms, p, a, b) {
      var p, a, b :| OnePairShape(ms, p, a, b);
      ShapeGivesOnePair(ms, p, a, b);
    }
  }

  /** For four cards, the pairs win holds exactly for the shapes {v, v, w, w} with v != w. */
  lemma TwoPairsOfFour(hand: seq<Card>)
    requires |hand| == 4
    ensures HasTwoPairs(hand) <==> exists v, w :: TwoPairShape(multiset(Values(hand)), v, w)
  {
    var ms := multiset(Values(hand));
    assert |ms| == 4;
    assert HasTwoPairs(hand) <==> |OfMultiplicity(ms, 2)| == 2;
    TwoPairsOfFourValues(ms);
  }

  /** For four cards, the pairs near-win holds exactly for the shapes {p, p, a, b} with p, a, b distinct. */
  lemma NearTwoPairsOfFour(hand: seq<Card>)
    requires |hand| == 4
    ensures IsPotentialTwoPairs(hand) <==> exists p, a, b :: OnePairShape(multiset(Values(hand)), p, a, b)
  {
    var ms := multiset(Values(hand));
    assert |ms| == 4;
    assert IsPotentialTwoPairs(hand) <==> |OfMultiplicity(ms, 2)| == 1 && |OfMultiplicity(ms, 1)| == 2;
    NearTwoPairsOfFourValues(ms);
  }

  /** A two-pair shape holds no value more than twice. */
  lemma TwoPairShapeBound(ms: multiset<string>, x: string, y: string, v: string)
    requires TwoPairShape(ms, x, y)
    ensures ms[v] <= 2
  {
  }

  /** A one-pair shape holds no value more than twice. */
  lemma OnePairShapeBound(ms: multiset<string>, p: string, a: string, b: string, v: string)
    requires OnePairShape(ms, p, a, b)
    ensures ms[v] <= 2
  {
  }

  /** Four values where one occurs three or four times hold no pair shape. */
  lemma TripleHasNoShape(ms: multiset<string>, v: string)
    requires |ms| == 4 && ms[v] >= 3
    ensures |OfMultiplicity(ms, 2)| != 2
    ensures |OfMultiplicity(ms, 2)| == 1 ==> |OfMultiplicity(ms, 1)| != 2
  {
    if |OfMultiplicity(ms, 2)| == 2 {
      var x, y := TwoPairsGiveShape(ms);
      TwoPairShapeBound(ms, x, y, v);
    }
    if |OfMultiplicity(ms, 2)| == 1 && |OfMultiplicity(ms, 1)| == 2 {
      var p, a, b := OnePairGivesShape(ms);
      OnePairShapeBound(ms, p, a, b, v);
    }
  }

  /** Three or four of a kind in a four-card hand is neither a pairs win nor a pairs near-win. */
  lemma TripleIsNoPairs(hand: seq<Card>, v: string)
    requires |hand| == 4 && Count(hand, v) >= 3
    ensures !HasTwoPairs(hand) && !IsPotentialTwoPairs(hand)
  {
    TripleHasNoShape(multiset(Values(hand)), v);
  }

  /* ---------------------------------------------------------------------
     Sequence mode
     --------------------------------------------------------------------- */

  /** The ranks of the cards whose value is in the table, in hand order. */
  function KnownRanks(hand: seq<Card>): (rs: seq<int>)
    ensures |rs| <= |hand|
    ensures forall x :: x in rs ==> 2 <= x <= 14
    ensures |rs| == |hand| <==> forall i :: 0 <= i < |hand| ==> ValueOrder(hand[i].value).Some?
  {
    if |hand| == 0 then []
    else
      var rest := KnownRanks(hand[1..]);
      assert forall i :: 1 <= i < |hand| ==> hand[1..][i - 1] == hand[i];
      match ValueOrder(hand[0].value)
      case Some(x) => [x] + rest
      case None => rest
  }

  /** How many cards of the hand have rank m. */
  ghost function RankCount(hand: seq<Card>, m: int): nat {
    multiset(KnownRanks(hand))[m]
  }

  /** A table value's rank count is that value's count: the table is injective. */
  lemma {:induction false} RankCountIsValueCount(hand: seq<Card>, v: string)
    requires ValueOrder(v).Some?
    ensures RankCount(hand, ValueOrder(v).value) == Count(hand, v)
  {
    if |hand| > 0 {
      RankCountIsValueCount(hand[1..], v);
      assert Values(hand) == [hand[0].value] + Values(hand[1..]);
      ValueOrderBijective(v, hand[0].value, 2);
    }
  }

  /** Lifts numbers to possibly-undefined entries. */
  function Lift(s: seq<int>): (r: seq<Option<int>>)
    ensures |r| == |s|
    ensures forall i :: 0 <= i < |s| ==> r[i] == Some(s[i])
  {
    seq(|s|, i requires 0 <= i < |s| => Some(s[i]))
  }

  /** The known ranks in ascending order. */
  function SortedRanks(hand: seq<Card>): (s: seq<int>)
    ensures Sorted(s)
    ensures |s| == |KnownRanks(hand)|
    ensures multiset(s) == multiset(KnownRanks(hand))
  {
    SortAsc(KnownRanks(hand))
  }

  /**
   * `hand.map(c => valueOrder[c.value]).sort((a, b) => a - b)`: the known ranks ascending,
   * then one `undefined` per unknown value (JavaScript's sort always moves `undefined` last).
   */
  function SortedNums(hand: seq<Card>): (nums: seq<Option<int>>)
    ensures |nums| == |hand|
    ensures forall i :: 0 <= i < |SortedRanks(hand)| ==> nums[i] == Some(SortedRanks(hand)[i])
    ensures forall i :: |SortedRanks(hand)| <= i < |hand| ==> nums[i] == None
  {
    var s := SortedRanks(hand);
    Lift(s) + seq(|hand| - |s|, _ => None)
  }

  /** The JavaScript values on either side of `===` here: a number, `NaN`, or `undefined`. */
  datatype JsNum = Num(n: int) | NaN | Undefined

  /** A rank read from the table, with `undefined` for an unknown value. */
  function AsJs(a: Option<int>): JsNum {
    if a.Some? then Num(a.value) else Undefined
  }

  /** `a + 1`: a number plus one, and `undefined + 1` is `NaN`. */
  function PlusOne(a: JsNum): JsNum {
    match a
    case Num(n) => Num(n + 1)
    case _ => NaN
  }

  /** `x === y`: `NaN` equals nothing, itself included; otherwise equal values are equal. */
  function StrictEquals(x: JsNum, y: JsNum): bool {
    x == y && !x.NaN?
  }

  /**
   * `b === a + 1` on two sorted entries. Since `undefined + 1` is `NaN` and `undefined` is not a
   * number, it holds exactly when both ranks are known and b is one more than a.
   */
  function Succ(a: Option<int>, b: Option<int>): (r: bool)
    ensures r <==> a.Some? && b.Some? && b.value == a.value + 1
  {
    StrictEquals(AsJs(b), PlusOne(AsJs(a)))
  }

  /**
   * isSequence: every sorted entry is one more than the entry before it. Fewer than two cards
   * pass trivially, and a passing hand of two or more has every value in the rank table.
   */
  function IsSequence(hand: seq<Card>): (r: bool)
    ensures |hand| <= 1 ==> r
    ensures r && |hand| >= 2 ==> |KnownRanks(hand)| == |hand|
  {
    var nums := SortedNums(hand);
    var r := forall i :: 0 <= i < |nums| - 1 ==> Succ(nums[i], nums[i + 1]);
    assert r && |hand| >= 2 ==> Succ(nums[|hand| - 2], nums[|hand| - 1]);
    r
  }

  /** isPotentialSequence: some three adjacent sorted entries go up by one twice; those three are known ranks. */
  function IsPotentialSequence(hand: seq<Card>): (r: bool)
    ensures r ==> |KnownRanks(hand)| >= 3
  {
    var nums := SortedNums(hand);
    exists i :: 0 <= i < |nums| - 2 && Succ(nums[i], nums[i + 1]) && Succ(nums[i + 1], nums[i + 2])
  }

  /** m, m + 1, ..., m + n - 1. */
  function RunSeq(m: int, n: nat): (r: seq<int>)
    ensures |r| == n
    ensures forall k :: 0 <= k < n ==> r[k] == m + k
  {
    seq(n, k => m + k)
  }

  /** The ranks are, as a multiset, the run starting at m. */
  ghost predicate IsRunFrom(rs: seq<int>, m: int) {
    multiset(rs) == multiset(RunSeq(m, |rs|))
  }

  /** The sequence win described by ranks: at most one card, or every value known and the ranks form a run. */
  ghost predicate SequenceWinByRanks(hand: seq<Card>) {
    |hand| <= 1 || (|KnownRanks(hand)| == |hand| && exists m :: IsRunFrom(KnownRanks(hand), m))
  }

  /** The sequence near-win described by counts: ranks m and m + 2 are held, and m + 1 exactly once. */
  ghost predicate ThreeRunAt(hand: seq<Card>, m: int) {
    RankCount(hand, m) >= 1 && RankCount(hand, m + 1) == 1 && RankCount(hand, m + 2) >= 1
  }

  lemma {:induction false} StepsFromHead(s: seq<int>, k: nat)
    requires forall i :: 0 <= i < |s| - 1 ==> s[i + 1] == s[i] + 1
    requires k < |s|
    ensures s[k] == s[0] + k
  {
    if k > 0 {
      StepsFromHead(s, k - 1);
    }
  }

  lemma RunIsSorted(m: int, n: nat)
    ensures Sorted(RunSeq(m, n))
  {
  }

  /** A winning sequence of two or more cards has no value outside the table. */
  lemma SequenceAllKnown(hand: seq<Card>)
    requires |hand| >= 2 && IsSequence(hand)
    ensures |KnownRanks(hand)| == |hand|
  {
    var nums := SortedNums(hand);
    assert Succ(nums[|hand| - 2], nums[|hand| - 1]);
  }

  /** A winning sequence's sorted ranks are the run from its lowest rank. */
  lemma SequenceSortedIsRun(hand: seq<Card>)
    requires |hand| >= 2 && IsSequence(hand) && |KnownRanks(hand)| == |hand|
    ensures SortedRanks(hand) == RunSeq(SortedRanks(hand)[0], |hand|)
  {
    var s := SortedRanks(hand);
    var nums := SortedNums(hand);
    forall i | 0 <= i < |s| - 1 ensures s[i + 1] == s[i] + 1 {
      assert Succ(nums[i], nums[i + 1]);
    }
    forall k | 0 <= k < |s| ensures s[k] == RunSeq(s[0], |hand|)[k] {
      StepsFromHead(s, k);
    }
  }

  /** Ranks forming a run sort into that run, so every sorted entry is its predecessor plus one. */
  lemma RunIsSequence(hand: seq<Card>, m: int)
    requires |KnownRanks(hand)| == |hand| && IsRunFrom(KnownRanks(hand), m)
    ensures IsSequence(hand)
  {
    var s := SortedRanks(hand);
    var run := RunSeq(m, |hand|);
    var nums := SortedNums(hand);
    RunIsSorted(m, |hand|);
    SortedUnique(s, run);
    assert s == run;
    forall i | 0 <= i < |nums| - 1 ensures Succ(nums[i], nums[i + 1]) {
      assert s[i] == m + i && s[i + 1] == m + i + 1;
    }
  }

  /** isSequence holds exactly when the hand's ranks are a run (or the hand has at most one card). */
  lemma SequenceWinIff(hand: seq<Card>)
    ensures IsSequence(hand) <==> SequenceWinByRanks(hand)
  {
    if |hand| >= 2 {
      if IsSequence(hand) {
        SequenceAllKnown(hand);
        SequenceSortedIsRun(hand);
        assert IsRunFrom(KnownRanks(hand), SortedRanks(hand)[0]);
      }
      if SequenceWinByRanks(hand) {
        var m :| IsRunFrom(KnownRanks(hand), m);
        RunIsSequence(hand, m);
      }
    }
  }

  /** Three adjacent entries of s going up by one twice, starting at position i. */
  ghost predicate StepRunAt(s: seq<int>, i: int) {
    0 <= i && i + 2 < |s| && s[i + 1] == s[i] + 1 && s[i + 2] == s[i + 1] + 1
  }

  /** A number above every element of a sequence does not occur in it. */
  lemma AboveAllAbsent(a: seq<int>, bound: int, y: int)
    requires forall k :: 0 <= k < |a| ==> a[k] <= bound
    requires bound < y
    ensures multiset(a)[y] == 0
  {
  }

  /** A number below every element of a sequence does not occur in it. */
  lemma BelowAllAbsent(a: seq<int>, bound: int, y: int)
    requires forall k :: 0 <= k < |a| ==> bound <= a[k]
    requires y < bound
    ensures multiset(a)[y] == 0
  {
  }

  /** In a sorted sequence, an adjacent triple m, m+1, m+2 means m+1 occurs exactly once. */
  lemma StepRunCounts(s: seq<int>, i: int)
    requires Sorted(s) && StepRunAt(s, i)
    ensures multiset(s)[s[i]] >= 1 && multiset(s)[s[i] + 1] == 1 && multiset(s)[s[i] + 2] >= 1
  {
    var m := s[i];
    var before := s[..i + 1];
    var after := s[i + 2..];
    assert s == before + [s[i + 1]] + after;
    assert forall k :: 0 <= k < |before| ==> before[k] <= m;
    AboveAllAbsent(before, m, m + 1);
    assert forall k :: 0 <= k < |after| ==> m + 2 <= after[k];
    BelowAllAbsent(after, m + 2, m + 1);
    assert s[i] in s && s[i + 2] in s;
  }

  /** The single occurrence of m + 1 in a sorted sequence holding m sits right after an m. */
  lemma NeighbourBelow(s: seq<int>, j: int, m: int)
    requires Sorted(s) && 0 <= j < |s| && s[j] == m + 1
    requires m in s && multiset(s[..j])[m + 1] == 0
    ensures j >= 1 && s[j - 1] == m
  {
    var lo :| 0 <= lo < |s| && s[lo] == m;
    assert lo < j;
    assert s[..j][j - 1] == s[j - 1];
    assert s[j - 1] in s[..j];
  }

  /** The single occurrence of m + 1 in a sorted sequence holding m + 2 sits right before an m + 2. */
  lemma NeighbourAbove(s: seq<int>, j: int, m: int)
    requires Sorted(s) && 0 <= j < |s| && s[j] == m + 1
    requires m + 2 in s && multiset(s[j + 1..])[m + 1] == 0
    ensures j + 1 < |s| && s[j + 1] == m + 2
  {
    var hi :| 0 <= hi < |s| && s[hi] == m + 2;
    assert j < hi;
    assert s[j + 1..][0] == s[j + 1];
    assert s[j + 1] in s[j + 1..];
  }

  /** A sequence's multiset is that of the part before position j, the entry at j and the part after. */
  lemma SplitAt(s: seq<int>, j: int)
    requires 0 <= j < |s|
    ensures multiset(s) == multiset(s[..j]) + multiset{s[j]} + multiset(s[j + 1..])
  {
    assert s == s[..j] + [s[j]] + s[j + 1..];
  }

  /** In a sorted sequence, if m and m+2 occur and m+1 occurs exactly once, they sit side by side. */
  lemma CountsGiveStepRun(s: seq<int>, m: int) returns (i: int)
    requires Sorted(s)
    requires multiset(s)[m] >= 1 && multiset(s)[m + 1] == 1 && multiset(s)[m + 2] >= 1
    ensures StepRunAt(s, i) && s[i] == m
  {
    assert m + 1 in s;
    var j :| 0 <= j < |s| && s[j] == m + 1;
    SplitAt(s, j);
    assert multiset(s[..j])[m + 1] == 0 && multiset(s[j + 1..])[m + 1] == 0;
    NeighbourBelow(s, j, m);
    NeighbourAbove(s, j, m);
    i := j - 1;
  }

  /** Sorted entries i .. i + 2 that go up by one twice are all known, so they are ranks i .. i + 2. */
  lemma StepsFromNums(hand: seq<Card>, i: int)
    requires 0 <= i < |hand| - 2
    requires Succ(SortedNums(hand)[i], SortedNums(hand)[i + 1])
    requires Succ(SortedNums(hand)[i + 1], SortedNums(hand)[i + 2])
    ensures StepRunAt(SortedRanks(hand), i)
  {
    var s := SortedRanks(hand);
    var nums := SortedNums(hand);
    assert nums[i + 2].Some?;
    assert i + 2 < |s|;
    assert nums[i] == Some(s[i]) && nums[i + 1] == Some(s[i + 1]) && nums[i + 2] == Some(s[i + 2]);
  }

  /** Ranks i .. i + 2 that go up by one twice are sorted entries i .. i + 2 that do. */
  lemma NumsFromSteps(hand: seq<Card>, i: int)
    requires StepRunAt(SortedRanks(hand), i)
    ensures 0 <= i < |SortedNums(hand)| - 2
    ensures Succ(SortedNums(hand)[i], SortedNums(hand)[i + 1])
    ensures Succ(SortedNums(hand)[i + 1], SortedNums(hand)[i + 2])
  {
    var s := SortedRanks(hand);
    var nums := SortedNums(hand);
    assert nums[i] == Some(s[i]) && nums[i + 1] == Some(s[i + 1]) && nums[i + 2] == Some(s[i + 2]);
  }

  /** An adjacent run of three among the sorted entries is an adjacent run of three among the known ranks. */
  lemma PotentialSequenceSteps(hand: seq<Card>)
    ensures IsPotentialSequence(hand) <==> exists i :: StepRunAt(SortedRanks(hand), i)
  {
    var nums := SortedNums(hand);
    if IsPotentialSequence(hand) {
      var i :| 0 <= i < |nums| - 2 && Succ(nums[i], nums[i + 1]) && Succ(nums[i + 1], nums[i + 2]);
      StepsFromNums(hand, i);
    }
    if exists i :: StepRunAt(SortedRanks(hand), i) {
      var i :| StepRunAt(SortedRanks(hand), i);
      NumsFromSteps(hand, i);
    }
  }

  /** An adjacent sorted triple gives the counts. */
  lemma StepsGiveThreeRun(hand: seq<Card>, i: int)
    requires StepRunAt(SortedRanks(hand), i)
    ensures ThreeRunAt(hand, SortedRanks(hand)[i])
  {
    var s := SortedRanks(hand);
    StepRunCounts(s, i);
    assert multiset(s) == multiset(KnownRanks(hand));
  }

  /** The counts give an adjacent sorted triple. */
  lemma ThreeRunGivesSteps(hand: seq<Card>, m: int) returns (i: int)
    requires ThreeRunAt(hand, m)
    ensures StepRunAt(SortedRanks(hand), i)
  {
    var s := SortedRanks(hand);
    assert multiset(s) == multiset(KnownRanks(hand));
    i := CountsGiveStepRun(s, m);
  }

  /** isPotentialSequence holds exactly when some m has m and m + 2 present and m + 1 exactly once. */
  lemma SequenceNearIff(hand: seq<Card>)
    ensures IsPotentialSequence(hand) <==> exists m :: ThreeRunAt(hand, m)
  {
    var s := SortedRanks(hand);
    PotentialSequenceSteps(hand);
    if exists i :: StepRunAt(s, i) {
      var i :| StepRunAt(s, i);
      StepsGiveThreeRun(hand, i);
    }
    if exists m :: ThreeRunAt(hand, m) {
      var m :| ThreeRunAt(hand, m);
      var i := ThreeRunGivesSteps(hand, m);
    }
  }

  /** A run holds each rank at most once. */
  lemma {:induction false} RunCountsAtMostOne(m: int, n: nat, x: int)
    ensures multiset(RunSeq(m, n))[x] <= 1
  {
    if n > 0 {
      RunCountsAtMostOne(m, n - 1, x);
      var prev := RunSeq(m, n - 1);
      assert RunSeq(m, n) == prev + [m + n - 1];
      assert forall k :: 0 <= k < |prev| ==> prev[k] <= m + n - 2;
      AboveAllAbsent(prev, m + n - 2, m + n - 1);
    }
  }

  /** Two cards of the same value never form a run. */
  lemma DuplicateBreaksSequence(hand: seq<Card>, i: nat, j: nat)
    requires i < |hand| && j < |hand| && i != j
    requires hand[i].value == hand[j].value
    ensures !IsSequence(hand)
  {
    SequenceWinIff(hand);
    DuplicateCounts(hand, i, j);
    var known := KnownRanks(hand);
    if |known| == |hand| && exists m :: IsRunFrom(known, m) {
      var m :| IsRunFrom(known, m);
      var v := hand[i].value;
      assert ValueOrder(v).Some?;
      RankCountIsValueCount(hand, v);
      RunCountsAtMostOne(m, |known|, ValueOrder(v).value);
    }
  }

  /* ---------------------------------------------------------------------
     Mode dispatch
     --------------------------------------------------------------------- */

  /** hasWinningHand: the win predicate selected by the rule mode; false for any other mode string. */
  function HasWinningHand(hand: seq<Card>, mode: string): (r: bool)
    ensures mode != Ak47Mode && mode != PairsMode && mode != SequenceMode ==> !r
  {
    if mode == Ak47Mode then IsAK47(hand)
    else if mode == PairsMode then HasTwoPairs(hand)
    else if mode == SequenceMode then IsSequence(hand)
    else false
  }

  /** hasPotentialWinningHand: the near-win predicate selected by the rule mode; false for any other mode string. */
  function HasPotentialWinningHand(hand: seq<Card>, mode: string): (r: bool)
    ensures mode != Ak47Mode && mode != PairsMode && mode != SequenceMode ==> !r
  {
    if mode == Ak47Mode then IsPotentialAK47(hand)
    else if mode == PairsMode then IsPotentialTwoPairs(hand)
    else if mode == SequenceMode then IsPotentialSequence(hand)
    else false
  }

  /**
   * What the mode-selected win means, in terms of the hand's contents: all four AK47 values,
   * two values held twice each, or a run of known ranks. Any other mode string never wins.
   */
  lemma WinningHandMeans(hand: seq<Card>, mode: string)
    ensures mode == Ak47Mode ==> (HasWinningHand(hand, mode) <==> NeededPresent(hand) == {"ACE", "KING", "4", "7"})
    ensures mode == PairsMode ==> (HasWinningHand(hand, mode) <==> |WithMultiplicity(hand, 2)| == 2)
    ensures mode == SequenceMode ==> (HasWinningHand(hand, mode) <==> SequenceWinByRanks(hand))
    ensures mode != Ak47Mode && mode != PairsMode && mode != SequenceMode ==> !HasWinningHand(hand, mode)
  {
    SequenceWinIff(hand);
  }

  /**
   * What the mode-selected near-win means: three of the four AK47 values, one pair beside two
   * singles, or three consecutive known ranks. Any other mode string is never near a win.
   */
  lemma NearWinningHandMeans(hand: seq<Card>, mode: string)
    ensures mode == Ak47Mode ==> (HasPotentialWinningHand(hand, mode) <==> |NeededPresent(hand)| == 3)
    ensures mode == PairsMode ==>
      (HasPotentialWinningHand(hand, mode) <==> |WithMultiplicity(hand, 2)| == 1 && |WithMultiplicity(hand, 1)| == 2)
    ensures mode == SequenceMode ==> (HasPotentialWinningHand(hand, mode) <==> exists m :: ThreeRunAt(hand, m))
    ensures mode != Ak47Mode && mode != PairsMode && mode != SequenceMode ==> !HasPotentialWinningHand(hand, mode)
  {
    SequenceNearIff(hand);
  }

  /** Outside sequence mode a hand is never both a win and a near-win. */
  lemma WinExcludesNearWin(hand: seq<Card>, mode: string)
    requires mode != SequenceMode
    ensures !(HasWinningHand(hand, mode) && HasPotentialWinningHand(hand, mode))
  {
  }

  /** In sequence mode every winning run of three or more cards is also a near-win. */
  lemma SequenceWinIsNearWin(hand: seq<Card>)
    requires |hand| >= 3 && HasWinningHand(hand, SequenceMode)
    ensures HasPotentialWinningHand(hand, SequenceMode)
  {
    var nums := SortedNums(hand);
    assert Succ(nums[0], nums[1]) && Succ(nums[1], nums[2]);
  }
}

=== FILE: win_cases.dfy ===
/**
 * The sequence mode's edge cases, for any cards whose known ranks are the ones named: the ace
 * ranks 14 only, a near-win needs three adjacent sorted ranks (a gap after them is fine), and
 * a repeated rank in the middle breaks the three-step.
 */
module WinCases {
  import opened Cards
  import opened Win

  /** A run of n ranks from m holds exactly the ranks m .. m + n - 1. */
  lemma RunHolds(m: int, n: nat, x: int)
    ensures x in RunSeq(m, n) <==> m <= x < m + n
  {
    if m <= x < m + n {
      assert RunSeq(m, n)[x - m] == x;
    }
  }

  /** Ace, 2, 3, 4 in any order (ranks 2, 3, 4, 14) is no run: the ace is 14 and never 1. */
  lemma AceIsHighOnly(hand: seq<Card>)
    requires multiset(KnownRanks(hand)) == multiset{2, 3, 4, 14}
    ensures !HasWinningHand(hand, SequenceMode)
  {
    WinningHandMeans(hand, SequenceMode);
    var rs := KnownRanks(hand);
    if m :| IsRunFrom(rs, m) {
      assert 2 in multiset(RunSeq(m, |rs|)) && 14 in multiset(RunSeq(m, |rs|));
      RunHolds(m, |rs|, 2);
      RunHolds(m, |rs|, 14);
      assert false;
    }
  }

  /** Ranks 5, 6, 7, 9 are a near-win: 5 and 7 are held and 6 exactly once. */
  lemma GapAfterThreeIsNearWin(hand: seq<Card>)
    requires multiset(KnownRanks(hand)) == multiset{5, 6, 7, 9}
    ensures HasPotentialWinningHand(hand, SequenceMode)
  {
    NearWinningHandMeans(hand, SequenceMode);
    assert ThreeRunAt(hand, 5);
  }

  /** Held 5, 6, 6, 7: no rank m has m and m + 2 held with m + 1 held once. */
  lemma NoThreeRunInRepeat(hand: seq<Card>, m: int)
    requires multiset(KnownRanks(hand)) == multiset{5, 6, 6, 7}
    ensures !ThreeRunAt(hand, m)
  {
    var ms := multiset(KnownRanks(hand));
    if m == 5 {
      assert ms[6] == 2;
    } else if m == 6 {
      assert ms[8] == 0;
    } else if m == 7 {
      assert ms[9] == 0;
    } else {
      assert ms[m] == 0;
    }
  }

  /** Ranks 5, 6, 6, 7 are no near-win: the only candidate middle rank, 6, is held twice. */
  lemma RepeatInsideIsNoNearWin(hand: seq<Card>)
    requires multiset(KnownRanks(hand)) == multiset{5, 6, 6, 7}
    ensures !HasPotentialWinningHand(hand, SequenceMode)
  {
    SequenceNearIff(hand);
    forall m ensures !ThreeRunAt(hand, m) {
      NoThreeRunInRepeat(hand, m);
    }
  }
}
